=== FILE: README.md ===
# diffoscope core, modelled in Dafny

diffoscope compares two files or directories and reports their differences as a
tree of `Difference` nodes. This project models the sequential logic at the
centre of that comparison and proves properties of it:

- **The difference tree** (`difference.dfy`, `traversal.dfy`,
  `difference_examples.dfy`):
  - a node with two labels, a unified-diff text, comments and ordered children;
  - its own size and total size, and how `add_details` and `add_comment` change them;
  - breadth-first traversal and the priority-queue traversal `traverse_heapq(f)`;
  - `get_reverse` and `equals`;
  - the exact sizes and the 13-node visiting order that the test suite asserts.
- **The feeders** (`feeders.dfy`), which stream input into the external `diff`:
  - the line-capped pass-through with its "Too much input" marker;
  - the reader variants for byte lines and text lines;
  - the success and error rule of `from_command`, with its output cache;
  - the 4096-character chunked writer `from_text`, and `empty`.
- **The Mach-O comparator** (`macho_commands.dfy`, `macho_sections.dfy`):
  - command lines of the `otool`, `llvm-readobj` and `llvm-objdump` commands, and their line filters;
  - the primary-then-fallback rule for section commands;
  - the fixed `otool` section table;
  - the `llvm-readobj --sections` parser, a small state machine;
  - backend choice and container member names and lookup;
  - the depth guard and detail merging of `_compare_using_details`;
  - the architecture list read from `llvm-readobj`.
- **The comparison pool** (`comparison_pool.dfy`):
  - `ComparisonPool.map` with result slots keyed by submission index;
  - completion in any order;
  - the wait loop, which raises for the first failing job in submission order.
- **R data files** (`rdata.dfy`):
  - the `.rds`/`.rdx` extension check and the 8-byte header;
  - `RdsFile.recognizes`;
  - the `.rdx` name derived from an `.rdb` name;
  - the `None` and empty-list rules of `get_module_path_for_rdb` and `RdbFile.compare_details`.

`text.dfy` gives the Python string and bytes primitives the code relies on:
- `str.strip`, `str.lstrip(chars)` (which strips a character *set*), `split()[0]`, `splitlines`;
- UTF-8 encoding and decoding;
- decimal formatting.

`wrappers.dfy` gives `Option` and `Result`.

Every external tool, file, clock and process is a parameter. So are the
SHA-1 digest, the output cache and the `Config()` settings. Raised Python
exceptions become `Result` failures.

The implementation of `Difference` is not part of this model; its behaviour
is taken from what `tests/test_difference.py` asserts about it. The own
size of a node is the length of both labels, of the diff text and of every
comment. This definition reproduces each size the tests assert: 20, 44, 48 and 284.

The digest of a capped feeder covers the *filtered* output of every line,
as `h.update(out)` does (`diffoscope/feeders.py:48-51`).

## Model

| member | source | states |
|---|---|---|
| Difference.New | tests/test_difference.py:129-135 | building a difference fails with a type error exactly when either label is missing; otherwise it holds the two labels and the text, with no comments and no children |
| Difference.AddDetails | tests/test_difference.py:68-71 | after `add_details` the total size grows by the total size of the added children, the own size is unchanged, the children are the old ones followed by the new ones in order, and labels, text and comments are unchanged |
| Difference.AddComment | tests/test_difference.py:72-73 | after `add_comment` both own and total size grow by the comment's length, the comment is appended, and labels and text are unchanged |
| Difference.SizeOfAnyEnumeration | tests/test_difference.py:28-34 | any walk that visits every node of the tree exactly once sums the own sizes to `size()` |
| Difference.FlattenSumIsSize | tests/test_difference.py:28-30 | the own sizes of all nodes of a tree add up to its total size |
| Difference.SumSelfPermutation | tests/test_difference.py:30-34 | the sum of own sizes does not depend on the order in which nodes are visited |
| Difference.EqualsIsValueEquality | tests/test_difference.py:38 | `equals` holds exactly when the two trees are equal: both directions |
| Difference.Equals | tests/test_difference.py:38 | every tree `equals` itself; `EqualsIsValueEquality` gives the converse |
| Difference.Reverse | tests/test_difference.py:38-39 | `get_reverse` swaps the two labels, reverses the diff text, keeps the comments and keeps the number of children |
| Difference.ReverseTwice | tests/test_difference.py:38 | reversing twice gives back a tree that `equals` the original, for any diff-text reversal that is an involution |
| Difference.ReverseKeepsSize | tests/test_difference.py:39 | `get_reverse().size() == size()` for any length-preserving diff-text reversal |
| Traversal.TraverseBreadthVisitsAll | tests/test_difference.py:28-30 | breadth-first traversal visits every node exactly once, so its own-size sum equals `size()` |
| Traversal.TraverseBreadth | tests/test_difference.py:28-30 | breadth-first traversal yields the root first and every node of the tree exactly once |
| Traversal.BreadthFromVisitsAll | tests/test_difference.py:30 | breadth-first traversal from any queue visits exactly the nodes of the queued subtrees, each once |
| Traversal.TraverseHeapqVisitsAll | tests/test_difference.py:31-34 | `traverse_heapq` visits every node exactly once for any scoring function and any order on scores, so its own-size sum equals `size()` |
| Traversal.TraverseHeapq | tests/test_difference.py:31-34 | the priority walk yields the root first and every node of the tree exactly once, for any scorer and any order on scores |
| Traversal.HeapqFromVisitsAll | tests/test_difference.py:31-34 | the heap walk from any queue yields exactly the nodes of the queued subtrees, each once |
| Traversal.Pop | tests/test_difference.py:31-34 | a pop takes the entry at the index `MinIndex` picks, which `MinIndexIsMinimal` shows has no score below it; the queue keeps every other entry in place and gains the popped node's children, each scored, in child order; nothing else enters or leaves |
| Traversal.Score | tests/test_difference.py:106-108 | each child pushed is scored as `f(child, parent key)`, with the call counter advancing by one per call |
| Traversal.TraverseHeapqStartsAtRoot | tests/test_difference.py:106-108 | the root is the first node yielded, scored with no parent key |
| Traversal.MinIndexIsMinimal | tests/test_difference.py:103-104 | the node popped has no score strictly below it in the heap |
| Traversal.TraverseHeapqAscending | tests/test_difference.py:103-108 | when each child scores above its parent, the scores yielded never decrease |
| Traversal.CounterTraversalIsBreadthFirst | tests/test_difference.py:31-33 | scored by a plain call counter, `traverse_heapq` yields exactly the breadth-first order |
| DifferenceExamples.WalksAgree | tests/test_difference.py:28-34 | `assert_size` holds for every tree: `size()`, the breadth-first sum and the counter-scored heap sum agree |
| DifferenceExamples.SizeOfNewNode | tests/test_difference.py:66-67 | the node "path1"/"path2" with a 10-character diff has size 20 |
| DifferenceExamples.SizeAfterAddDetails | tests/test_difference.py:68-71 | adding the child "path1/a"/"path2/a" with a 10-character diff gives 44 |
| DifferenceExamples.SizeAfterAddComment | tests/test_difference.py:72-73 | adding the comment "lol1" gives 48 |
| DifferenceExamples.BuiltByAddDetails | tests/test_difference.py:77-102 | the example tree is the one the test builds by `add_details` calls |
| DifferenceExamples.ExampleSize | tests/test_difference.py:110 | the example tree has size 284 by `size()`, by breadth-first sum and by counter-scored heap sum |
| DifferenceExamples.RankLtIsStrictWeakOrder | tests/test_difference.py:106-108 | Python's tuple `<` on `(depth, size_self)` keys is a strict weak order |
| DifferenceExamples.DepthSizeIncreases | tests/test_difference.py:106-108 | with the test's scorer every child's key is above its parent's key |
| DifferenceExamples.HeapqOrderOfTheExample | tests/test_difference.py:111-126 | the heap walk of the example tree yields root, a, c, b, c/1, a/3, a/2, b/2, b/3, c/3, b/1, a/1, c/2 |
| DifferenceExamples.HeapqLabelsOfTheExample | tests/test_difference.py:111-126 | the labels of that walk with their first six characters dropped are exactly the test's 13 expected strings |
| DifferenceExamples.ExampleScoresAscend | tests/test_difference.py:103-104 | in the example's walk, depth never decreases, and within one depth the own size never decreases |
| Feeders.Kept | diffoscope/feeders.py:46-58 | the line numbered `n`, counting from 1, reaches the output exactly when `n < max_lines`, because the count is incremented before the test |
| Feeders.Feed | diffoscope/feeders.py:34-70 | the reference definition gives the output: the filtered lines numbered below the cap, in order, with nothing else; the marker is appended once, carrying the digest of every filtered line, iff the cap is finite and reached, and the result is then true; with no cap every line passes and no marker is written; without the marker the result is the newline flag of the last non-empty line |
| Feeders.RawLastNlAsWritten | diffoscope/feeders.py:59-60 | the newline test as written, applied to a byte line, is never true |
| Feeders.FromRawReaderAsWritten | diffoscope/feeders.py:34-72 | as written, `from_raw_reader` over byte lines returns true exactly when it wrote the marker |
| Feeders.RawNewlineCounterexample | diffoscope/feeders.py:59-60 | on the byte line "\n" the test as written says false where the corrected test says true |
| Feeders.RawLastNl | diffoscope/feeders.py:59-60 | the corrected newline test is true exactly when the byte line ends with byte 10 |
| Feeders.TextLastNl | diffoscope/feeders.py:59-60 | for a text line the test is true exactly when it ends with "\n" |
| Feeders.FromRawReader | diffoscope/feeders.py:34-72 | the byte-line feeder with the corrected newline test; with no filter and no cap, the lines are written unchanged |
| Feeders.FromTextReader | diffoscope/feeders.py:75-86 | text lines are filtered, if a filter is given, and then UTF-8 encoded; each line below the cap is written as such |
| Feeders.ErrorOutput | diffoscope/feeders.py:138-146 | the error message is stderr when non-empty; otherwise it is the first stdout line, decoded and with whitespace trimmed from both ends up to the first and last other characters, followed by "\n[…]" exactly when more lines follow; it is empty exactly when neither yields text |
| Feeders.ErrorOutputIsTheTrim | diffoscope/feeders.py:138-146 | any slice of the first stdout line that drops only whitespace and keeps non-space characters at both ends, followed by the marker, is the message: the trimmed line is unique |
| Feeders.FromCommand | diffoscope/feeders.py:113-152 | a cache hit counts as exit code 0; the output goes through the capped feeder; exit codes 0 and −15 succeed and cache the output under the key, if there is one; any other code raises `CalledProcessError` with the error message and leaves the cache unchanged |
| Feeders.FromText | diffoscope/feeders.py:158-164 | it writes ceil(n/4096) chunks, each of 1 to 4096 characters, encoded; their concatenation is the encoded content; it returns true exactly when the content ends with "\n", and false for empty content |
| Feeders.WriteChunks | diffoscope/feeders.py:160-161 | for any encoder that maps concatenation to concatenation, the loop over offsets 0, 4096, … writes ceil(n/4096) pieces, piece i being the encoded slice starting at 4096·i, and together they are the encoding of the whole content |
| Feeders.Empty | diffoscope/feeders.py:167-171 | it writes nothing and returns false |
| MachoCommands.SegmentAndSection | diffoscope/comparators/macho.py:191-192 | `segment, section = name.split(",")` succeeds exactly when the name has one comma; the two parts rejoin to the name |
| MachoCommands.Cmdline | diffoscope/comparators/macho.py:125-308 | each command's argument list: tool name first and path last; an otool section command is `otool -arch A <flags> -s SEG SECT path`; llvm-objdump gets `-arch A -section S` and four fixed options; it fails exactly when an otool section name does not split in two |
| MachoCommands.PathFilter | diffoscope/comparators/macho.py:141-146 | a line starting with "path:" becomes a slice of what follows the prefix; the bytes dropped on either side are whitespace, and the slice has no whitespace at either end; any other line is returned unchanged |
| MachoCommands.PathFilterIsTheTrim | diffoscope/comparators/macho.py:141-146 | any slice of what follows the prefix that drops only whitespace and keeps non-space bytes at both ends is what the filter returns |
| MachoCommands.PathFilterFixedPoint | diffoscope/comparators/macho.py:181-186 | a line without the prefix is a fixed point of the filter |
| MachoCommands.FileLineFilter | diffoscope/comparators/macho.py:235-239 | the llvm-readobj filter empties exactly the lines starting with "File: " and returns every other line unchanged |
| MachoCommands.FileLineFilterIdempotent | diffoscope/comparators/macho.py:235-239 | applying the llvm-readobj filter twice is the same as applying it once |
| MachoCommands.Filter | diffoscope/comparators/macho.py:141-146 | the llvm-readobj commands empty exactly the "File: " lines and keep the others; every other command turns a line starting with "path:" into what follows that prefix, trimmed of whitespace at both ends (a slice with only whitespace dropped around it and no whitespace at either end), and leaves any other line unchanged |
| MachoCommands.Fallback | diffoscope/comparators/macho.py:195-198 | only `OtoolDisassemble` has a fallback, and it is `OtoolDisassembleInternal` |
| MachoCommands.FallbackChainEnds | diffoscope/comparators/macho.py:205-215 | a fallback has no fallback of its own |
| MachoCommands.Differences | diffoscope/comparators/macho.py:333-354 | the primary result comes first; the fallback result follows exactly when the primary is None and a fallback exists |
| MachoCommands.SectionCompare | diffoscope/comparators/macho.py:478-494 | a primary result is kept; only when it is None is the fallback's result used |
| MachoCommands.SectionCompareIsLastDifference | diffoscope/comparators/macho.py:486-492 | comparing a section gives the last entry of the backend's `differences` list |
| MachoCommands.OtoolSections | diffoscope/comparators/macho.py:367-381 | otool's table has exactly seven distinct keys in the fixed order "__TEXT,__text", "__TEXT,__const", "__TEXT,__cstring", "__DATA,__data", "__DATA,__const", "__DATA,__bss", "__DATA,__common"; the first, "__TEXT,__text", is the only one that maps to disassembly, every other key to a dump |
| MachoCommands.OtoolSectionsHaveCmdlines | diffoscope/comparators/macho.py:367-381 | every entry of otool's table yields a command line |
| MachoCommands.ArchitectureCommands | diffoscope/comparators/macho.py:551-577 | with lipo: otool headers and libraries; else with llvm-readobj: exactly the six llvm-readobj commands of `LLVM_COMMANDS`, in its order (file headers, needed libraries, symbols, dynamic symbols, relocations, dynamic relocations); else none |
| MachoSections.LlvmSections | diffoscope/comparators/macho.py:397-447 | the parsed table has distinct keys of the form "segment,name", without spaces, each mapped to `LlvmObjdump`; `LlvmSectionsOfBlocks` says which keys |
| MachoSections.ScanLine | diffoscope/comparators/macho.py:410-444 | one line of the parser keeps every key found so far, adds none while skipping, clears name and segment whenever it adds a key, and never leaves a ready name and segment pending |
| MachoSections.ScanLineIndented | diffoscope/comparators/macho.py:411-412 | indentation is removed before a line is tested: a line read with leading whitespace is read as the line without it |
| MachoSections.UnlabelledLine | diffoscope/comparators/macho.py:416-433 | a line that, unindented, starts with none of "Arch:", "Name:" and "Segment:" only completes what is pending inside the requested block, and changes nothing when nothing ready is pending |
| MachoSections.SignificantAppend | diffoscope/comparators/macho.py:410 | the labelled lines of two runs of lines are those of the first run followed by those of the second |
| MachoSections.SignificantOne | diffoscope/comparators/macho.py:411-412 | an indented labelled line counts as the line without its indentation; an unlabelled line does not count |
| MachoSections.ScanSignificant | diffoscope/comparators/macho.py:410-445 | from any scan with nothing ready pending, the parser reads any lines exactly as it reads their labelled lines, unindented: the other lines and the indentation change nothing |
| MachoSections.Complete | diffoscope/comparators/macho.py:433-445 | when both a non-empty name and a non-empty segment are pending, the key "segment,name" is set and both are cleared, the skip flag unchanged; otherwise nothing changes |
| MachoSections.InsertKey | diffoscope/comparators/macho.py:440 | setting a key in the ordered dictionary: a key already present keeps its place and changes nothing, a new key goes last; no key is duplicated |
| MachoSections.Field | diffoscope/comparators/macho.py:424-429 | a line without the tag yields nothing; a tag line yields the first word of what remains after the tag's characters (as a set) are stripped from the left and whitespace is trimmed, and fails exactly when no word remains |
| MachoSections.ScanSkipsOtherBlocks | diffoscope/comparators/macho.py:414-422 | while skipping, lines that do not open the requested architecture's block change nothing |
| MachoSections.NoBlockNoSections | diffoscope/comparators/macho.py:397-447 | output without an "Arch:" line for the requested architecture yields no sections |
| MachoSections.ArchLineOpens | diffoscope/comparators/macho.py:416-418 | the line "Arch: a" opens the block for architecture `a` |
| MachoSections.NameLineSets | diffoscope/comparators/macho.py:424-426 | inside the block a "Name:" line records the section name |
| MachoSections.SegmentLineSets | diffoscope/comparators/macho.py:427-429 | inside the block a "Segment:" line records the segment name |
| MachoSections.OneSection | diffoscope/comparators/macho.py:397-447 | an "Arch:", "Name:", "Segment:" block yields exactly the one key "segment,name" mapped to `LlvmObjdump` |
| MachoSections.InsertAll | diffoscope/comparators/macho.py:440 | setting keys one after another keeps the existing keys as a prefix, adds exactly the new keys, and never duplicates a key |
| MachoSections.InsertAllAppend | diffoscope/comparators/macho.py:440 | setting the keys of two runs is setting the first run and then the second |
| MachoSections.ScanSections | diffoscope/comparators/macho.py:424-445 | inside the requested block, each "Name:" line followed by its "Segment:" line sets the key "segment,name" and clears both pending values |
| MachoSections.SkipSections | diffoscope/comparators/macho.py:414-422 | outside the requested block, section lines change nothing |
| MachoSections.ScanBlock | diffoscope/comparators/macho.py:414-445 | an architecture block sets its sections' keys exactly when it is the requested architecture's, and leaves no value pending |
| MachoSections.ScanBlocks | diffoscope/comparators/macho.py:410-445 | over a run of blocks, the keys set are those of the requested architecture's blocks, in first-insertion order |
| MachoSections.LlvmSectionsOfBlocks | diffoscope/comparators/macho.py:397-447 | for any `llvm-readobj` output made of architecture blocks, each listing sections by a "Name:" and a "Segment:" line, the table is the requested architecture's "segment,name" keys, each once, in the order they first appear, each mapped to `LlvmObjdump` |
| MachoSections.LlvmSectionsOfOutput | diffoscope/comparators/macho.py:397-447 | for any `llvm-readobj` output, indented and with any other lines among the labelled ones, whose labelled lines unindented are those of some architecture blocks: the table is the one those blocks give |
| MachoSections.ArchesAsWritten | diffoscope/comparators/macho.py:597-604 | as written: the same number of architectures as the corrected reading, each the corrected one's "Arch: " line stripped with the character set of "Arch: " |
| MachoSections.ArchLinesWrittenMeant | diffoscope/comparators/macho.py:599-603 | line by line, each architecture as written is the corrected one's "Arch: " line stripped with the character set of "Arch: " |
| MachoSections.ArchStripCounterexample | diffoscope/comparators/macho.py:600 | an architecture whose name starts with "h" loses that letter as written, and keeps it when the prefix is removed |
| MachoSections.HppaCounterexample | diffoscope/comparators/macho.py:600 | as written "Arch: hppa" reads as "ppa"; with the prefix removed it reads as "hppa" |
| MachoSections.ArchesRoundTrip | diffoscope/comparators/macho.py:597-604 | with the prefix removed, reading back the output for any list of architectures gives that list |
| MachoSections.ArchesOfHeaders | diffoscope/comparators/macho.py:597-604 | with the prefix removed, output made of file headers, each any lines that are not "Arch: " lines ("File:", "Format:", …) followed by its "Arch: " line, lists each header's architecture, in order |
| MachoSections.Arches | diffoscope/comparators/macho.py:597-604 | with the prefix removed, every architecture listed is the rest of an output line that is "Arch: " followed by it, and the rest of every such line is listed |
| MachoSections.ArchLinesSound | diffoscope/comparators/macho.py:599-603 | every architecture listed comes from an "Arch: " line |
| MachoSections.ArchLinesComplete | diffoscope/comparators/macho.py:599-603 | the rest of every "Arch: " line is listed |
| MachoSections.ArchLinesAppend | diffoscope/comparators/macho.py:599-603 | lines are read in order, one after another: the architectures of two runs of lines are the first run's followed by the second's, both as written and as meant |
| MachoSections.ArchLinesOne | diffoscope/comparators/macho.py:599-603 | one line lists its rest after "Arch: " (as written: stripped by the character set) when it starts with "Arch: ", and nothing otherwise |
| MachoSections.ArchesOfLines | diffoscope/comparators/macho.py:599-603 | the output of lines without breaks is read one line at a time, whatever the lines say |
| MachoSections.NoArchLines | diffoscope/comparators/macho.py:599-603 | lines none of which starts with "Arch: " list no architecture |
| MachoSections.ContainerSections | diffoscope/comparators/macho.py:503-514 | otool is used when available; otherwise llvm-readobj with llvm-objdump, and then the table is exactly the llvm parser's, a parse failure raised as such; with neither `RequiredToolNotFound` is raised |
| MachoSections.MemberNames | diffoscope/comparators/macho.py:516-518 | member names are the decompiled names followed by the section keys |
| MachoSections.GetMember | diffoscope/comparators/macho.py:520-527 | a section key gives that section with its command; any other name is passed to the decompiling container |
| MachoSections.MemberNamesResolve | diffoscope/comparators/macho.py:516-527 | every section name listed resolves back to its own section and command |
| MachoSections.Present | diffoscope/comparators/macho.py:112 | dropping the None entries leaves nothing exactly when all are None |
| MachoSections.PresentPicks | diffoscope/comparators/macho.py:112 | the kept entries are the values at strictly increasing positions, and every position holding a value is among them |
| MachoSections.PresentUnique | diffoscope/comparators/macho.py:112 | any list taken that way is exactly what the filter keeps |
| MachoSections.CompareUsingDetails | diffoscope/comparators/macho.py:92-117 | own details then nested ones, without the None entries, become the children; the result is None exactly when none remain, even after a depth comment; the comment "Reached max container depth (d)" is added exactly when depth ≥ max, and no-recurse is then passed |
| MachoSections.MergedSize | diffoscope/comparators/macho.py:92-117 | the merged difference's size is its own size plus the sizes of every kept detail, own and nested |
| ComparisonPool.Submit | diffoscope/parallel/comparison_pool.py:37-40 | one job per argument, in argument order, each carrying its submission index |
| ComparisonPool.SlotsByIndex | diffoscope/parallel/comparison_pool.py:33-40 | whatever the completion order, slot `i` holds the result of `fun(args[i])` when that job returned; no other slot changes |
| ComparisonPool.CompletionOrderIrrelevant | diffoscope/parallel/comparison_pool.py:33-40 | any two completion orders leave the same slots |
| ComparisonPool.Raise | diffoscope/parallel/comparison_pool.py:13-17 | a `PickleError` is wrapped in `CommandFailedToExecute`, whose string is the `repr` of the error; any other exception propagates unchanged |
| ComparisonPool.Map | diffoscope/parallel/comparison_pool.py:27-53 | slots as above; nothing is raised iff every job returns; otherwise the earliest failing job in submission order decides what is raised; the pool is closed and joined exactly when nothing is raised |
| RData.A2bHex | diffoscope/comparators/rdata.py:33 | decoding hex yields half as many bytes as digits, and fails on an odd count |
| RData.HexRoundTrip | diffoscope/comparators/rdata.py:33 | hex decoding inverts hex encoding for every byte string |
| RData.HeaderSpelling | diffoscope/comparators/rdata.py:33 | "580a000000020003" decodes to the bytes 58 0a 00 00 00 02 00 03 |
| RData.RdsNamesPass | diffoscope/comparators/rdata.py:46-47 | every name ending in ".rds" or ".rdx" passes the extension check |
| RData.RdsNamesOnly | diffoscope/comparators/rdata.py:46-47 | only such names pass it |
| RData.CheckRdsExtension | diffoscope/comparators/rdata.py:46-47 | a name passes exactly when its last four characters are ".rd" followed by "s" or "x" |
| RData.RecognizedHasHeader | diffoscope/comparators/rdata.py:103-111 | a recognised file starts with the header, and either its own name or its container's source name passes the extension check |
| RData.OwnNameSuffices | diffoscope/comparators/rdata.py:103-111 | a passing own name and the header are enough |
| RData.ContainerSourceSuffices | diffoscope/comparators/rdata.py:103-111 | a container whose source name passes, together with the header, is enough |
| RData.StandaloneNeedsOwnName | diffoscope/comparators/rdata.py:103-111 | without a container, a file whose name fails the check is never recognised |
| RData.Recognizes | diffoscope/comparators/rdata.py:103-111 | a file is recognised exactly when it starts with the header and its own name, or its container's source name, passes the extension check |
| RData.SplitExt | diffoscope/comparators/rdata.py:69 | `os.path.splitext`: the parts rejoin to the path; the extension is empty or starts with its only dot and has no '/' |
| RData.Basename | diffoscope/comparators/rdata.py:69 | `os.path.basename`: the part after the last '/', with no '/' of its own |
| RData.RdxNameOf | diffoscope/comparators/rdata.py:69 | the index name of "dir/stem.ext" is "stem.rdx" |
| RData.RdxName | diffoscope/comparators/rdata.py:69 | the index name ends in ".rdx" and holds no "/": it names a member beside the database, never a path |
| RData.ModulePath | diffoscope/comparators/rdata.py:50-85 | a module path exists exactly when the file has a container holding the index member, and it is then `os.path.join(temp_dir, "temp")`: the temporary directory followed by "temp", with a '/' between them unless the directory is empty or ends in one |
| RData.CompareRdb | diffoscope/comparators/rdata.py:127-134 | no comparison exactly when either module path is None; otherwise one comparison of the two paths |
| RData.ComparedWithIndexes | diffoscope/comparators/rdata.py:127-134 | two databases are compared exactly when both have their index beside them in a container |
| Text.SplitLinesUnlines | diffoscope/comparators/macho.py:410 | `splitlines` recovers any list of lines joined with "\n" |
| Text.StripTrims | diffoscope/comparators/macho.py:145 | `strip` returns a slice of its input, dropping only elements of the stripped set on either side |
| Text.StripUnique | diffoscope/comparators/macho.py:145 | a slice that drops only such elements and keeps other elements at both ends is what `strip` returns |
| Text.LStripCharsPrefix | diffoscope/comparators/macho.py:417 | `lstrip(chars)` removes a leading copy of `chars` when the next character is not among them |
| Text.WordAfterSpace | diffoscope/comparators/macho.py:426 | `strip().split()[0]` after a tag gives the word that follows it |
| Text.EncodeAppend | diffoscope/feeders.py:161 | UTF-8 encoding distributes over concatenation, so the encoded chunks rejoin to the encoded content |
| Text.DecimalRoundTrip | diffoscope/comparators/macho.py:101 | the decimal spelling of a depth reads back as that depth |

## Left out

- The implementation of `Difference` is not part of this model. The tree, `size_self`, `size`, the traversals, `get_reverse` and `equals` are rebuilt from what the tests assert of them.
- Unified-diff generation, diff context and block-line truncation are left out. This includes "[ 11 lines removed ]" and the sizes 342 and 124 asserted in tests/test_difference.py:42-62, because the diff engine is not part of this model.
- Difference.Reverse: the reversal of a unified-diff text is a parameter `flip`. Its lemmas assume that `flip` preserves length, or that it is an involution.
- Difference.Equals: it is structural equality over labels, text, comments and children. Whether the unshown implementation compares child lists of unequal length is not modelled.
- Traversal.TraverseHeapq: ties between equal scores are broken by queue position. Python's `heapq` breaks them by comparing the node objects, whose ordering is not part of this model. The order differs only among equal scores, and the test's example has none.
- Traversal.Score: the scoring function also receives the number of earlier scoring calls. This lets the test's `itertools.count()` scorer be a pure function.
- The SHA-1 digest is a parameter `digest` over the filtered output, since hashing is a foreign library.
- `get_cache_key` and the process-global `from_command.cache` are left out as I/O and global state. The key is an `Option` parameter, and the cache is a map passed in and returned.
- Tool execution is left out: subprocesses, `our_check_output`, `tool_check_installed` and `tool_required`. Tool availability and tool output are parameters.
- The `Config()` singleton is left out. `max_diff_input_lines` and `max_container_depth` are arguments.
- Output flushing, logging and profiling are left out. None of them changes what is written or returned.
- Feeders.FromCommand: uses the corrected newline test; as written it is false unless the marker is written (see Findings).
- Feeders.FromCommand: `command.filter` comes from a command base class that is not part of this model. It is an optional filter parameter.
- MachoCommands.Cmdline: the `Command` base class, and `LlvmObjdump.fallback` from it, are not part of this model. `LlvmReadobj` and `LlvmObjdump` are modelled with no fallback.
- Decoding of tool output is left out. `decode("utf-8")` of the `llvm-readobj` output is assumed to succeed, and the output is taken as text.
- MachoSections.CompareUsingDetails: a detail counts as present exactly when it is not None. This assumes every `Difference` object is truthy. The `source` argument and the nested container's own comparison are parameters.
- MachoSections.LlvmSectionsOfBlocks: it covers outputs made only of "Arch:", "Name:" and "Segment:" lines, without indentation. `LlvmSectionsOfOutput` extends it to indented output with other lines ("Index:", "Address:", …) among them, through `ScanSignificant`. Neither covers a block where a section's "Segment:" line comes before its "Name:" line, or where a label has no word after it. Line by line, those cases are stated by `ScanLineUnskipped` and `Field`.
- `lipo_get_arch_from_macho` is left out: it is `split()` of a tool's output.
- The `MachoArchitecturesContainer` member mapping, `MachoFile` and the file-level `recognizes` are left out, because they are not among the operations modelled.
- The real multiprocess pool, `dill` pickling and concurrency are left out. Job completion is a permutation of the submission indices, and each job's outcome is a pure function of its argument.
- ComparisonPool.Map: neither `callback=None` nor a list `callback` shorter than `args` is modelled. In both, `callback[index] = result` raises (a `TypeError` or an `IndexError`) inside the pool's result handler. The model always has a slot for every index.
- ComparisonPool.Map: its slots are those after every job has completed. In the program, later jobs' callbacks may still be running when `map` raises.
- The branch `if not job.successful(): raise CommandFailedToExecute(job._err_callback)` is left out. `job.get()` has already raised for every unsuccessful job, so the branch cannot run.
- `rdata.py` copies files into a temporary directory; this filesystem side effect is left out. The directory is a parameter.
- The `Rscript` command lines of `RdsReader` and `RdbReader`, and `RdsFile.compare_details`, are left out: they are single foreign tool calls. The comparison is a parameter `dump`.
- RData.Recognizes: the container's truthiness is modelled as "is present". `.rdb` files are recognised through `FILE_EXTENSION_SUFFIX` by a `File` base class that is not part of this model.
- RData.ModulePath: `container.get_member` raising `KeyError` is modelled as the name missing from the container's member map.
- Integer widths do not arise: every count in the core is a Python integer.

## Findings

| source | as written | input that shows it | evidently intended | confidence | as-written member | corrected member |
|---|---|---|---|---|---|---|
| diffoscope/feeders.py:59-60 | `end_nl = buf[-1] == '\n'`: indexing a byte line gives an integer, which never equals the string "\n", so for the byte lines `from_command` passes in the result is false unless the marker was written | a command whose standard output is the single line `b"a\n"` | true when the last non-empty line ends with byte 10, as it already is for text lines | not executed | Feeders.FromRawReaderAsWritten, Feeders.RawNewlineCounterexample | Feeders.FromRawReader |
| diffoscope/comparators/macho.py:600 | `line.lstrip("Arch: ")` strips every leading character in the set {A, r, c, h, ':', ' '}, not the prefix "Arch: " | the `llvm-readobj` line "Arch: hppa" gives "ppa" | remove the prefix "Arch: " and keep "hppa" | not executed | MachoSections.ArchesAsWritten, MachoSections.HppaCounterexample | MachoSections.ArchesRoundTrip, MachoSections.ArchesOfHeaders |

=== FILE: comparison_pool.dfy ===
/** `ComparisonPool.map`: one job per argument, each job's callback storing
    its result in the slot named by the job's submission index, and a wait
    loop that raises for the first failing job in submission order. The
    process pool is not modelled: the worker function is a pure function of
    its argument, and the order in which jobs complete is a parameter. */
module ComparisonPool {
  import opened Wrappers

  /** An exception raised in a worker: whether it is a `PickleError` (or a
      subclass of it), and its `repr`. */
  datatype Exc = Exc(isPickleError: bool, repr: string)

  /** What a job ends with: the worker function's value or its exception. */
  datatype Outcome<R> = Returned(value: R) | Raised(exc: Exc)

  /** `CommandFailedToExecute`: wraps the exception it was raised for. */
  datatype CommandFailedToExecute = CommandFailedToExecute(err: Exc)

  /** `str(CommandFailedToExecute(e))` is `repr(e)`. */
  function Str(c: CommandFailedToExecute): string {
    c.err.repr
  }

  /** What `map` raises: a wrapped pickling error, or the worker's own
      exception, re-raised unchanged by `job.get()`. */
  datatype PoolError = Wrapped(failed: CommandFailedToExecute) | Propagated(exc: Exc)

  /** A submitted job: its submission index, which names its callback slot,
      and its argument. */
  datatype Job<A> = Job(index: nat, arg: A)

  /** The end of a `map` call: the callback slots once every job has
      completed, whether the pool was closed and joined, and what was raised. */
  datatype Pooled<R> = Pooled(slots: map<nat, R>, closed: bool, raised: Option<PoolError>)

  /** The enumerate loop: one job per argument, in argument order. */
  method Submit<A>(args: seq<A>) returns (jobs: seq<Job<A>>)
    ensures |jobs| == |args|
    ensures forall i :: 0 <= i < |jobs| ==> jobs[i] == Job(i, args[i])
  {
    jobs := [];
    for index := 0 to |args|
      invariant |jobs| == index
      invariant forall i :: 0 <= i < index ==> jobs[i] == Job(i, args[i])
    {
      jobs := jobs + [Job(index, args[index])];
    }
  }

  /** An order in which the jobs may complete: every index below `n`, each
      exactly once. */
  predicate IsCompletionOrder(order: seq<nat>, n: nat) {
    && (forall k :: 0 <= k < |order| ==> order[k] < n)
    && (forall a, b :: 0 <= a < b < |order| ==> order[a] != order[b])
    && (forall i :: 0 <= i < n ==> i in order)
  }

  /** `_callback(result, index)`: a job that returned stores its value in its
      own slot; a failed job calls no callback. */
  function Deliver<A, R>(slots: map<nat, R>, job: Job<A>, fun: A -> Outcome<R>): map<nat, R> {
    match fun(job.arg)
    case Returned(v) => slots[job.index := v]
    case Raised(_) => slots
  }

  /** The callbacks, run in completion order. */
  function Complete<A, R>(slots: map<nat, R>, jobs: seq<Job<A>>, fun: A -> Outcome<R>, order: seq<nat>): map<nat, R>
    requires forall k :: 0 <= k < |order| ==> order[k] < |jobs|
    decreases |order|
  {
    if |order| == 0 then slots
    else Complete(Deliver(slots, jobs[order[0]], fun), jobs, fun, order[1..])
  }

  /** The slots after the callbacks of the jobs in `order` have run: the
      slot of a listed job that returned holds its value; every other slot
      is as before. Distinct indices mean no callback overwrites another's. */
  lemma {:induction false} CompleteSlots<A, R>(slots: map<nat, R>, args: seq<A>, jobs: seq<Job<A>>,
                                               fun: A -> Outcome<R>, order: seq<nat>)
    requires |jobs| == |args| && forall i :: 0 <= i < |jobs| ==> jobs[i] == Job(i, args[i])
    requires forall k :: 0 <= k < |order| ==> order[k] < |jobs|
    requires forall a, b :: 0 <= a < b < |order| ==> order[a] != order[b]
    ensures forall i :: i in order && fun(args[i]).Returned? ==>
              i in Complete(slots, jobs, fun, order) && Complete(slots, jobs, fun, order)[i] == fun(args[i]).value
    ensures forall i :: !(i in order && fun(args[i]).Returned?) ==>
              (i in Complete(slots, jobs, fun, order) <==> i in slots)
              && (i in slots ==> Complete(slots, jobs, fun, order)[i] == slots[i])
    decreases |order|
  {
    if |order| > 0 {
      var next := Deliver(slots, jobs[order[0]], fun);
      var rest := order[1..];
      forall a, b | 0 <= a < b < |rest| ensures rest[a] != rest[b] {
        assert rest[a] == order[a + 1] && rest[b] == order[b + 1];
      }
      CompleteSlots(next, args, jobs, fun, rest);
      forall i | i in order ensures i == order[0] || i in rest {
        var k :| 0 <= k < |order| && order[k] == i;
        if k > 0 { assert rest[k - 1] == i; }
      }
      forall k | 0 <= k < |rest| ensures rest[k] != order[0] {
        assert rest[k] == order[k + 1];
      }
    }
  }

  /** Whatever the completion order, once every job has completed, slot `i`
      holds `fun(args[i])` when that job returned; the slots of failed jobs,
      and any slot beyond the arguments, keep what the caller put there. */
  lemma SlotsByIndex<A, R>(callback: map<nat, R>, args: seq<A>, jobs: seq<Job<A>>,
                           fun: A -> Outcome<R>, order: seq<nat>)
    requires |jobs| == |args| && forall i :: 0 <= i < |jobs| ==> jobs[i] == Job(i, args[i])
    requires IsCompletionOrder(order, |args|)
    ensures forall i :: 0 <= i < |args| && fun(args[i]).Returned? ==>
              i in Complete(callback, jobs, fun, order) && Complete(callback, jobs, fun, order)[i] == fun(args[i]).value
    ensures forall i :: !(0 <= i < |args| && fun(args[i]).Returned?) ==>
              (i in Complete(callback, jobs, fun, order) <==> i in callback)
              && (i in callback ==> Complete(callback, jobs, fun, order)[i] == callback[i])
  {
    CompleteSlots(callback, args, jobs, fun, order);
  }

  /** The slots do not depend on the completion order. */
  lemma CompletionOrderIrrelevant<A, R>(callback: map<nat, R>, args: seq<A>, jobs: seq<Job<A>>,
                                        fun: A -> Outcome<R>, order1: seq<nat>, order2: seq<nat>)
    requires |jobs| == |args| && forall i :: 0 <= i < |jobs| ==> jobs[i] == Job(i, args[i])
    requires IsCompletionOrder(order1, |args|) && IsCompletionOrder(order2, |args|)
    ensures Complete(callback, jobs, fun, order1) == Complete(callback, jobs, fun, order2)
  {
    SlotsByIndex(callback, args, jobs, fun, order1);
    SlotsByIndex(callback, args, jobs, fun, order2);
  }

  /** How `job.get()` raises a worker's exception out of `map`: a
      `PickleError` is wrapped, anything else propagates as it is. */
  function Raise(e: Exc): (r: PoolError)
    ensures r.Wrapped? <==> e.isPickleError
    ensures r.Wrapped? ==> r.failed.err == e && Str(r.failed) == e.repr
    ensures r.Propagated? ==> r.exc == e
  {
    if e.isPickleError then Wrapped(CommandFailedToExecute(e)) else Propagated(e)
  }

  /** `ComparisonPool.map`: submit, let the jobs complete in `order`, then
      wait for each job in submission order. The first failing job's
      exception is raised and the pool is left open; when none fails, the
      pool is closed and joined. */
  method Map<A, R>(fun: A -> Outcome<R>, args: seq<A>, callback: map<nat, R>, order: seq<nat>)
    returns (r: Pooled<R>)
    requires IsCompletionOrder(order, |args|)
    ensures forall i :: 0 <= i < |args| && fun(args[i]).Returned? ==>
              i in r.slots && r.slots[i] == fun(args[i]).value
    ensures forall i :: !(0 <= i < |args| && fun(args[i]).Returned?) ==>
              (i in r.slots <==> i in callback) && (i in callback ==> r.slots[i] == callback[i])
    ensures r.raised.None? <==> forall i :: 0 <= i < |args| ==> fun(args[i]).Returned?
    ensures forall k :: (0 <= k < |args| && fun(args[k]).Raised?
                         && forall j :: 0 <= j < k ==> fun(args[j]).Returned?) ==>
              r.raised == Some(Raise(fun(args[k]).exc))
    ensures r.closed <==> r.raised.None?
  {
    var jobs := Submit(args);
    var slots := Complete(callback, jobs, fun, order);
    SlotsByIndex(callback, args, jobs, fun, order);
    for k := 0 to |jobs|
      invariant forall j :: 0 <= j < k ==> fun(args[j]).Returned?
    {
      match fun(jobs[k].arg)
      case Raised(e) =>
        return Pooled(slots, false, Some(Raise(e)));
      case Returned(_) =>
    }
    return Pooled(slots, true, None);
  }
}

=== FILE: difference.dfy ===
/** The difference tree: one comparison result with two labels (usually the
    two paths), its own diff text, free-text comments and an ordered list of
    child differences. Sizes count characters; `Size` covers a whole tree.
    The tree is an immutable value: `AddDetails` and `AddComment` return the
    extended node instead of updating a cached size in place. */
module Difference {
  import opened Wrappers

  datatype Diff = Diff(
    label1: string,
    label2: string,
    text: string,          // the unified diff; an absent diff is ""
    comments: seq<string>,
    children: seq<Diff>)

  datatype DiffError = TypeError(message: string)

  /** The constructor refuses a label that is not a string (Python's `None`). */
  function New(label1: Option<string>, label2: Option<string>, text: string): (r: Result<Diff, DiffError>)
    ensures r.Failure? <==> label1.None? || label2.None?
    ensures r.Success? ==> r.value.label1 == label1.value && r.value.label2 == label2.value
    ensures r.Success? ==> r.value.text == text && r.value.comments == [] && r.value.children == []
  {
    if label1.None? then Failure(TypeError("path1/source[0] is not a string"))
    else if label2.None? then Failure(TypeError("path2/source[1] is not a string"))
    else Success(Diff(label1.value, label2.value, text, [], []))
  }

  // ----------------------------------------------------------------- sizes

  function SumLengths(ss: seq<string>): nat {
    if |ss| == 0 then 0 else |ss[0]| + SumLengths(ss[1..])
  }

  lemma {:induction false} SumLengthsAppend(a: seq<string>, b: seq<string>)
    ensures SumLengths(a + b) == SumLengths(a) + SumLengths(b)
    decreases |a|
  {
    if |a| == 0 {
      assert a + b == b;
    } else {
      assert (a + b)[1..] == a[1..] + b;
      SumLengthsAppend(a[1..], b);
    }
  }

  /** The size of a node on its own: both labels, the diff text and the comments. */
  function SizeSelf(d: Diff): nat {
    |d.label1| + |d.label2| + |d.text| + SumLengths(d.comments)
  }

  /** The size of a whole tree: the node's own size plus its children's sizes. */
  function Size(d: Diff): nat
    decreases d, 1
  {
    SizeSelf(d) + SizeAll(d.children)
  }

  function SizeAll(ds: seq<Diff>): nat
    decreases ds, 0
  {
    if |ds| == 0 then 0 else Size(ds[0]) + SizeAll(ds[1..])
  }

  lemma {:induction false} SizeAllAppend(a: seq<Diff>, b: seq<Diff>)
    ensures SizeAll(a + b) == SizeAll(a) + SizeAll(b)
    decreases |a|
  {
    if |a| == 0 {
      assert a + b == b;
    } else {
      assert (a + b)[1..] == a[1..] + b;
      SizeAllAppend(a[1..], b);
    }
  }

  /** `add_details`: appends children; the tree grows by exactly their sizes. */
  function AddDetails(d: Diff, details: seq<Diff>): (r: Diff)
    ensures Size(r) == Size(d) + SizeAll(details)
    ensures SizeSelf(r) == SizeSelf(d)
    ensures |r.children| == |d.children| + |details|
    ensures r.children[..|d.children|] == d.children && r.children[|d.children|..] == details
    ensures r.label1 == d.label1 && r.label2 == d.label2 && r.text == d.text && r.comments == d.comments
  {
    SizeAllAppend(d.children, details);
    d.(children := d.children + details)
  }

  /** `add_comment`: appends a comment; the node grows by its length. */
  function AddComment(d: Diff, comment: string): (r: Diff)
    ensures Size(r) == Size(d) + |comment|
    ensures SizeSelf(r) == SizeSelf(d) + |comment|
    ensures r.comments == d.comments + [comment] && r.children == d.children
    ensures r.label1 == d.label1 && r.label2 == d.label2 && r.text == d.text
  {
    SumLengthsAppend(d.comments, [comment]);
    assert SumLengths([comment]) == |comment|;
    d.(comments := d.comments + [comment])
  }

  // ------------------------------------------------- every node of a tree

  /** Every node of a tree once, in pre-order; the reference enumeration
      the traversals are compared with. */
  function Flatten(d: Diff): seq<Diff>
    decreases d, 1
  {
    [d] + FlattenAll(d.children)
  }

  function FlattenAll(ds: seq<Diff>): seq<Diff>
    decreases ds, 0
  {
    if |ds| == 0 then [] else Flatten(ds[0]) + FlattenAll(ds[1..])
  }

  lemma {:induction false} FlattenAllAppend(a: seq<Diff>, b: seq<Diff>)
    ensures FlattenAll(a + b) == FlattenAll(a) + FlattenAll(b)
    decreases |a|
  {
    if |a| == 0 {
      assert a + b == b;
    } else {
      assert (a + b)[1..] == a[1..] + b;
      FlattenAllAppend(a[1..], b);
    }
  }

  /** The sum of the nodes' own sizes over a sequence of nodes. */
  function SumSelf(s: seq<Diff>): nat {
    if |s| == 0 then 0 else SizeSelf(s[0]) + SumSelf(s[1..])
  }

  lemma {:induction false} SumSelfAppend(a: seq<Diff>, b: seq<Diff>)
    ensures SumSelf(a + b) == SumSelf(a) + SumSelf(b)
    decreases |a|
  {
    if |a| == 0 {
      assert a + b == b;
    } else {
      assert (a + b)[1..] == a[1..] + b;
      SumSelfAppend(a[1..], b);
    }
  }

  /** The sum of own sizes does not depend on the order the nodes are visited in. */
  lemma {:induction false} SumSelfPermutation(a: seq<Diff>, b: seq<Diff>)
    requires multiset(a) == multiset(b)
    ensures SumSelf(a) == SumSelf(b)
    decreases |a|
  {
    if |a| == 0 {
      assert |b| == |multiset(b)| == 0;
      assert b == [];
    } else {
      assert a[0] in multiset(b);
      var k :| 0 <= k < |b| && b[k] == a[0];
      var x, y := b[..k], b[k + 1..];
      assert b == x + [a[0]] + y;
      assert multiset(a[1..]) == multiset(x + y) by {
        assert a == [] + [a[0]] + a[1..] && [] + a[1..] == a[1..];
        MultisetMiddle(x, a[0], y);
        MultisetMiddle([], a[0], a[1..]);
      }
      SumSelfPermutation(a[1..], x + y);
      SumSelfMiddle(x, a[0], y);
    }
  }

  /** Taking one node out of a sequence takes it out of the multiset. */
  lemma MultisetMiddle(x: seq<Diff>, c: Diff, y: seq<Diff>)
    ensures multiset(x + y) == multiset(x + [c] + y) - multiset{c}
  {
    assert multiset(x + [c] + y) == multiset{c} + multiset(x + y);
  }

  /** Taking one node out of a sequence takes its own size out of the sum. */
  lemma SumSelfMiddle(x: seq<Diff>, c: Diff, y: seq<Diff>)
    ensures SumSelf(x + [c] + y) == SizeSelf(c) + SumSelf(x + y)
  {
    SumSelfAppend(x + [c], y);
    SumSelfAppend(x, [c]);
    SumSelfAppend(x, y);
  }

  /** Summing own sizes over every node gives the tree's size. */
  lemma {:induction false} FlattenSumIsSize(d: Diff)
    ensures SumSelf(Flatten(d)) == Size(d)
    decreases d, 1
  {
    FlattenAllSumIsSize(d.children);
    SumSelfAppend([d], FlattenAll(d.children));
  }

  lemma {:induction false} FlattenAllSumIsSize(ds: seq<Diff>)
    ensures SumSelf(FlattenAll(ds)) == SizeAll(ds)
    decreases ds, 0
  {
    if |ds| > 0 {
      FlattenSumIsSize(ds[0]);
      FlattenAllSumIsSize(ds[1..]);
      SumSelfAppend(Flatten(ds[0]), FlattenAll(ds[1..]));
    }
  }

  /** Any enumeration that visits every node exactly once sums to the tree's size. */
  lemma SizeOfAnyEnumeration(d: Diff, visit: seq<Diff>)
    requires multiset(visit) == multiset(Flatten(d))
    ensures SumSelf(visit) == Size(d)
  {
    SumSelfPermutation(visit, Flatten(d));
    FlattenSumIsSize(d);
  }

  // ------------------------------------------------------------- equality

  /** `equals`: labels, diff text, comments and children, recursively. */
  predicate Equals(a: Diff, b: Diff): (r: bool)
    ensures a == b ==> r
    decreases a, 1
  {
    && a.label1 == b.label1
    && a.label2 == b.label2
    && a.text == b.text
    && a.comments == b.comments
    && EqualsAll(a.children, b.children)
  }

  predicate EqualsAll(xs: seq<Diff>, ys: seq<Diff>): (r: bool)
    ensures xs == ys ==> r
    decreases xs, 0
  {
    |xs| == |ys| && (|xs| == 0 || (Equals(xs[0], ys[0]) && EqualsAll(xs[1..], ys[1..])))
  }

  /** Structural equality is exactly value equality, so it is reflexive and symmetric. */
  lemma {:induction false} EqualsIsValueEquality(a: Diff, b: Diff)
    ensures Equals(a, b) <==> a == b
    decreases a, 1
  {
    EqualsAllIsValueEquality(a.children, b.children);
  }

  lemma {:induction false} EqualsAllIsValueEquality(xs: seq<Diff>, ys: seq<Diff>)
    ensures EqualsAll(xs, ys) <==> xs == ys
    decreases xs, 0
  {
    if |xs| > 0 && |ys| > 0 {
      EqualsIsValueEquality(xs[0], ys[0]);
      EqualsAllIsValueEquality(xs[1..], ys[1..]);
      assert xs == [xs[0]] + xs[1..];
      assert ys == [ys[0]] + ys[1..];
    }
  }

  // -------------------------------------------------------------- reversal

  /** `get_reverse`: swaps the two labels in every node and reverses every
      diff text with `flip` (the unified-diff reversal, which this model
      takes as a parameter). Comments are kept as they are. */
  function Reverse(d: Diff, flip: string -> string): (r: Diff)
    ensures r.label1 == d.label2 && r.label2 == d.label1
    ensures r.text == flip(d.text) && r.comments == d.comments
    ensures |r.children| == |d.children|
    decreases d, 1
  {
    Diff(d.label2, d.label1, flip(d.text), d.comments, ReverseAll(d.children, flip))
  }

  function ReverseAll(ds: seq<Diff>, flip: string -> string): (r: seq<Diff>)
    ensures |r| == |ds|
    decreases ds, 0
  {
    if |ds| == 0 then [] else [Reverse(ds[0], flip)] + ReverseAll(ds[1..], flip)
  }

  ghost predicate LengthPreserving(flip: string -> string) {
    forall s :: |flip(s)| == |s|
  }

  ghost predicate Involution(flip: string -> string) {
    forall s :: flip(flip(s)) == s
  }

  /** Reversal keeps the size of every tree. */
  lemma {:induction false} ReverseKeepsSize(d: Diff, flip: string -> string)
    requires LengthPreserving(flip)
    ensures Size(Reverse(d, flip)) == Size(d)
    decreases d, 1
  {
    ReverseAllKeepsSize(d.children, flip);
  }

  lemma {:induction false} ReverseAllKeepsSize(ds: seq<Diff>, flip: string -> string)
    requires LengthPreserving(flip)
    ensures SizeAll(ReverseAll(ds, flip)) == SizeAll(ds)
    decreases ds, 0
  {
    if |ds| > 0 {
      ReverseKeepsSize(ds[0], flip);
      ReverseAllKeepsSize(ds[1..], flip);
      assert ReverseAll(ds, flip)[1..] == ReverseAll(ds[1..], flip);
    }
  }

  /** Reversing twice gives back a tree that `Equals` the original. */
  lemma {:induction false} ReverseTwice(d: Diff, flip: string -> string)
    requires Involution(flip)
    ensures Reverse(Reverse(d, flip), flip) == d
    ensures Equals(Reverse(Reverse(d, flip), flip), d)
    decreases d, 1
  {
    ReverseAllTwice(d.children, flip);
    EqualsIsValueEquality(Reverse(Reverse(d, flip), flip), d);
  }

  lemma {:induction false} ReverseAllTwice(ds: seq<Diff>, flip: string -> string)
    requires Involution(flip)
    ensures ReverseAll(ReverseAll(ds, flip), flip) == ds
    decreases ds, 0
  {
    if |ds| > 0 {
      ReverseTwice(ds[0], flip);
      ReverseAllTwice(ds[1..], flip);
      assert ReverseAll(ds, flip)[1..] == ReverseAll(ds[1..], flip);
      assert ds == [ds[0]] + ds[1..];
    }
  }
}

=== FILE: difference_examples.dfy ===
/** The trees the Difference tests build, with the sizes and the visiting
    order the tests expect, derived from the model. */
module DifferenceExamples {
  import opened Wrappers
  import opened Difference
  import opened Traversal

  function Leaf(label1: string, label2: string, text: string): Diff {
    Diff(label1, label2, text, [], [])
  }

  /** Python's `s[k:]`, which is empty when `k` is past the end. */
  function SliceFrom(s: string, k: nat): (r: string)
    ensures k <= |s| ==> r == s[k..]
    ensures k > |s| ==> r == ""
  {
    if k <= |s| then s[k..] else ""
  }

  // ------------------------------------------------------ growing a tree

  /** The size of a tree is what both walks add up. */
  lemma {:induction false} WalksAgree(d: Diff)
    ensures SumSelf(TraverseBreadth(d)) == Size(d)
    ensures SumSelf(TraverseHeapq(d, CounterScore, IntLt)) == Size(d)
  {
    TraverseBreadthVisitsAll(d);
    TraverseHeapqVisitsAll(d, CounterScore, IntLt);
  }

  /** A node with two 5-character labels and a 10-character diff has size 20. */
  lemma SizeOfNewNode()
    ensures Size(Leaf("path1", "path2", "0123456789")) == 20
  {
    LeafSize(Leaf("path1", "path2", "0123456789"));
  }

  /** Adding a child with two 7-character labels and a 10-character diff makes it 44. */
  lemma SizeAfterAddDetails()
    ensures Size(AddDetails(Leaf("path1", "path2", "0123456789"),
                            [Leaf("path1/a", "path2/a", "0123456789")])) == 44
  {
    var child := Leaf("path1/a", "path2/a", "0123456789");
    SizeOfNewNode();
    LeafSize(child);
    assert SizeAll([child]) == Size(child) + SizeAll([]);
  }

  /** Adding the comment "lol1" makes it 48. */
  lemma SizeAfterAddComment()
    ensures Size(AddComment(AddDetails(Leaf("path1", "path2", "0123456789"),
                                       [Leaf("path1/a", "path2/a", "0123456789")]), "lol1")) == 48
  {
    SizeAfterAddDetails();
  }

  lemma {:induction false} LeafSize(d: Diff)
    requires d.children == []
    ensures Size(d) == SizeSelf(d)
  {
    assert SizeAll(d.children) == 0;
  }

  // ------------------------------------------------ the thirteen-node tree

  const A1 := Leaf("path1/a/1", "path2/a/1", "012345678")
  const A2 := Leaf("path1/a/2", "path2/a/2", "0123")
  const A3 := Leaf("path1/a/3", "path2/a/3", "012")
  const B1 := Leaf("path1/b/1", "path2/b/1", "01234567")
  const B2 := Leaf("path1/b/2", "path2/b/2", "01234")
  const B3 := Leaf("path1/b/3", "path2/b/3", "012345")
  const C1 := Leaf("path1/c/1", "path2/c/1", "01")
  const C2 := Leaf("path1/c/2", "path2/c/2", "0123456789")
  const C3 := Leaf("path1/c/3", "path2/c/3", "0123456")
  const A := Diff("path1/a", "path2/a", "0", [], [A1, A2, A3])
  const B := Diff("path1/b", "path2/b", "012", [], [B1, B2, B3])
  const C := Diff("path1/c", "path2/c", "01", [], [C1, C2, C3])
  const Top := Diff("path1", "path2", "0123456789", [], [A, B, C])

  /** The tree is the one the test builds with `add_details`. */
  lemma BuiltByAddDetails()
    ensures A == AddDetails(Leaf("path1/a", "path2/a", "0"), [A1, A2, A3])
    ensures B == AddDetails(Leaf("path1/b", "path2/b", "012"), [B1, B2, B3])
    ensures C == AddDetails(Leaf("path1/c", "path2/c", "01"), [C1, C2, C3])
    ensures Top == AddDetails(Leaf("path1", "path2", "0123456789"), [A, B, C])
  {
  }

  lemma OwnSizes()
    ensures A.children == [A1, A2, A3] && B.children == [B1, B2, B3] && C.children == [C1, C2, C3]
    ensures Top.children == [A, B, C]
    ensures SizeSelf(Top) == 20
    ensures SizeSelf(A) == 15 && SizeSelf(B) == 17 && SizeSelf(C) == 16
    ensures SizeSelf(A1) == 27 && SizeSelf(A2) == 22 && SizeSelf(A3) == 21
    ensures SizeSelf(B1) == 26 && SizeSelf(B2) == 23 && SizeSelf(B3) == 24
    ensures SizeSelf(C1) == 20 && SizeSelf(C2) == 28 && SizeSelf(C3) == 25
  {
  }

  lemma {:induction false} ThreeSizes(x: Diff, y: Diff, z: Diff)
    ensures SizeAll([x, y, z]) == Size(x) + Size(y) + Size(z)
  {
    assert [x, y, z][1..] == [y, z];
    assert [y, z][1..] == [z];
    assert SizeAll([z]) == Size(z) + SizeAll([]);
  }

  /** The whole example tree has 284 characters. */
  lemma ExampleSize()
    ensures Size(Top) == 284
    ensures SumSelf(TraverseBreadth(Top)) == 284
    ensures SumSelf(TraverseHeapq(Top, CounterScore, IntLt)) == 284
  {
    OwnSizes();
    LeafSize(A1); LeafSize(A2); LeafSize(A3);
    LeafSize(B1); LeafSize(B2); LeafSize(B3);
    LeafSize(C1); LeafSize(C2); LeafSize(C3);
    ThreeSizes(A1, A2, A3);
    ThreeSizes(B1, B2, B3);
    ThreeSizes(C1, C2, C3);
    ThreeSizes(A, B, C);
    WalksAgree(Top);
  }

  // ------------------------------------------- scoring by depth, then size

  /** The score of a node: its depth and its own size, compared as a Python tuple. */
  datatype Rank = Rank(depth: int, own: nat)

  /** The test's scorer: depth one below the parent's (0 for the root), and the own size. */
  function DepthSize(n: Diff, parent: Option<Rank>, calls: nat): Rank {
    Rank(if parent.Some? then parent.value.depth + 1 else 0, SizeSelf(n))
  }

  /** Python's tuple `<`: lexicographic. */
  function RankLt(a: Rank, b: Rank): bool {
    a.depth < b.depth || (a.depth == b.depth && a.own < b.own)
  }

  lemma RankLtIsStrictWeakOrder()
    ensures StrictWeakOrder(RankLt)
  {
  }

  lemma DepthSizeIncreases()
    ensures ScoresIncrease(DepthSize, RankLt)
  {
  }

  /** The thirteen nodes of the example tree, named by their place in it. */
  datatype Cast = Cast(top: Diff, a: Diff, b: Diff, c: Diff,
                       a1: Diff, a2: Diff, a3: Diff, b1: Diff, b2: Diff, b3: Diff,
                       c1: Diff, c2: Diff, c3: Diff)

  /** Just what the heap loop looks at: who is whose child, and the own sizes. */
  predicate Shaped(x: Cast) {
    && x.top.children == [x.a, x.b, x.c]
    && x.a.children == [x.a1, x.a2, x.a3]
    && x.b.children == [x.b1, x.b2, x.b3]
    && x.c.children == [x.c1, x.c2, x.c3]
    && x.a1.children == []
    && x.a2.children == []
    && x.a3.children == []
    && x.b1.children == []
    && x.b2.children == []
    && x.b3.children == []
    && x.c1.children == []
    && x.c2.children == []
    && x.c3.children == []
    && SizeSelf(x.top) == 20
    && SizeSelf(x.a) == 15
    && SizeSelf(x.b) == 17
    && SizeSelf(x.c) == 16
    && SizeSelf(x.a1) == 27
    && SizeSelf(x.a2) == 22
    && SizeSelf(x.a3) == 21
    && SizeSelf(x.b1) == 26
    && SizeSelf(x.b2) == 23
    && SizeSelf(x.b3) == 24
    && SizeSelf(x.c1) == 20
    && SizeSelf(x.c2) == 28
    && SizeSelf(x.c3) == 25
  }

  // The queue before each round of the heap loop.
  function Queue0(x: Cast): seq<Entry<Rank>> {
    [Entry(Rank(0, 20), x.top)]
  }

  function Queue1(x: Cast): seq<Entry<Rank>> {
    [Entry(Rank(1, 15), x.a), Entry(Rank(1, 17), x.b), Entry(Rank(1, 16), x.c)]
  }

  function Queue2(x: Cast): seq<Entry<Rank>> {
    [Entry(Rank(1, 17), x.b), Entry(Rank(1, 16), x.c), Entry(Rank(2, 27), x.a1), Entry(Rank(2, 22), x.a2), Entry(Rank(2, 21), x.a3)]
  }

  function Queue3(x: Cast): seq<Entry<Rank>> {
    [Entry(Rank(1, 17), x.b), Entry(Rank(2, 27), x.a1), Entry(Rank(2, 22), x.a2), Entry(Rank(2, 21), x.a3), Entry(Rank(2, 20), x.c1), Entry(Rank(2, 28), x.c2), Entry(Rank(2, 25), x.c3)]
  }

  function Queue4(x: Cast): seq<Entry<Rank>> {
    [Entry(Rank(2, 27), x.a1), Entry(Rank(2, 22), x.a2), Entry(Rank(2, 21), x.a3), Entry(Rank(2, 20), x.c1), Entry(Rank(2, 28), x.c2), Entry(Rank(2, 25), x.c3), Entry(Rank(2, 26), x.b1), Entry(Rank(2, 23), x.b2), Entry(Rank(2, 24), x.b3)]
  }

  function Queue5(x: Cast): seq<Entry<Rank>> {
    [Entry(Rank(2, 27), x.a1), Entry(Rank(2, 22), x.a2), Entry(Rank(2, 21), x.a3), Entry(Rank(2, 28), x.c2), Entry(Rank(2, 25), x.c3), Entry(Rank(2, 26), x.b1), Entry(Rank(2, 23), x.b2), Entry(Rank(2, 24), x.b3)]
  }

  function Queue6(x: Cast): seq<Entry<Rank>> {
    [Entry(Rank(2, 27), x.a1), Entry(Rank(2, 22), x.a2), Entry(Rank(2, 28), x.c2), Entry(Rank(2, 25), x.c3), Entry(Rank(2, 26), x.b1), Entry(Rank(2, 23), x.b2), Entry(Rank(2, 24), x.b3)]
  }

  function Queue7(x: Cast): seq<Entry<Rank>> {
    [Entry(Rank(2, 27), x.a1), Entry(Rank(2, 28), x.c2), Entry(Rank(2, 25), x.c3), Entry(Rank(2, 26), x.b1), Entry(Rank(2, 23), x.b2), Entry(Rank(2, 24), x.b3)]
  }

  function Queue8(x: Cast): seq<Entry<Rank>> {
    [Entry(Rank(2, 27), x.a1), Entry(Rank(2, 28), x.c2), Entry(Rank(2, 25), x.c3), Entry(Rank(2, 26), x.b1), Entry(Rank(2, 24), x.b3)]
  }

  function Queue9(x: Cast): seq<Entry<Rank>> {
    [Entry(Rank(2, 27), x.a1), Entry(Rank(2, 28), x.c2), Entry(Rank(2, 25), x.c3), Entry(Rank(2, 26), x.b1)]
  }

  function Queue10(x: Cast): seq<Entry<Rank>> {
    [Entry(Rank(2, 27), x.a1), Entry(Rank(2, 28), x.c2), Entry(Rank(2, 26), x.b1)]
  }

  function Queue11(x: Cast): seq<Entry<Rank>> {
    [Entry(Rank(2, 27), x.a1), Entry(Rank(2, 28), x.c2)]
  }

  function Queue12(x: Cast): seq<Entry<Rank>> {
    [Entry(Rank(2, 28), x.c2)]
  }

  function Queue13(x: Cast): seq<Entry<Rank>> {
    []
  }

  lemma Round0(x: Cast)
    requires Shaped(x)
    ensures HeapqFrom(Queue0(x), 1, DepthSize, RankLt)
         == [Entry(Rank(0, 20), x.top)] + HeapqFrom(Queue1(x), 4, DepthSize, RankLt)
  {
    var q := Queue0(x);
    RankLtIsStrictWeakOrder();
    MinIndexOfLeast(q, RankLt, 0);
    assert Score(x.top.children, q[0].key, 1, DepthSize) == [Entry(Rank(1, 15), x.a), Entry(Rank(1, 17), x.b), Entry(Rank(1, 16), x.c)];
    HeapqStep(q, 1, DepthSize, RankLt, 0, Queue1(x), 4);
  }

  lemma Round1(x: Cast)
    requires Shaped(x)
    ensures HeapqFrom(Queue1(x), 4, DepthSize, RankLt)
         == [Entry(Rank(1, 15), x.a)] + HeapqFrom(Queue2(x), 7, DepthSize, RankLt)
  {
    var q := Queue1(x);
    RankLtIsStrictWeakOrder();
    MinIndexOfLeast(q, RankLt, 0);
    assert Score(x.a.children, q[0].key, 4, DepthSize) == [Entry(Rank(2, 27), x.a1), Entry(Rank(2, 22), x.a2), Entry(Rank(2, 21), x.a3)];
    HeapqStep(q, 4, DepthSize, RankLt, 0, Queue2(x), 7);
  }

  lemma Round2(x: Cast)
    requires Shaped(x)
    ensures HeapqFrom(Queue2(x), 7, DepthSize, RankLt)
         == [Entry(Rank(1, 16), x.c)] + HeapqFrom(Queue3(x), 10, DepthSize, RankLt)
  {
    var q := Queue2(x);
    RankLtIsStrictWeakOrder();
    MinIndexOfLeast(q, RankLt, 1);
    assert Score(x.c.children, q[1].key, 7, DepthSize) == [Entry(Rank(2, 20), x.c1), Entry(Rank(2, 28), x.c2), Entry(Rank(2, 25), x.c3)];
    HeapqStep(q, 7, DepthSize, RankLt, 1, Queue3(x), 10);
  }

  lemma Round3(x: Cast)
    requires Shaped(x)
    ensures HeapqFrom(Queue3(x), 10, DepthSize, RankLt)
         == [Entry(Rank(1, 17), x.b)] + HeapqFrom(Queue4(x), 13, DepthSize, RankLt)
  {
    var q := Queue3(x);
    RankLtIsStrictWeakOrder();
    MinIndexOfLeast(q, RankLt, 0);
    assert Score(x.b.children, q[0].key, 10, DepthSize) == [Entry(Rank(2, 26), x.b1), Entry(Rank(2, 23), x.b2), Entry(Rank(2, 24), x.b3)];
    HeapqStep(q, 10, DepthSize, RankLt, 0, Queue4(x), 13);
  }

  lemma Round4(x: Cast)
    requires Shaped(x)
    ensures HeapqFrom(Queue4(x), 13, DepthSize, RankLt)
         == [Entry(Rank(2, 20), x.c1)] + HeapqFrom(Queue5(x), 13, DepthSize, RankLt)
  {
    var q := Queue4(x);
    RankLtIsStrictWeakOrder();
    MinIndexOfLeast(q, RankLt, 3);
    assert Score(x.c1.children, q[3].key, 13, DepthSize) == [];
    HeapqStep(q, 13, DepthSize, RankLt, 3, Queue5(x), 13);
  }

  lemma Round5(x: Cast)
    requires Shaped(x)
    ensures HeapqFrom(Queue5(x), 13, DepthSize, RankLt)
         == [Entry(Rank(2, 21), x.a3)] + HeapqFrom(Queue6(x), 13, DepthSize, RankLt)
  {
    var q := Queue5(x);
    RankLtIsStrictWeakOrder();
    MinIndexOfLeast(q, RankLt, 2);
    assert Score(x.a3.children, q[2].key, 13, DepthSize) == [];
    HeapqStep(q, 13, DepthSize, RankLt, 2, Queue6(x), 13);
  }

  lemma Round6(x: Cast)
    requires Shaped(x)
    ensures HeapqFrom(Queue6(x), 13, DepthSize, RankLt)
         == [Entry(Rank(2, 22), x.a2)] + HeapqFrom(Queue7(x), 13, DepthSize, RankLt)
  {
    var q := Queue6(x);
    RankLtIsStrictWeakOrder();
    MinIndexOfLeast(q, RankLt, 1);
    assert Score(x.a2.children, q[1].key, 13, DepthSize) == [];
    HeapqStep(q, 13, DepthSize, RankLt, 1, Queue7(x), 13);
  }

  lemma Round7(x: Cast)
    requires Shaped(x)
    ensures HeapqFrom(Queue7(x), 13, DepthSize, RankLt)
         == [Entry(Rank(2, 23), x.b2)] + HeapqFrom(Queue8(x), 13, DepthSize, RankLt)
  {
    var q := Queue7(x);
    RankLtIsStrictWeakOrder();
    MinIndexOfLeast(q, RankLt, 4);
    assert Score(x.b2.children, q[4].key, 13, DepthSize) == [];
    HeapqStep(q, 13, DepthSize, RankLt, 4, Queue8(x), 13);
  }

  lemma Round8(x: Cast)
    requires Shaped(x)
    ensures HeapqFrom(Queue8(x), 13, DepthSize, RankLt)
         == [Entry(Rank(2, 24), x.b3)] + HeapqFrom(Queue9(x), 13, DepthSize, RankLt)
  {
    var q := Queue8(x);
    RankLtIsStrictWeakOrder();
    MinIndexOfLeast(q, RankLt, 4);
    assert Score(x.b3.children, q[4].key, 13, DepthSize) == [];
    HeapqStep(q, 13, DepthSize, RankLt, 4, Queue9(x), 13);
  }

  lemma Round9(x: Cast)
    requires Shaped(x)
    ensures HeapqFrom(Queue9(x), 13, DepthSize, RankLt)
         == [Entry(Rank(2, 25), x.c3)] + HeapqFrom(Queue10(x), 13, DepthSize, RankLt)
  {
    var q := Queue9(x);
    RankLtIsStrictWeakOrder();
    MinIndexOfLeast(q, RankLt, 2);
    assert Score(x.c3.children, q[2].key, 13, DepthSize) == [];
    HeapqStep(q, 13, DepthSize, RankLt, 2, Queue10(x), 13);
  }

  lemma Round10(x: Cast)
    requires Shaped(x)
    ensures HeapqFrom(Queue10(x), 13, DepthSize, RankLt)
         == [Entry(Rank(2, 26), x.b1)] + HeapqFrom(Queue11(x), 13, DepthSize, RankLt)
  {
    var q := Queue10(x);
    RankLtIsStrictWeakOrder();
    MinIndexOfLeast(q, RankLt, 2);
    assert Score(x.b1.children, q[2].key, 13, DepthSize) == [];
    HeapqStep(q, 13, DepthSize, RankLt, 2, Queue11(x), 13);
  }

  lemma Round11(x: Cast)
    requires Shaped(x)
    ensures HeapqFrom(Queue11(x), 13, DepthSize, RankLt)
         == [Entry(Rank(2, 27), x.a1)] + HeapqFrom(Queue12(x), 13, DepthSize, RankLt)
  {
    var q := Queue11(x);
    RankLtIsStrictWeakOrder();
    MinIndexOfLeast(q, RankLt, 0);
    assert Score(x.a1.children, q[0].key, 13, DepthSize) == [];
    HeapqStep(q, 13, DepthSize, RankLt, 0, Queue12(x), 13);
  }

  lemma Round12(x: Cast)
    requires Shaped(x)
    ensures HeapqFrom(Queue12(x), 13, DepthSize, RankLt)
         == [Entry(Rank(2, 28), x.c2)] + HeapqFrom(Queue13(x), 13, DepthSize, RankLt)
  {
    var q := Queue12(x);
    RankLtIsStrictWeakOrder();
    MinIndexOfLeast(q, RankLt, 0);
    assert Score(x.c2.children, q[0].key, 13, DepthSize) == [];
    HeapqStep(q, 13, DepthSize, RankLt, 0, Queue13(x), 13);
  }

  // The rest of the walk from each round on, assembled from the last round back.

  lemma Link(h: seq<Entry<Rank>>, e: Entry<Rank>, h2: seq<Entry<Rank>>, w: seq<Entry<Rank>>)
    requires h == [e] + h2 && |w| > 0 && w[0] == e && h2 == w[1..]
    ensures h == w
  {
  }

  lemma Rest0(x: Cast)
    requires Shaped(x)
    ensures HeapqFrom(Queue0(x), 1, DepthSize, RankLt)
         == [Entry(Rank(0, 20), x.top), Entry(Rank(1, 15), x.a), Entry(Rank(1, 16), x.c), Entry(Rank(1, 17), x.b), Entry(Rank(2, 20), x.c1), Entry(Rank(2, 21), x.a3), Entry(Rank(2, 22), x.a2), Entry(Rank(2, 23), x.b2), Entry(Rank(2, 24), x.b3), Entry(Rank(2, 25), x.c3), Entry(Rank(2, 26), x.b1), Entry(Rank(2, 27), x.a1), Entry(Rank(2, 28), x.c2)]
  {
    Round0(x);
    Rest1(x);
    Link(HeapqFrom(Queue0(x), 1, DepthSize, RankLt), Entry(Rank(0, 20), x.top), HeapqFrom(Queue1(x), 4, DepthSize, RankLt),
         [Entry(Rank(0, 20), x.top), Entry(Rank(1, 15), x.a), Entry(Rank(1, 16), x.c), Entry(Rank(1, 17), x.b), Entry(Rank(2, 20), x.c1), Entry(Rank(2, 21), x.a3), Entry(Rank(2, 22), x.a2), Entry(Rank(2, 23), x.b2), Entry(Rank(2, 24), x.b3), Entry(Rank(2, 25), x.c3), Entry(Rank(2, 26), x.b1), Entry(Rank(2, 27), x.a1), Entry(Rank(2, 28), x.c2)]);
  }

  lemma Rest1(x: Cast)
    requires Shaped(x)
    ensures HeapqFrom(Queue1(x), 4, DepthSize, RankLt)
         == [Entry(Rank(1, 15), x.a), Entry(Rank(1, 16), x.c), Entry(Rank(1, 17), x.b), Entry(Rank(2, 20), x.c1), Entry(Rank(2, 21), x.a3), Entry(Rank(2, 22), x.a2), Entry(Rank(2, 23), x.b2), Entry(Rank(2, 24), x.b3), Entry(Rank(2, 25), x.c3), Entry(Rank(2, 26), x.b1), Entry(Rank(2, 27), x.a1), Entry(Rank(2, 28), x.c2)]
  {
    Round1(x);
    Rest2(x);
    Link(HeapqFrom(Queue1(x), 4, DepthSize, RankLt), Entry(Rank(1, 15), x.a), HeapqFrom(Queue2(x), 7, DepthSize, RankLt),
         [Entry(Rank(1, 15), x.a), Entry(Rank(1, 16), x.c), Entry(Rank(1, 17), x.b), Entry(Rank(2, 20), x.c1), Entry(Rank(2, 21), x.a3), Entry(Rank(2, 22), x.a2), Entry(Rank(2, 23), x.b2), Entry(Rank(2, 24), x.b3), Entry(Rank(2, 25), x.c3), Entry(Rank(2, 26), x.b1), Entry(Rank(2, 27), x.a1), Entry(Rank(2, 28), x.c2)]);
  }

  lemma Rest2(x: Cast)
    requires Shaped(x)
    ensures HeapqFrom(Queue2(x), 7, DepthSize, RankLt)
         == [Entry(Rank(1, 16), x.c), Entry(Rank(1, 17), x.b), Entry(Rank(2, 20), x.c1), Entry(Rank(2, 21), x.a3), Entry(Rank(2, 22), x.a2), Entry(Rank(2, 23), x.b2), Entry(Rank(2, 24), x.b3), Entry(Rank(2, 25), x.c3), Entry(Rank(2, 26), x.b1), Entry(Rank(2, 27), x.a1), Entry(Rank(2, 28), x.c2)]
  {
    Round2(x);
    Rest3(x);
    Link(HeapqFrom(Queue2(x), 7, DepthSize, RankLt), Entry(Rank(1, 16), x.c), HeapqFrom(Queue3(x), 10, DepthSize, RankLt),
         [Entry(Rank(1, 16), x.c), Entry(Rank(1, 17), x.b), Entry(Rank(2, 20), x.c1), Entry(Rank(2, 21), x.a3), Entry(Rank(2, 22), x.a2), Entry(Rank(2, 23), x.b2), Entry(Rank(2, 24), x.b3), Entry(Rank(2, 25), x.c3), Entry(Rank(2, 26), x.b1), Entry(Rank(2, 27), x.a1), Entry(Rank(2, 28), x.c2)]);
  }

  lemma Rest3(x: Cast)
    requires Shaped(x)
    ensures HeapqFrom(Queue3(x), 10, DepthSize, RankLt)
         == [Entry(Rank(1, 17), x.b), Entry(Rank(2, 20), x.c1), Entry(Rank(2, 21), x.a3), Entry(Rank(2, 22), x.a2), Entry(Rank(2, 23), x.b2), Entry(Rank(2, 24), x.b3), Entry(Rank(2, 25), x.c3), Entry(Rank(2, 26), x.b1), Entry(Rank(2, 27), x.a1), Entry(Rank(2, 28), x.c2)]
  {
    Round3(x);
    Rest4(x);
    Link(HeapqFrom(Queue3(x), 10, DepthSize, RankLt), Entry(Rank(1, 17), x.b), HeapqFrom(Queue4(x), 13, DepthSize, RankLt),
         [Entry(Rank(1, 17), x.b), Entry(Rank(2, 20), x.c1), Entry(Rank(2, 21), x.a3), Entry(Rank(2, 22), x.a2), Entry(Rank(2, 23), x.b2), Entry(Rank(2, 24), x.b3), Entry(Rank(2, 25), x.c3), Entry(Rank(2, 26), x.b1), Entry(Rank(2, 27), x.a1), Entry(Rank(2, 28), x.c2)]);
  }

  lemma Rest4(x: Cast)
    requires Shaped(x)
    ensures HeapqFrom(Queue4(x), 13, DepthSize, RankLt)
         == [Entry(Rank(2, 20), x.c1), Entry(Rank(2, 21), x.a3), Entry(Rank(2, 22), x.a2), Entry(Rank(2, 23), x.b2), Entry(Rank(2, 24), x.b3), Entry(Rank(2, 25), x.c3), Entry(Rank(2, 26), x.b1), Entry(Rank(2, 27), x.a1), Entry(Rank(2, 28), x.c2)]
  {
    Round4(x);
    Rest5(x);
    Link(HeapqFrom(Queue4(x), 13, DepthSize, RankLt), Entry(Rank(2, 20), x.c1), HeapqFrom(Queue5(x), 13, DepthSize, RankLt),
         [Entry(Rank(2, 20), x.c1), Entry(Rank(2, 21), x.a3), Entry(Rank(2, 22), x.a2), Entry(Rank(2, 23), x.b2), Entry(Rank(2, 24), x.b3), Entry(Rank(2, 25), x.c3), Entry(Rank(2, 26), x.b1), Entry(Rank(2, 27), x.a1), Entry(Rank(2, 28), x.c2)]);
  }

  lemma Rest5(x: Cast)
    requires Shaped(x)
    ensures HeapqFrom(Queue5(x), 13, DepthSize, RankLt)
         == [Entry(Rank(2, 21), x.a3), Entry(Rank(2, 22), x.a2), Entry(Rank(2, 23), x.b2), Entry(Rank(2, 24), x.b3), Entry(Rank(2, 25), x.c3), Entry(Rank(2, 26), x.b1), Entry(Rank(2, 27), x.a1), Entry(Rank(2, 28), x.c2)]
  {
    Round5(x);
    Rest6(x);
    Link(HeapqFrom(Queue5(x), 13, DepthSize, RankLt), Entry(Rank(2, 21), x.a3), HeapqFrom(Queue6(x), 13, DepthSize, RankLt),
         [Entry(Rank(2, 21), x.a3), Entry(Rank(2, 22), x.a2), Entry(Rank(2, 23), x.b2), Entry(Rank(2, 24), x.b3), Entry(Rank(2, 25), x.c3), Entry(Rank(2, 26), x.b1), Entry(Rank(2, 27), x.a1), Entry(Rank(2, 28), x.c2)]);
  }

  lemma Rest6(x: Cast)
    requires Shaped(x)
    ensures HeapqFrom(Queue6(x), 13, DepthSize, RankLt)
         == [Entry(Rank(2, 22), x.a2), Entry(Rank(2, 23), x.b2), Entry(Rank(2, 24), x.b3), Entry(Rank(2, 25), x.c3), Entry(Rank(2, 26), x.b1), Entry(Rank(2, 27), x.a1), Entry(Rank(2, 28), x.c2)]
  {
    Round6(x);
    Rest7(x);
    Link(HeapqFrom(Queue6(x), 13, DepthSize, RankLt), Entry(Rank(2, 22), x.a2), HeapqFrom(Queue7(x), 13, DepthSize, RankLt),
         [Entry(Rank(2, 22), x.a2), Entry(Rank(2, 23), x.b2), Entry(Rank(2, 24), x.b3), Entry(Rank(2, 25), x.c3), Entry(Rank(2, 26), x.b1), Entry(Rank(2, 27), x.a1), Entry(Rank(2, 28), x.c2)]);
  }

  lemma Rest7(x: Cast)
    requires Shaped(x)
    ensures HeapqFrom(Queue7(x), 13, DepthSize, RankLt)
         == [Entry(Rank(2, 23), x.b2), Entry(Rank(2, 24), x.b3), Entry(Rank(2, 25), x.c3), Entry(Rank(2, 26), x.b1), Entry(Rank(2, 27), x.a1), Entry(Rank(2, 28), x.c2)]
  {
    Round7(x);
    Rest8(x);
    Link(HeapqFrom(Queue7(x), 13, DepthSize, RankLt), Entry(Rank(2, 23), x.b2), HeapqFrom(Queue8(x), 13, DepthSize, RankLt),
         [Entry(Rank(2, 23), x.b2), Entry(Rank(2, 24), x.b3), Entry(Rank(2, 25), x.c3), Entry(Rank(2, 26), x.b1), Entry(Rank(2, 27), x.a1), Entry(Rank(2, 28), x.c2)]);
  }

  lemma Rest8(x: Cast)
    requires Shaped(x)
    ensures HeapqFrom(Queue8(x), 13, DepthSize, RankLt)
         == [Entry(Rank(2, 24), x.b3), Entry(Rank(2, 25), x.c3), Entry(Rank(2, 26), x.b1), Entry(Rank(2, 27), x.a1), Entry(Rank(2, 28), x.c2)]
  {
    Round8(x);
    Rest9(x);
    Link(HeapqFrom(Queue8(x), 13, DepthSize, RankLt), Entry(Rank(2, 24), x.b3), HeapqFrom(Queue9(x), 13, DepthSize, RankLt),
         [Entry(Rank(2, 24), x.b3), Entry(Rank(2, 25), x.c3), Entry(Rank(2, 26), x.b1), Entry(Rank(2, 27), x.a1), Entry(Rank(2, 28), x.c2)]);
  }

  lemma Rest9(x: Cast)
    requires Shaped(x)
    ensures HeapqFrom(Queue9(x), 13, DepthSize, RankLt)
         == [Entry(Rank(2, 25), x.c3), Entry(Rank(2, 26), x.b1), Entry(Rank(2, 27), x.a1), Entry(Rank(2, 28), x.c2)]
  {
    Round9(x);
    Rest10(x);
    Link(HeapqFrom(Queue9(x), 13, DepthSize, RankLt), Entry(Rank(2, 25), x.c3), HeapqFrom(Queue10(x), 13, DepthSize, RankLt),
         [Entry(Rank(2, 25), x.c3), Entry(Rank(2, 26), x.b1), Entry(Rank(2, 27), x.a1), Entry(Rank(2, 28), x.c2)]);
  }

  lemma Rest10(x: Cast)
    requires Shaped(x)
    ensures HeapqFrom(Queue10(x), 13, DepthSize, RankLt)
         == [Entry(Rank(2, 26), x.b1), Entry(Rank(2, 27), x.a1), Entry(Rank(2, 28), x.c2)]
  {
    Round10(x);
    Rest11(x);
    Link(HeapqFrom(Queue10(x), 13, DepthSize, RankLt), Entry(Rank(2, 26), x.b1), HeapqFrom(Queue11(x), 13, DepthSize, RankLt),
         [Entry(Rank(2, 26), x.b1), Entry(Rank(2, 27), x.a1), Entry(Rank(2, 28), x.c2)]);
  }

  lemma Rest11(x: Cast)
    requires Shaped(x)
    ensures HeapqFrom(Queue11(x), 13, DepthSize, RankLt)
         == [Entry(Rank(2, 27), x.a1), Entry(Rank(2, 28), x.c2)]
  {
    Round11(x);
    Rest12(x);
    Link(HeapqFrom(Queue11(x), 13, DepthSize, RankLt), Entry(Rank(2, 27), x.a1), HeapqFrom(Queue12(x), 13, DepthSize, RankLt),
         [Entry(Rank(2, 27), x.a1), Entry(Rank(2, 28), x.c2)]);
  }

  lemma Rest12(x: Cast)
    requires Shaped(x)
    ensures HeapqFrom(Queue12(x), 13, DepthSize, RankLt)
         == [Entry(Rank(2, 28), x.c2)]
  {
    Round12(x);
    assert HeapqFrom(Queue13(x), 13, DepthSize, RankLt) == [];
  }
  /** The tree the test builds, cast into those roles. */
  const Example := Cast(Top, A, B, C, A1, A2, A3, B1, B2, B3, C1, C2, C3)

  lemma ExampleIsShaped()
    ensures Shaped(Example)
  {
    OwnSizes();
  }

  /** With the depth-then-size scorer the walk yields the root, then the
      depth-1 nodes by ascending own size, then the depth-2 nodes by
      ascending own size. */
  lemma HeapqOrderOfTheExample()
    ensures TraverseHeapq(Top, DepthSize, RankLt) == [Top, A, C, B, C1, A3, A2, B2, B3, C3, B1, A1, C2]
  {
    ExampleIsShaped();
    ShapedWalk(Example);
  }

  /** The walk of any tree cast into the example's shape, in its roles. */
  lemma ShapedWalk(x: Cast)
    requires Shaped(x)
    ensures TraverseHeapq(x.top, DepthSize, RankLt)
         == [x.top, x.a, x.c, x.b, x.c1, x.a3, x.a2, x.b2, x.b3, x.c3, x.b1, x.a1, x.c2]
  {
    ShapedScored(x);
    NodesOfWalk(x, TraverseHeapqScored(x.top, DepthSize, RankLt));
  }

  /** The scored walk of such a tree, starting from the root's queue. */
  lemma ShapedScored(x: Cast)
    requires Shaped(x)
    ensures TraverseHeapqScored(x.top, DepthSize, RankLt) == Walk(x)
  {
    assert DepthSize(x.top, None, 0) == Rank(0, 20);
    assert TraverseHeapqScored(x.top, DepthSize, RankLt) == HeapqFrom(Queue0(x), 1, DepthSize, RankLt);
    Rest0(x);
  }

  /** The entries the walk yields, in order. */
  function Walk(x: Cast): seq<Entry<Rank>> {
    [Entry(Rank(0, 20), x.top), Entry(Rank(1, 15), x.a), Entry(Rank(1, 16), x.c), Entry(Rank(1, 17), x.b), Entry(Rank(2, 20), x.c1), Entry(Rank(2, 21), x.a3), Entry(Rank(2, 22), x.a2), Entry(Rank(2, 23), x.b2), Entry(Rank(2, 24), x.b3), Entry(Rank(2, 25), x.c3), Entry(Rank(2, 26), x.b1), Entry(Rank(2, 27), x.a1), Entry(Rank(2, 28), x.c2)]
  }

  lemma NodesOfWalk(x: Cast, w: seq<Entry<Rank>>)
    requires w == Walk(x)
    ensures Nodes(w) == [x.top, x.a, x.c, x.b, x.c1, x.a3, x.a2, x.b2, x.b3, x.c3, x.b1, x.a1, x.c2]
  {
  }

  /** The test's view of that walk: each node's first label without the leading `path1/`. */
  lemma HeapqLabelsOfTheExample()
    ensures |TraverseHeapq(Top, DepthSize, RankLt)| == 13
    ensures seq(13, i requires 0 <= i < 13 => SliceFrom(TraverseHeapq(Top, DepthSize, RankLt)[i].label1, 6))
         == ["", "a", "c", "b", "c/1", "a/3", "a/2", "b/2", "b/3", "c/3", "b/1", "a/1", "c/2"]
  {
    HeapqOrderOfTheExample();
    TestLabels(TraverseHeapq(Top, DepthSize, RankLt));
  }

  lemma TestLabels(w: seq<Diff>)
    requires w == [Top, A, C, B, C1, A3, A2, B2, B3, C3, B1, A1, C2]
    ensures seq(13, i requires 0 <= i < 13 => SliceFrom(w[i].label1, 6))
         == ["", "a", "c", "b", "c/1", "a/3", "a/2", "b/2", "b/3", "c/3", "b/1", "a/1", "c/2"]
  {
  }

  /** The scores of that walk never decrease. */
  lemma ExampleScoresAscend()
    ensures Ascending(TraverseHeapqScored(Top, DepthSize, RankLt), RankLt)
  {
    RankLtIsStrictWeakOrder();
    DepthSizeIncreases();
    TraverseHeapqAscending(Top, DepthSize, RankLt);
  }
}

=== FILE: feeders.dfy ===
/** The feeders that stream an input into the external `diff`: a line-capped
    pass-through for byte and text readers, the rule that turns a failed
    command into an error, a chunked writer for in-memory text, and the empty
    feeder. The file written to is modelled as the list of byte strings
    written to it; the SHA-1 digest is a parameter. */
module Feeders {
  import opened Wrappers
  import opened Text

  /** The largest piece `from_text` writes at once. */
  const DiffChunk: nat := 4096

  /** `SIGTERM` on Linux; a command it ends counts as successful. */
  const SigTerm: int := 15

  /** `max_diff_input_lines`: a line count, or infinity. */
  datatype Cap = Finite(limit: int) | Unbounded

  /** What a feeder leaves behind: the byte strings it wrote, in order, and
      the value it returns (whether the output ends with a newline). */
  datatype Fed = Fed(written: seq<Bytes>, endNl: bool)

  /** The concatenation of the written pieces. */
  function Concat(chunks: seq<Bytes>): Bytes {
    if |chunks| == 0 then [] else Concat(chunks[..|chunks| - 1]) + chunks[|chunks| - 1]
  }

  /** The marker written once the cap is reached, naming the digest of the
      whole filtered input. */
  function TooMuchInput(hex: string): Bytes {
    Encode("[ Too much input for diff (SHA1: " + hex + ") ]\n")
  }

  /** Whether the line numbered `lineNo` (counting from 1) reaches the output. */
  predicate Passes(cap: Cap, lineNo: nat) {
    cap.Unbounded? || lineNo < cap.limit
  }

  /** Whether `count` lines in all call for the marker. */
  predicate Overflows(cap: Cap, count: nat) {
    cap.Finite? && count >= cap.limit
  }

  // ------------------------------------------------------ the specification

  /** How many leading lines of `count` reach the output. */
  function Kept(cap: Cap, count: nat): (k: nat)
    ensures k <= count
    ensures forall lineNo :: 1 <= lineNo <= count ==> (lineNo - 1 < k <==> Passes(cap, lineNo))
  {
    if cap.Unbounded? then count
    else if cap.limit - 1 <= 0 then 0
    else if cap.limit - 1 < count then cap.limit - 1
    else count
  }

  function FilterAll<L>(lines: seq<L>, filter: L -> Bytes): (r: seq<Bytes>)
    ensures |r| == |lines|
    ensures forall i :: 0 <= i < |lines| ==> r[i] == filter(lines[i])
  {
    seq(|lines|, i requires 0 <= i < |lines| => filter(lines[i]))
  }

  /** The newline flag of the last line that is not empty, or false when
      there is none; `lastNl` is `None` for an empty line. */
  function LastNl<L>(lines: seq<L>, lastNl: L -> Option<bool>): bool {
    if |lines| == 0 then false
    else match lastNl(lines[|lines| - 1])
      case Some(e) => e
      case None => LastNl(lines[..|lines| - 1], lastNl)
  }

  /** What the capped feeder produces, said in one go: the filtered lines
      numbered below the cap, then the marker over the digest of every
      filtered line if the input reached the cap. */
  function Expected<L>(lines: seq<L>, filter: L -> Bytes, lastNl: L -> Option<bool>,
                       cap: Cap, digest: Bytes -> string): Fed
  {
    var all := FilterAll(lines, filter);
    if Overflows(cap, |lines|)
    then Fed(all[..Kept(cap, |lines|)] + [TooMuchInput(digest(Concat(all)))], true)
    else Fed(all[..Kept(cap, |lines|)], LastNl(lines, lastNl))
  }

  /** What the reference definition promises: the lines below the cap pass
      through filtered and in order, the marker over the digest of every
      filtered line comes once at the end exactly when the cap is reached,
      and an unbounded feeder writes every line. */
  lemma ExpectedShape<L>(lines: seq<L>, filter: L -> Bytes, lastNl: L -> Option<bool>,
                         cap: Cap, digest: Bytes -> string)
    ensures var r := Expected(lines, filter, lastNl, cap, digest);
            && (cap.Unbounded? ==> r.written == FilterAll(lines, filter) && r.endNl == LastNl(lines, lastNl))
            && (forall k :: 0 <= k < |lines| && Passes(cap, k + 1) ==> k < |r.written| && r.written[k] == filter(lines[k]))
            && |r.written| == Kept(cap, |lines|) + (if Overflows(cap, |lines|) then 1 else 0)
            && (Overflows(cap, |lines|) ==>
                  r.endNl && r.written[|r.written| - 1] == TooMuchInput(digest(Concat(FilterAll(lines, filter)))))
            && (!Overflows(cap, |lines|) ==> r.endNl == LastNl(lines, lastNl))
  {
    var all := FilterAll(lines, filter);
    if cap.Unbounded? {
      assert all[..|lines|] == all;
    }
  }

  // ------------------------------------------------------ the state machine

  /** The loop variables of the capped feeder: the line count, the digest
      input so far (`None` when there is no cap and nothing is hashed), the
      output so far and the newline flag. */
  datatype Feeding = Feeding(lineCount: nat, hashed: Option<Bytes>, written: seq<Bytes>, endNl: bool)

  function Start(cap: Cap): Feeding {
    Feeding(0, if cap.Finite? then Some([]) else None, [], false)
  }

  /** One turn of the loop: count the line, filter it, hash it when there is
      a cap, write it while the count is below the cap, and take its newline
      flag when it is not empty. */
  function Step<L>(s: Feeding, buf: L, filter: L -> Bytes, lastNl: L -> Option<bool>, cap: Cap): Feeding {
    var n := s.lineCount + 1;
    var out := filter(buf);
    Feeding(n,
            if s.hashed.Some? then Some(s.hashed.value + out) else None,
            if Passes(cap, n) then s.written + [out] else s.written,
            match lastNl(buf) case Some(e) => e case None => s.endNl)
  }

  /** After the loop: the marker when there is a cap and it was reached. */
  function Finish(s: Feeding, cap: Cap, digest: Bytes -> string): Fed {
    if s.hashed.Some? && cap.Finite? && s.lineCount >= cap.limit
    then Fed(s.written + [TooMuchInput(digest(s.hashed.value))], true)
    else Fed(s.written, s.endNl)
  }

  /** The loop variables after the first `i` lines. */
  predicate FedSoFar<L>(s: Feeding, lines: seq<L>, i: nat, filter: L -> Bytes, lastNl: L -> Option<bool>, cap: Cap)
    requires i <= |lines|
  {
    && s.lineCount == i
    && s.hashed == (if cap.Finite? then Some(Concat(FilterAll(lines[..i], filter))) else None)
    && s.written == FilterAll(lines, filter)[..Kept(cap, i)]
    && s.endNl == LastNl(lines[..i], lastNl)
  }

  /** One turn of the loop takes the loop variables from `i` lines to `i + 1`. */
  lemma StepFeeds<L>(s: Feeding, lines: seq<L>, i: nat, filter: L -> Bytes, lastNl: L -> Option<bool>, cap: Cap)
    requires i < |lines| && FedSoFar(s, lines, i, filter, lastNl, cap)
    ensures FedSoFar(Step(s, lines[i], filter, lastNl, cap), lines, i + 1, filter, lastNl, cap)
  {
    var all := FilterAll(lines, filter);
    assert lines[..i + 1][..i] == lines[..i];
    assert FilterAll(lines[..i + 1], filter) == FilterAll(lines[..i], filter) + [filter(lines[i])];
    if Passes(cap, i + 1) {
      assert Kept(cap, i + 1) == Kept(cap, i) + 1;
      assert all[..Kept(cap, i + 1)] == all[..Kept(cap, i)] + [all[i]];
    } else {
      assert Kept(cap, i + 1) == Kept(cap, i);
    }
  }

  /** The feeder's loop over the input lines: it produces exactly the
      filtered lines numbered 1 to the cap minus one, in order, and the
      marker once at the end if and only if the input reached the cap. */
  method Feed<L>(lines: seq<L>, filter: L -> Bytes, lastNl: L -> Option<bool>,
                 cap: Cap, digest: Bytes -> string) returns (r: Fed)
    ensures r == Expected(lines, filter, lastNl, cap, digest)
    ensures cap.Unbounded? ==> r.written == FilterAll(lines, filter) && r.endNl == LastNl(lines, lastNl)
    ensures forall k :: 0 <= k < |lines| && Passes(cap, k + 1) ==> k < |r.written| && r.written[k] == filter(lines[k])
    ensures |r.written| == Kept(cap, |lines|) + (if Overflows(cap, |lines|) then 1 else 0)
    ensures Overflows(cap, |lines|) ==>
              r.endNl && r.written[|r.written| - 1] == TooMuchInput(digest(Concat(FilterAll(lines, filter))))
    ensures !Overflows(cap, |lines|) ==> r.endNl == LastNl(lines, lastNl)
  {
    var s := Start(cap);
    assert FilterAll(lines[..0], filter) == [];
    for i := 0 to |lines|
      invariant FedSoFar(s, lines, i, filter, lastNl, cap)
    {
      StepFeeds(s, lines, i, filter, lastNl, cap);
      s := Step(s, lines[i], filter, lastNl, cap);
    }
    assert lines[..|lines|] == lines;
    r := Finish(s, cap, digest);
    ExpectedShape(lines, filter, lastNl, cap, digest);
  }

  // ------------------------------------------------------------ the readers

  /** The newline test as written for a byte line: indexing a byte string
      gives an integer, which never equals the one-character string "\n". */
  function RawLastNlAsWritten(buf: Bytes): (r: Option<bool>)
    ensures r.None? <==> |buf| == 0
    ensures r != Some(true)
  {
    if |buf| == 0 then None else Some(false)
  }

  /** The newline test meant for a byte line: is its last byte 0x0A? */
  function RawLastNl(buf: Bytes): (r: Option<bool>)
    ensures r.None? <==> |buf| == 0
    ensures r == Some(true) <==> EndsWith(buf, [10])
  {
    if |buf| == 0 then None else Some(buf[|buf| - 1] == 10)
  }

  /** The newline test of a text line. */
  function TextLastNl(buf: string): (r: Option<bool>)
    ensures r.None? <==> |buf| == 0
    ensures r == Some(true) <==> EndsWith(buf, "\n")
  {
    if |buf| == 0 then None else Some(buf[|buf| - 1] == '\n')
  }

  /** A line that ends in a newline shows the two tests apart. */
  lemma RawNewlineCounterexample()
    ensures RawLastNlAsWritten([10]) == Some(false)
    ensures RawLastNl([10]) == Some(true)
  {
  }

  function Identity(b: Bytes): Bytes { b }

  /** `from_raw_reader` as written: over byte lines it returns true only when
      it wrote the marker, whatever the lines end with. */
  method FromRawReaderAsWritten(lines: seq<Bytes>, filter: Option<Bytes -> Bytes>,
                                cap: Cap, digest: Bytes -> string) returns (r: Fed)
    ensures r.endNl <==> Overflows(cap, |lines|)
  {
    r := Feed(lines, if filter.Some? then filter.value else Identity, RawLastNlAsWritten, cap, digest);
    if !Overflows(cap, |lines|) {
      NeverNewline(lines);
    }
  }

  lemma {:induction false} NeverNewline(lines: seq<Bytes>)
    ensures !LastNl(lines, RawLastNlAsWritten)
    decreases |lines|
  {
    if |lines| > 0 && |lines[|lines| - 1]| == 0 {
      NeverNewline(lines[..|lines| - 1]);
    }
  }

  /** `from_raw_reader` with the newline test it means: the output is the
      filtered byte lines below the cap, then the marker, and the result
      says whether the last non-empty line ends in a newline. */
  method FromRawReader(lines: seq<Bytes>, filter: Option<Bytes -> Bytes>,
                       cap: Cap, digest: Bytes -> string) returns (r: Fed)
    ensures var f := if filter.Some? then filter.value else Identity;
            r == Expected(lines, f, RawLastNl, cap, digest)
    ensures filter.None? && cap.Unbounded? ==> r.written == lines
    ensures !Overflows(cap, |lines|) ==> (r.endNl <==> LastNl(lines, RawLastNl))
  {
    var f := if filter.Some? then filter.value else Identity;
    r := Feed(lines, f, RawLastNl, cap, digest);
    if filter.None? && cap.Unbounded? {
      assert r.written == FilterAll(lines, f);
    }
  }

  /** `from_text_reader`: text lines go through the filter, if any, and are
      then encoded as UTF-8. */
  method FromTextReader(lines: seq<string>, filter: Option<string -> string>,
                        cap: Cap, digest: Bytes -> string) returns (r: Fed)
    ensures var f := if filter.Some? then (t: string) => Encode(filter.value(t)) else Encode;
            r == Expected(lines, f, TextLastNl, cap, digest)
    ensures forall k :: 0 <= k < |lines| && Passes(cap, k + 1) ==>
              k < |r.written| && r.written[k] == Encode(if filter.Some? then filter.value(lines[k]) else lines[k])
  {
    var f := if filter.Some? then (t: string) => Encode(filter.value(t)) else Encode;
    r := Feed(lines, f, TextLastNl, cap, digest);
  }

  // ------------------------------------------------------------ from_command

  /** A finished command: its standard output as byte lines, its exit code
      and its standard error. */
  datatype Invocation = Invocation(cmdline: seq<string>, stdout: seq<Bytes>, returncode: int, stderr: string)

  datatype CalledProcessError = CalledProcessError(returncode: int, cmdline: seq<string>, output: Bytes)

  /** What `from_command`'s feeder leaves behind: the output written, the
      cache afterwards, and the newline flag or the error it raises. */
  datatype CommandFed = CommandFed(written: seq<Bytes>, cache: map<string, seq<Bytes>>,
                                   outcome: Result<bool, CalledProcessError>)

  predicate Succeeded(returncode: int) {
    returncode == 0 || returncode == -SigTerm
  }

  /** The message of a failed command: its standard error, or else the first
      line of its standard output stripped, marked when more lines follow. */
  function ErrorOutput(run: Invocation): (r: string)
    ensures |run.stderr| > 0 ==> r == run.stderr
    ensures |r| == 0 <==> (|run.stderr| == 0 && (|run.stdout| == 0
              || (|run.stdout| == 1 && StripText(DecodeIgnore(run.stdout[0])) == "")))
    ensures |run.stderr| == 0 && |run.stdout| > 1 ==> EndsWith(r, "\n[…]")
    ensures |run.stderr| == 0 && |run.stdout| > 0 ==>
              r == StripText(DecodeIgnore(run.stdout[0])) + MoreMarker(run)
    ensures |run.stderr| == 0 && |run.stdout| > 0 ==>
              var first := r[..|r| - |MoreMarker(run)|];
              && EndsWith(r, MoreMarker(run))
              && Trimmed(DecodeIgnore(run.stdout[0]), first, IsSpace)
              && EndsKept(first, IsSpace)
  {
    if |run.stderr| == 0 && |run.stdout| > 0 then
      StrippedThenMarker(DecodeIgnore(run.stdout[0]), MoreMarker(run));
      StripText(DecodeIgnore(run.stdout[0])) + MoreMarker(run)
    else run.stderr
  }

  lemma StrippedThenMarker(line: string, m: string)
    ensures var r := StripText(line) + m;
            && EndsWith(r, m)
            && r[..|r| - |m|] == StripText(line)
            && Trimmed(line, StripText(line), IsSpace)
            && EndsKept(StripText(line), IsSpace)
  {
    StripIsTrimmed(line, IsSpace);
    var r := StripText(line) + m;
    assert r[..|r| - |m|] == StripText(line);
    assert r[|r| - |m|..] == m;
  }

  /** Appended to the first line of output when more lines follow. */
  function MoreMarker(run: Invocation): string {
    if |run.stdout| > 1 then "\n[…]" else ""
  }

  /** Any whitespace-trimmed slice of the first output line, with its
      outermost characters kept, followed by the marker, is the message. */
  lemma ErrorOutputIsTheTrim(run: Invocation, first: string, i: nat)
    requires |run.stderr| == 0 && |run.stdout| > 0
    requires TrimmedAt(DecodeIgnore(run.stdout[0]), first, IsSpace, i) && EndsKept(first, IsSpace)
    ensures ErrorOutput(run) == first + MoreMarker(run)
  {
    StripUnique(DecodeIgnore(run.stdout[0]), first, IsSpace, i);
  }

  /** `from_command`'s feeder. A cached output counts as a successful run;
      otherwise the command's own output and exit code are used. The output
      is fed through the capped feeder either way; on success it is cached
      under the key, if there is one, and on failure an error is raised. */
  method FromCommand(key: Option<string>, cache: map<string, seq<Bytes>>, run: Invocation,
                     filter: Option<Bytes -> Bytes>, cap: Cap, digest: Bytes -> string)
    returns (r: CommandFed)
    ensures var hit := key.Some? && key.value in cache;
            var stdout := if hit then cache[key.value] else run.stdout;
            var f := if filter.Some? then filter.value else Identity;
            var fed := Expected(stdout, f, RawLastNl, cap, digest);
            && r.written == fed.written
            && (r.outcome.Success? <==> hit || Succeeded(run.returncode))
            && (r.outcome.Success? ==> r.outcome.value == fed.endNl)
            && (r.outcome.Failure? ==>
                  r.outcome.error == CalledProcessError(run.returncode, run.cmdline, Encode(ErrorOutput(run))))
            && (r.outcome.Success? && key.Some? ==> r.cache == cache[key.value := stdout])
            && (r.outcome.Failure? || key.None? ==> r.cache == cache)
  {
    var hit := key.Some? && key.value in cache;
    var stdout, returncode;
    if hit {
      stdout, returncode := cache[key.value], 0;
    } else {
      stdout, returncode := run.stdout, run.returncode;
    }
    var fed := FromRawReader(stdout, filter, cap, digest);
    if Succeeded(returncode) {
      var c := if key.Some? then cache[key.value := stdout] else cache;
      r := CommandFed(fed.written, c, Success(fed.endNl));
    } else {
      r := CommandFed(fed.written, cache,
                      Failure(CalledProcessError(returncode, run.cmdline, Encode(ErrorOutput(run)))));
    }
  }

  // --------------------------------------------------------------- from_text

  function Min(a: int, b: int): int {
    if a <= b then a else b
  }

  /** The `i`th piece `from_text` writes: characters `4096 * i` up to
      `4096 * (i + 1)`, or to the end. */
  function Chunk(content: string, i: nat): string
    requires i * 4096 <= |content|
  {
    content[i * 4096..Min(i * 4096 + 4096, |content|)]
  }

  /** The number of pieces of a content of `n` characters, rounding up. */
  lemma PieceCount(pieces: nat, n: nat)
    requires pieces * 4096 >= n && (pieces == 0 || (pieces - 1) * 4096 < n)
    ensures pieces == (n + DiffChunk - 1) / DiffChunk
  {
  }

  /** An encoding that distributes over concatenation, as UTF-8 does. */
  ghost predicate Homomorphic(enc: string -> Bytes) {
    forall a: string, b: string :: enc(a + b) == enc(a) + enc(b)
  }

  /** `written` holds the first pieces of `content`, each encoded. */
  predicate PiecesOf(content: string, written: seq<Bytes>, enc: string -> Bytes) {
    forall i :: 0 <= i < |written| ==>
      i * 4096 < |content| && written[i] == enc(Chunk(content, i))
      && 0 < |Chunk(content, i)| <= 4096
  }

  lemma PiecesExtend(content: string, written: seq<Bytes>, enc: string -> Bytes)
    requires PiecesOf(content, written, enc) && |written| * 4096 < |content|
    ensures PiecesOf(content, written + [enc(Chunk(content, |written|))], enc)
  {
    var w := written + [enc(Chunk(content, |written|))];
    forall i | 0 <= i < |w|
      ensures i * 4096 < |content| && w[i] == enc(Chunk(content, i)) && 0 < |Chunk(content, i)| <= 4096
    {
      if i < |written| {
        assert w[i] == written[i];
      }
    }
  }

  lemma {:induction false} ConcatExtend(written: seq<Bytes>, content: string, offset: nat, end: nat, enc: string -> Bytes)
    requires Homomorphic(enc)
    requires offset <= end <= |content|
    requires Concat(written) == enc(content[..offset])
    ensures Concat(written + [enc(content[offset..end])]) == enc(content[..end])
  {
    var piece := content[offset..end];
    var w := written + [enc(piece)];
    assert w[..|w| - 1] == written;
    assert content[..end] == content[..offset] + piece;
  }

  /** The loop of `from_text` for any encoding that distributes over
      concatenation: pieces of at most 4096 characters, in order, whose
      encodings concatenate to the encoded content. */
  method WriteChunks(content: string, enc: string -> Bytes) returns (written: seq<Bytes>)
    requires Homomorphic(enc)
    ensures |written| == (|content| + DiffChunk - 1) / DiffChunk
    ensures PiecesOf(content, written, enc)
    ensures Concat(written) == enc(content)
  {
    written := [];
    var offset := 0;
    assert enc([] + []) == enc([]) + enc([]);
    assert content[..0] == [] == [] + [];
    while offset < |content|
      invariant offset == |written| * 4096
      invariant |written| == 0 || (|written| - 1) * 4096 < |content|
      invariant PiecesOf(content, written, enc)
      invariant Concat(written) == enc(content[..Min(offset, |content|)])
      decreases |content| - offset
    {
      var end := Min(offset + 4096, |content|);
      assert Chunk(content, |written|) == content[offset..end];
      PiecesExtend(content, written, enc);
      ConcatExtend(written, content, offset, end, enc);
      written := written + [enc(content[offset..end])];
      offset := offset + 4096;
      assert Min(offset, |content|) == end;
    }
    assert content[..|content|] == content;
    PieceCount(|written|, |content|);
  }

  /** `from_text`: the content in pieces of at most 4096 characters, each
      encoded as UTF-8, whose concatenation is the whole encoded content; the
      result says whether the content ends in a newline (an empty content
      gives a false value). */
  method FromText(content: string) returns (r: Fed)
    ensures |r.written| == (|content| + DiffChunk - 1) / DiffChunk
    ensures forall i :: 0 <= i < |r.written| ==>
              i * 4096 < |content| && r.written[i] == Encode(Chunk(content, i))
              && 0 < |Chunk(content, i)| <= DiffChunk
    ensures Concat(r.written) == Encode(content)
    ensures r.endNl <==> EndsWith(content, "\n")
  {
    forall a: string, b: string ensures Encode(a + b) == Encode(a) + Encode(b) {
      EncodeAppend(a, b);
    }
    var written := WriteChunks(content, Encode);
    r := Fed(written, |content| > 0 && content[|content| - 1] == '\n');
  }

  /** `empty`: writes nothing and returns false. */
  function Empty(): (r: Fed)
    ensures r.written == [] && !r.endNl
  {
    Fed([], false)
  }
}

=== FILE: macho_commands.dfy ===
/** The commands the Mach-O comparator runs: which tool and options each one
    uses, how it cleans its output lines, which command stands in when it
    produces nothing, and the two backends' section tables. Running a
    command and diffing its output is a parameter: a function from the
    command to the difference it yields, if any. */
module MachoCommands {
  import opened Wrappers
  import opened Text
  import opened Difference

  /** Every command class of the comparator. */
  datatype CommandKind =
    | OtoolHeaders | OtoolLibraries
    | OtoolDump | OtoolDisassemble | OtoolDisassembleInternal
    | LlvmFileHeaders | LlvmNeededLibs | LlvmSymbols | LlvmDynSymbols
    | LlvmRelocations | LlvmDynRelocations
    | LlvmObjdump

  /** The commands that work on one section of one architecture. */
  predicate OnSection(k: CommandKind) {
    k.OtoolDump? || k.OtoolDisassemble? || k.OtoolDisassembleInternal? || k.LlvmObjdump?
  }

  /** The commands whose options name the section's segment and section apart. */
  predicate SplitsSection(k: CommandKind) {
    k.OtoolDump? || k.OtoolDisassemble? || k.OtoolDisassembleInternal?
  }

  predicate IsLlvmReadobj(k: CommandKind) {
    k.LlvmFileHeaders? || k.LlvmNeededLibs? || k.LlvmSymbols?
    || k.LlvmDynSymbols? || k.LlvmRelocations? || k.LlvmDynRelocations?
  }

  /** `segname, sectname = section.split(",")` raises this unless the name
      has exactly one comma. */
  datatype ValueError = ValueError(section: string)

  /** A section name cut at its only comma into segment and section. */
  function SegmentAndSection(section: string): (r: Result<(string, string), ValueError>)
    ensures r.Success? <==> |Split(section, ',')| == 2
    ensures r.Success? ==> (r.value.0 + "," + r.value.1 == section
                            && ',' !in r.value.0 && ',' !in r.value.1)
  {
    var pieces := Split(section, ',');
    if |pieces| == 2 then
      assert Join(pieces[1..], ',') == pieces[1];
      Success((pieces[0], pieces[1]))
    else Failure(ValueError(section))
  }

  /** The tool each command runs. */
  function Tool(k: CommandKind): string {
    if k.LlvmObjdump? then "llvm-objdump"
    else if IsLlvmReadobj(k) then "llvm-readobj"
    else "otool"
  }

  /** The options between the tool and the path, for commands on a whole file. */
  function FileOptions(k: CommandKind): seq<string>
    requires !OnSection(k)
  {
    match k
    case OtoolHeaders => ["-h"]
    case OtoolLibraries => ["-L"]
    case LlvmFileHeaders => ["-file-headers"]
    case LlvmNeededLibs => ["-needed-libs"]
    case LlvmSymbols => ["-symbols"]
    case LlvmDynSymbols => ["-dyn-symbols"]
    case LlvmRelocations => ["-relocations"]
    case LlvmDynRelocations => ["-dyn-relocations"]
  }

  /** The flags an otool section command puts before `-s`. */
  function OtoolSectionFlags(k: CommandKind): seq<string>
    requires SplitsSection(k)
  {
    match k
    case OtoolDump => ["-V"]
    case OtoolDisassemble => ["-v", "-V"]
    case OtoolDisassembleInternal => ["-v", "-V", "-Q"]
  }

  /** The full command line: the tool, its options, then the path. Otool
      section commands fail on a section name without exactly one comma. */
  function Cmdline(k: CommandKind, path: string, arch: string, section: string): (r: Result<seq<string>, ValueError>)
    ensures r.Success? <==> (SplitsSection(k) ==> |Split(section, ',')| == 2)
    ensures r.Success? ==> |r.value| >= 3 && r.value[0] == Tool(k) && r.value[|r.value| - 1] == path
    ensures r.Success? && SplitsSection(k) ==>
              var n := |r.value|;
              && n >= 8
              && r.value[..3] == ["otool", "-arch", arch]
              && r.value[n - 4] == "-s"
              && r.value[n - 3] + "," + r.value[n - 2] == section
              && r.value[3..n - 4] == OtoolSectionFlags(k)
    ensures r.Success? && k.LlvmObjdump? ==> |r.value| == 10 && r.value[1..5] == ["-arch", arch, "-section", section]
  {
    if k.LlvmObjdump? then
      var line := ["llvm-objdump", "-arch", arch, "-section", section, "-macho", "-demangle",
                   "-no-leading-addr", "-no-show-raw-insn", path];
      assert line[1..5] == ["-arch", arch, "-section", section];
      Success(line)
    else if SplitsSection(k) then
      match SegmentAndSection(section)
      case Failure(e) => Failure(e)
      case Success((seg, sect)) =>
        OtoolSectionLine(k, arch, seg, sect, path);
        Success(["otool", "-arch", arch] + OtoolSectionFlags(k) + ["-s", seg, sect, path])
    else Success([Tool(k)] + FileOptions(k) + [path])
  }

  lemma OtoolSectionLine(k: CommandKind, arch: string, seg: string, sect: string, path: string)
    requires SplitsSection(k)
    ensures var line := ["otool", "-arch", arch] + OtoolSectionFlags(k) + ["-s", seg, sect, path];
            var n := |line|;
            && n >= 8 && line[0] == "otool" && line[n - 1] == path
            && line[..3] == ["otool", "-arch", arch]
            && line[n - 4] == "-s" && line[n - 3] == seg && line[n - 2] == sect
            && line[3..n - 4] == OtoolSectionFlags(k)
  {
    var head := ["otool", "-arch", arch] + OtoolSectionFlags(k);
    var line := head + ["-s", seg, sect, path];
    assert line[..3] == ["otool", "-arch", arch];
    assert line[3..|line| - 4] == OtoolSectionFlags(k);
  }

  // ---------------------------------------------------------------- filters

  /** Drops a leading "<path>:" and the whitespace around what follows;
      other lines pass unchanged. */
  function PathFilter(path: string, line: Bytes): (r: Bytes)
    ensures var prefix := Encode(path + ":");
            StartsWith(line, prefix) ==>
              && |r| < |line|
              && Trimmed(line[|prefix|..], r, IsByteSpace)
              && EndsKept(r, IsByteSpace)
    ensures !StartsWith(line, Encode(path + ":")) ==> r == line
  {
    var prefix := Encode(path + ":");
    EncodeAppend(path, ":");
    if StartsWith(line, prefix) then
      StripIsTrimmed(line[|prefix|..], IsByteSpace);
      StripBytes(line[|prefix|..])
    else line
  }

  /** What follows the prefix, with whitespace trimmed from both ends up to
      the first and last other bytes, is the one line the path filter gives. */
  lemma PathFilterIsTheTrim(path: string, line: Bytes, rest: Bytes, i: nat)
    requires StartsWith(line, Encode(path + ":"))
    requires TrimmedAt(line[|Encode(path + ":")|..], rest, IsByteSpace, i) && EndsKept(rest, IsByteSpace)
    ensures PathFilter(path, line) == rest
  {
    StripUnique(line[|Encode(path + ":")|..], rest, IsByteSpace, i);
  }

  /** Blanks the "File: ..." line `llvm-readobj` prints; other lines pass unchanged. */
  function FileLineFilter(line: Bytes): (r: Bytes)
    ensures r == [] <==> StartsWith(line, Encode("File: ")) || line == []
    ensures r != [] ==> r == line
  {
    if StartsWith(line, Encode("File: ")) then [] else line
  }

  /** The filter of each command. */
  function Filter(k: CommandKind, path: string, line: Bytes): (r: Bytes)
    ensures IsLlvmReadobj(k) ==> (r == [] <==> StartsWith(line, Encode("File: ")) || line == [])
    ensures IsLlvmReadobj(k) && r != [] ==> r == line
    ensures !IsLlvmReadobj(k) && !StartsWith(line, Encode(path + ":")) ==> r == line
    ensures !IsLlvmReadobj(k) && StartsWith(line, Encode(path + ":")) ==>
              && Trimmed(line[|Encode(path + ":")|..], r, IsByteSpace)
              && EndsKept(r, IsByteSpace)
  {
    if IsLlvmReadobj(k) then FileLineFilter(line) else PathFilter(path, line)
  }

  /** Blanking the "File:" line twice is blanking it once. */
  lemma FileLineFilterIdempotent(line: Bytes)
    ensures FileLineFilter(FileLineFilter(line)) == FileLineFilter(line)
  {
  }

  /** A line the path filter keeps is kept again. */
  lemma PathFilterFixedPoint(path: string, line: Bytes)
    requires !StartsWith(line, Encode(path + ":"))
    ensures PathFilter(path, PathFilter(path, line)) == line
  {
  }

  // ------------------------------------------------- fallbacks and backends

  /** The command tried when a command produces no difference. */
  function Fallback(k: CommandKind): (r: Option<CommandKind>)
    ensures r.Some? <==> k.OtoolDisassemble?
    ensures r.Some? ==> r.value.OtoolDisassembleInternal?
  {
    if k.OtoolDisassemble? then Some(OtoolDisassembleInternal) else None
  }

  /** A fallback has no fallback of its own. */
  lemma FallbackChainEnds(k: CommandKind)
    requires Fallback(k).Some?
    ensures Fallback(Fallback(k).value).None?
  {
  }

  /** `MachoBackend.differences`: the primary command's result, which may be
      None, then the fallback's when the primary gave nothing and there is a
      fallback. `run` is running a command on both files. */
  function Differences(k: CommandKind, run: CommandKind -> Option<Diff>): (r: seq<Option<Diff>>)
    ensures 1 <= |r| <= 2 && r[0] == run(k)
    ensures |r| == 2 <==> run(k).None? && Fallback(k).Some?
    ensures |r| == 2 ==> r[1] == run(Fallback(k).value)
  {
    var primary := run(k);
    if primary.None? && Fallback(k).Some? then [primary, run(Fallback(k).value)] else [primary]
  }

  /** `MachoSection.compare`: the section's command, or its fallback when
      the command gave nothing. */
  function SectionCompare(k: CommandKind, run: CommandKind -> Option<Diff>): (r: Option<Diff>)
    ensures run(k).Some? ==> r == run(k)
    ensures r.Some? ==> r == run(k) || (Fallback(k).Some? && r == run(Fallback(k).value))
  {
    var diff := run(k);
    if diff.None? && Fallback(k).Some? then run(Fallback(k).value) else diff
  }

  /** The section comparison keeps the last entry of the backend's list. */
  lemma SectionCompareIsLastDifference(k: CommandKind, run: CommandKind -> Option<Diff>)
    ensures var ds := Differences(k, run);
            SectionCompare(k, run) == ds[|ds| - 1]
  {
  }

  /** An ordered table of sections and their commands, keys in first-insertion order. */
  type Sections = seq<(string, CommandKind)>

  predicate DistinctKeys(t: Sections) {
    forall i, j :: 0 <= i < j < |t| ==> t[i].0 != t[j].0
  }

  function Keys(t: Sections): (r: seq<string>)
    ensures |r| == |t| && forall i :: 0 <= i < |t| ==> r[i] == t[i].0
  {
    seq(|t|, i requires 0 <= i < |t| => t[i].0)
  }

  function Lookup(t: Sections, key: string): (r: Option<CommandKind>)
    ensures r.Some? <==> key in Keys(t)
    ensures r.Some? ==> exists i :: 0 <= i < |t| && t[i] == (key, r.value)
  {
    if |t| == 0 then None
    else if t[0].0 == key then Some(t[0].1)
    else Lookup(t[1..], key)
  }

  /** `OtoolBackend.sections`: a fixed table of seven sections. */
  function OtoolSections(): (r: Sections)
    ensures |r| == 7 && DistinctKeys(r)
    ensures forall i :: 0 <= i < |r| ==> (r[i].1.OtoolDisassemble? <==> r[i].0 == "__TEXT,__text")
    ensures forall i :: 0 <= i < |r| ==> r[i].1.OtoolDump? || r[i].1.OtoolDisassemble?
    ensures r[0] == ("__TEXT,__text", OtoolDisassemble)
    ensures Keys(r) == ["__TEXT,__text", "__TEXT,__const", "__TEXT,__cstring",
                        "__DATA,__data", "__DATA,__const", "__DATA,__bss", "__DATA,__common"]
  {
    [("__TEXT,__text", OtoolDisassemble),
     ("__TEXT,__const", OtoolDump),
     ("__TEXT,__cstring", OtoolDump),
     ("__DATA,__data", OtoolDump),
     ("__DATA,__const", OtoolDump),
     ("__DATA,__bss", OtoolDump),
     ("__DATA,__common", OtoolDump)]
  }

  /** A name with one comma splits into the parts around it. */
  lemma {:induction false} SplitAtOnlyComma(seg: string, sect: string)
    requires ',' !in seg && ',' !in sect
    ensures Split(seg + "," + sect, ',') == [seg, sect]
  {
    var s := seg + "," + sect;
    assert s[|seg|] == ',';
    assert ',' !in s[..|seg|] by { assert s[..|seg|] == seg; }
    assert IndexOf(s, ',') == |seg|;
    assert s[..|seg|] == seg && s[|seg| + 1..] == sect;
  }

  lemma OtoolSectionCmdline(k: CommandKind, seg: string, sect: string, path: string, arch: string)
    requires SplitsSection(k) && ',' !in seg && ',' !in sect
    ensures Cmdline(k, path, arch, seg + "," + sect).Success?
  {
    SplitAtOnlyComma(seg, sect);
  }

  lemma OtoolSectionHasCmdline(i: nat, path: string, arch: string)
    requires i < |OtoolSections()|
    ensures Cmdline(OtoolSections()[i].1, path, arch, OtoolSections()[i].0).Success?
  {
    var key := OtoolSections()[i].0;
    assert |key| > 7 && key[6] == ',';
    assert forall k :: 0 <= k < |key| && k != 6 ==> key[k] != ',';
    CommaAtSix(key);
    OtoolSectionCmdline(OtoolSections()[i].1, key[..6], key[7..], path, arch);
  }

  /** A name whose only comma is its seventh character splits there. */
  lemma CommaAtSix(key: string)
    requires |key| > 7 && key[6] == ','
    requires forall k :: 0 <= k < |key| && k != 6 ==> key[k] != ','
    ensures key == key[..6] + "," + key[7..] && ',' !in key[..6] && ',' !in key[7..]
  {
    assert forall k :: 0 <= k < |key[7..]| ==> key[7..][k] == key[k + 7];
  }

  /** Every section of the otool table yields a command line. */
  lemma OtoolSectionsHaveCmdlines(path: string, arch: string)
    ensures forall i :: 0 <= i < |OtoolSections()| ==>
              Cmdline(OtoolSections()[i].1, path, arch, OtoolSections()[i].0).Success?
  {
    forall i | 0 <= i < |OtoolSections()|
      ensures Cmdline(OtoolSections()[i].1, path, arch, OtoolSections()[i].0).Success?
    {
      OtoolSectionHasCmdline(i, path, arch);
    }
  }

  /** The commands `MachoArchitecture` runs on a whole architecture: the
      otool ones when `lipo` is installed, else the llvm-readobj ones when
      that is, else none. */
  function ArchitectureCommands(lipo: bool, readobj: bool): (r: seq<CommandKind>)
    ensures forall i :: 0 <= i < |r| ==> !OnSection(r[i])
    ensures lipo ==> r == [OtoolHeaders, OtoolLibraries]
    ensures !lipo && readobj ==> |r| == 6 && forall i :: 0 <= i < |r| ==> IsLlvmReadobj(r[i])
    ensures !lipo && readobj ==>
              r == [LlvmFileHeaders, LlvmNeededLibs, LlvmSymbols, LlvmDynSymbols, LlvmRelocations, LlvmDynRelocations]
    ensures !lipo && !readobj ==> r == []
  {
    if lipo then [OtoolHeaders, OtoolLibraries]
    else if readobj then
      [LlvmFileHeaders, LlvmNeededLibs, LlvmSymbols, LlvmDynSymbols, LlvmRelocations, LlvmDynRelocations]
    else []
  }
}

=== FILE: macho_sections.dfy ===
/** The Mach-O containers: the `llvm-readobj` output parsers that list a
    file's architectures and an architecture's sections, the sections
    container's member names and lookup, and the merging of details with
    the container-depth guard. The tools' output is a parameter. */
module MachoSections {
  import opened Wrappers
  import opened Text
  import opened Difference
  import opened MachoCommands

  // ------------------------------------------------- the sections parser

  /** `line.split()[0]` on a line with no word raises this. */
  datatype IndexError = IndexError(line: string)

  /** The parser's loop variables: whether lines are being skipped (not in
      the requested architecture's block), the pending section name and
      segment, and the section keys found so far, in first-insertion order. */
  datatype Scan = Scan(skip: bool, name: Option<string>, segment: Option<string>, keys: seq<string>)

  /** The value of a "Name:" or "Segment:" line: what remains after
      stripping the label's characters from the left and whitespace from
      both ends, cut at the first whitespace. */
  function FieldValue(line: string, tag: string): Option<string> {
    FirstWord(StripText(LStripChars(line, tag)))
  }

  /** The architecture an "Arch:" line names. */
  function ArchOfLine(line: string): string {
    StripText(LStripChars(line, "Arch:"))
  }

  predicate Distinct(keys: seq<string>) {
    forall i, j :: 0 <= i < j < |keys| ==> keys[i] != keys[j]
  }

  /** An ordered dictionary's key list after setting `key`: a new key goes
      last, an existing one keeps its place. */
  function InsertKey(keys: seq<string>, key: string): (r: seq<string>)
    ensures Distinct(keys) ==> Distinct(r)
    ensures key in r && forall k :: k in keys ==> k in r
    ensures forall k :: k in r ==> k in keys || k == key
    ensures key in keys ==> r == keys
    ensures key !in keys ==> r == keys + [key]
  {
    if key in keys then keys else keys + [key]
  }

  /** A section key: a comma and no whitespace, as a segment word, a comma
      and a section word give. */
  predicate WellFormedKey(k: string) {
    ',' in k && forall i :: 0 <= i < |k| ==> !IsSpace(k[i])
  }

  predicate WellFormedKeys(keys: seq<string>) {
    Distinct(keys) && forall i :: 0 <= i < |keys| ==> WellFormedKey(keys[i])
  }

  /** What the parser keeps true: distinct well-formed keys, and pending
      values that are single words. */
  predicate Consistent(s: Scan) {
    && WellFormedKeys(s.keys)
    && (s.name.Some? ==> IsWord(s.name.value))
    && (s.segment.Some? ==> IsWord(s.segment.value))
  }

  lemma JoinedKey(segment: string, name: string)
    requires forall i :: 0 <= i < |segment| ==> !IsSpace(segment[i])
    requires forall i :: 0 <= i < |name| ==> !IsSpace(name[i])
    ensures WellFormedKey(segment + "," + name)
  {
    var k := segment + "," + name;
    assert k[|segment|] == ',';
    forall i | 0 <= i < |k| ensures !IsSpace(k[i]) {
      if i < |segment| { assert k[i] == segment[i]; }
      else if i > |segment| { assert k[i] == name[i - |segment| - 1]; }
    }
  }

  /** A "Name:" or "Segment:" line's value: `None` when the line has no such
      label, an error when the label has no word after it. */
  function Field(line: string, tag: string): (r: Result<Option<string>, IndexError>)
    ensures r.Success? && r.value.Some? ==> IsWord(r.value.value)
    ensures r.Success? <==> !StartsWith(line, tag) || FieldValue(line, tag).Some?
  {
    if !StartsWith(line, tag) then Success(None)
    else match FieldValue(line, tag)
      case None => Failure(IndexError(line))
      case Some(w) => Success(Some(w))
  }

  /** A line outside the skipped blocks: a "Name:" line, or else a
      "Segment:" line, replaces the pending value with its first word. */
  function Pending(s: Scan, line: string): (r: Result<Scan, IndexError>)
    ensures r.Success? ==> r.value.keys == s.keys && !r.value.skip
    ensures r.Success? && Consistent(s) ==> Consistent(r.value)
  {
    var nameField :- Field(line, "Name:");
    var segmentField :- if nameField.Some? then Success(None) else Field(line, "Segment:");
    Success(Scan(false, if nameField.Some? then nameField else s.name,
                 if segmentField.Some? then segmentField else s.segment, s.keys))
  }

  /** Both a name and a segment are pending, and neither is empty. */
  predicate Ready(s: Scan) {
    s.name.Some? && |s.name.value| > 0 && s.segment.Some? && |s.segment.value| > 0
  }

  /** Once a name and a segment are both pending, the key "segment,name" is
      added and both are cleared. */
  function Complete(s: Scan): (r: Scan)
    ensures Consistent(s) ==> Consistent(r)
    ensures r.skip == s.skip && forall k :: k in s.keys ==> k in r.keys
    ensures r.keys != s.keys ==> r.name.None? && r.segment.None?
    ensures Ready(s) ==> r == Scan(s.skip, None, None, InsertKey(s.keys, s.segment.value + "," + s.name.value))
    ensures !Ready(s) ==> r == s
    ensures !Ready(r)
  {
    if s.name.Some? && |s.name.value| > 0 && s.segment.Some? && |s.segment.value| > 0 then
      var key := s.segment.value + "," + s.name.value;
      assert Consistent(s) ==> WellFormedKey(key) by {
        if Consistent(s) {
          JoinedKey(s.segment.value, s.name.value);
        }
      }
      Scan(s.skip, None, None, InsertKey(s.keys, key))
    else s
  }

  /** One line of the `llvm-readobj -sections` output, with its indentation
      removed: an "Arch:" line decides whether the block that follows is
      skipped; outside skipped blocks the line may set a pending value,
      which may complete a key. */
  function ScanLine(s: Scan, raw: string, arch: string): (r: Result<Scan, IndexError>)
    ensures r.Success? && Consistent(s) ==> Consistent(r.value)
    ensures r.Success? ==> forall k :: k in s.keys ==> k in r.value.keys
    ensures r.Success? && r.value.skip ==> r.value.keys == s.keys
    ensures r.Success? && r.value.keys != s.keys ==> r.value.name.None? && r.value.segment.None?
    ensures r.Success? && !Ready(s) ==> !Ready(r.value)
  {
    var line := LStrip(raw, IsSpace);
    var skip := if StartsWith(line, "Arch:") then ArchOfLine(line) != arch else s.skip;
    if skip then Success(s.(skip := true))
    else
      var p :- Pending(s, line);
      Success(Complete(p))
  }

  function ScanLines(s: Scan, lines: seq<string>, arch: string): (r: Result<Scan, IndexError>)
    ensures r.Success? && Consistent(s) ==> Consistent(r.value)
    ensures r.Success? ==> forall k :: k in s.keys ==> k in r.value.keys
    decreases |lines|
  {
    if |lines| == 0 then Success(s)
    else
      var next :- ScanLine(s, lines[0], arch);
      ScanLines(next, lines[1..], arch)
  }

  /** `LlvmBackend.sections`: the "segment,section" keys of the requested
      architecture, in first-insertion order, each paired with the llvm
      objdump command. */
  function LlvmSections(output: string, arch: string): (r: Result<Sections, IndexError>)
    ensures r.Success? ==> DistinctKeys(r.value)
    ensures r.Success? ==> forall i :: 0 <= i < |r.value| ==> WellFormedKey(r.value[i].0) && r.value[i].1.LlvmObjdump?
  {
    var scan :- ScanLines(Scan(true, None, None, []), SplitLines(output), arch);
    Success(seq(|scan.keys|, i requires 0 <= i < |scan.keys| => (scan.keys[i], LlvmObjdump)))
  }

  /** Whether `line`, with its indentation removed, opens the block of `arch`. */
  predicate OpensBlock(line: string, arch: string) {
    var l := LStrip(line, IsSpace);
    StartsWith(l, "Arch:") && ArchOfLine(l) == arch
  }

  /** A line that, with its indentation removed, starts with one of the
      parser's three labels. */
  predicate Labelled(line: string) {
    var l := LStrip(line, IsSpace);
    StartsWith(l, "Arch:") || StartsWith(l, "Name:") || StartsWith(l, "Segment:")
  }

  /** A line is read with its indentation removed. */
  lemma ScanLineStripped(s: Scan, raw: string, arch: string)
    ensures ScanLine(s, LStrip(raw, IsSpace), arch) == ScanLine(s, raw, arch)
  {
    LStripTwice(raw, IsSpace);
  }

  /** Indentation does not change how a line is read. */
  lemma ScanLineIndented(s: Scan, ws: string, line: string, arch: string)
    requires forall i :: 0 <= i < |ws| ==> IsSpace(ws[i])
    ensures ScanLine(s, ws + line, arch) == ScanLine(s, line, arch)
  {
    LStripDropsPrefix(ws, line, IsSpace);
    ScanLineStripped(s, ws + line, arch);
    ScanLineStripped(s, line, arch);
  }

  /** A line carrying none of the three labels sets nothing: inside the
      requested block it only completes what is pending, and since nothing
      ready is ever left pending, it changes nothing at all. */
  lemma UnlabelledLine(s: Scan, line: string, arch: string)
    ensures !Labelled(line) && !s.skip ==> ScanLine(s, line, arch) == Success(Complete(s))
    ensures !Labelled(line) && !Ready(s) ==> ScanLine(s, line, arch) == Success(s)
  {
    var l := LStrip(line, IsSpace);
    if !Labelled(line) {
      assert Field(l, "Name:") == Success(None) && Field(l, "Segment:") == Success(None);
      if !s.skip {
        assert Pending(s, l) == Success(s);
      }
    }
  }

  /** The lines the parser acts on, with their indentation removed. */
  function Significant(lines: seq<string>): (r: seq<string>)
    ensures |r| <= |lines|
  {
    if |lines| == 0 then []
    else (if Labelled(lines[0]) then [LStrip(lines[0], IsSpace)] else []) + Significant(lines[1..])
  }

  /** The labelled lines of two runs of lines, one after the other. */
  lemma {:induction false} SignificantAppend(a: seq<string>, b: seq<string>)
    ensures Significant(a + b) == Significant(a) + Significant(b)
    decreases |a|
  {
    if |a| == 0 {
      assert a + b == b;
    } else {
      var head := if Labelled(a[0]) then [LStrip(a[0], IsSpace)] else [];
      assert Significant(a + b) == head + Significant(a[1..] + b) by {
        assert (a + b)[0] == a[0] && (a + b)[1..] == a[1..] + b;
      }
      SignificantAppend(a[1..], b);
      AppendAssociates(head, Significant(a[1..]), Significant(b));
    }
  }

  /** One line: an indented labelled line counts without its indentation,
      an unlabelled one not at all. */
  lemma SignificantOne(ws: string, line: string)
    requires forall i :: 0 <= i < |ws| ==> IsSpace(ws[i])
    requires |line| > 0 && !IsSpace(line[0])
    ensures Labelled(line) ==> Significant([ws + line]) == [line]
    ensures !Labelled(line) ==> Significant([ws + line]) == []
  {
    Unindent(ws, line);
    SignificantSingle(ws + line);
  }

  lemma Unindent(ws: string, line: string)
    requires forall i :: 0 <= i < |ws| ==> IsSpace(ws[i])
    requires |line| > 0 && !IsSpace(line[0])
    ensures LStrip(ws + line, IsSpace) == line
  {
    LStripDropsPrefix(ws, line, IsSpace);
    LStripStops(line, IsSpace);
  }

  lemma SignificantSingle(x: string)
    ensures Significant([x]) == if Labelled(x) then [LStrip(x, IsSpace)] else []
  {
    var lines := [x];
    assert lines[0] == x && lines[1..] == [];
  }

  /** From a scan with nothing ready pending, reading some lines is reading
      only their labelled lines, unindented. */
  lemma {:induction false} ScanSignificant(s: Scan, lines: seq<string>, arch: string)
    requires !Ready(s)
    ensures ScanLines(s, lines, arch) == ScanLines(s, Significant(lines), arch)
    decreases |lines|
  {
    if |lines| > 0 {
      var line := lines[0];
      if Labelled(line) {
        var l := LStrip(line, IsSpace);
        var sig := [l] + Significant(lines[1..]);
        assert Significant(lines) == sig;
        assert sig[0] == l && sig[1..] == Significant(lines[1..]);
        ScanLineStripped(s, line, arch);
        var step := ScanLine(s, line, arch);
        if step.Success? {
          ScanSignificant(step.value, lines[1..], arch);
        }
      } else {
        UnlabelledLine(s, line, arch);
        assert Significant(lines) == Significant(lines[1..]);
        ScanSignificant(s, lines[1..], arch);
      }
    }
  }

  /** Before the requested architecture's block opens, lines are skipped
      whatever they say. */
  lemma {:induction false} ScanSkipsOtherBlocks(s: Scan, lines: seq<string>, arch: string)
    requires s.skip
    requires forall i :: 0 <= i < |lines| ==> !OpensBlock(lines[i], arch)
    ensures ScanLines(s, lines, arch) == Success(s)
    decreases |lines|
  {
    if |lines| > 0 {
      assert ScanLine(s, lines[0], arch) == Success(s);
      ScanSkipsOtherBlocks(s, lines[1..], arch);
    }
  }

  /** An output with no block for the architecture lists no sections. */
  lemma NoBlockNoSections(output: string, arch: string)
    requires forall i :: 0 <= i < |SplitLines(output)| ==> !OpensBlock(SplitLines(output)[i], arch)
    ensures LlvmSections(output, arch) == Success([])
  {
    var start := Scan(true, None, None, []);
    ScanSkipsOtherBlocks(start, SplitLines(output), arch);
    assert LlvmSections(output, arch).Success?;
    assert |LlvmSections(output, arch).value| == |start.keys| == 0;
  }

  /** A label followed by a character outside it: the line starts with the
      label, and stripping the label's characters leaves what follows. */
  lemma AfterLabel(tag: string, rest: string)
    requires |rest| > 0 && rest[0] !in tag
    ensures StartsWith(tag + rest, tag) && LStripChars(tag + rest, tag) == rest
  {
    StartsWithAppend(tag, rest);
    LStripCharsPrefix(tag, rest);
  }

  /** The value of a labelled line is the word after the label and a space. */
  lemma FieldOfLine(tag: string, w: string, tail: string)
    requires ' ' !in tag
    requires IsWord(w) && (tail == [] || IsSpace(tail[0]))
    ensures StartsWith(tag + " " + w + tail, tag)
    ensures Field(tag + " " + w + tail, tag) == Success(Some(w))
    ensures tail == [] ==> StripText(LStripChars(tag + " " + w + tail, tag)) == w
  {
    var rest := " " + w + tail;
    assert tag + " " + w + tail == tag + rest;
    AfterLabel(tag, rest);
    WordAfterSpace(w, tail);
    var k := StripSpaceWord(w, tail);
  }

  /** A line whose first character is not the label's does not carry it. */
  lemma Unlabelled(line: string, tag: string)
    requires |line| > 0 && |tag| > 0 && line[0] != tag[0]
    ensures !StartsWith(line, tag) && Field(line, tag) == Success(None)
  {
    NotStartsWith(line, tag);
  }

  /** An "Arch: " line names the word after the label. */
  lemma ArchOfArchLine(a: string)
    requires IsWord(a)
    ensures StartsWith("Arch: " + a, "Arch:") && ArchOfLine("Arch: " + a) == a
  {
    assert "Arch: " + a == "Arch:" + " " + a + [];
    assert ' ' !in "Arch:";
    FieldOfLine("Arch:", a, []);
  }

  /** A line without indentation that opens the requested block, or any
      such line inside it. */
  predicate Unskipped(s: Scan, line: string, arch: string)
  {
    && LStrip(line, IsSpace) == line
    && (StartsWith(line, "Arch:") ==> ArchOfLine(line) == arch)
    && (!StartsWith(line, "Arch:") ==> !s.skip)
  }

  /** An unskipped line is read as a pending value, completed at once. */
  lemma ScanLineUnskipped(s: Scan, line: string, arch: string)
    ensures Unskipped(s, line, arch) && Pending(s, line).Success? ==>
              ScanLine(s, line, arch) == Success(Complete(Pending(s, line).value))
    ensures Field(line, "Name:") == Success(None) && Field(line, "Segment:").Success? ==>
              Pending(s, line) == Success(Scan(false, s.name,
                if Field(line, "Segment:").value.Some? then Field(line, "Segment:").value else s.segment, s.keys))
    ensures Field(line, "Name:").Success? && Field(line, "Name:").value.Some? ==>
              Pending(s, line) == Success(Scan(false, Field(line, "Name:").value, s.segment, s.keys))
  {
  }

  /** The line that opens the requested architecture's block stops the
      skipping and changes nothing else. */
  lemma ArchLineOpens(s: Scan, a: string)
    requires IsWord(a) && s.name.None? && s.segment.None?
    ensures ScanLine(s, "Arch: " + a, a) == Success(Scan(false, None, None, s.keys))
  {
    var line := "Arch: " + a;
    assert line[0] == 'A';
    LStripStops(line, IsSpace);
    ArchOfArchLine(a);
    Unlabelled(line, "Name:");
    Unlabelled(line, "Segment:");
    ScanLineUnskipped(s, line, a);
  }

  /** A "Name:" line in the block makes its first word the pending name. */
  lemma NameLineSets(s: Scan, n: string, tail: string, arch: string)
    requires !s.skip && IsWord(n) && (tail == [] || IsSpace(tail[0]))
    ensures ScanLine(s, "Name: " + n + tail, arch) == Success(Complete(Scan(false, Some(n), s.segment, s.keys)))
  {
    var line := "Name: " + n + tail;
    assert line == "Name:" + " " + n + tail && line[0] == 'N';
    assert ' ' !in "Name:";
    LStripStops(line, IsSpace);
    Unlabelled(line, "Arch:");
    FieldOfLine("Name:", n, tail);
    ScanLineUnskipped(s, line, arch);
  }

  /** A "Segment:" line in the block makes its first word the pending segment. */
  lemma SegmentLineSets(s: Scan, g: string, tail: string, arch: string)
    requires !s.skip && IsWord(g) && (tail == [] || IsSpace(tail[0]))
    ensures ScanLine(s, "Segment: " + g + tail, arch) == Success(Complete(Scan(false, s.name, Some(g), s.keys)))
  {
    var line := "Segment: " + g + tail;
    assert line == "Segment:" + " " + g + tail && line[0] == 'S';
    assert ' ' !in "Segment:";
    LStripStops(line, IsSpace);
    Unlabelled(line, "Arch:");
    Unlabelled(line, "Name:");
    FieldOfLine("Segment:", g, tail);
    ScanLineUnskipped(s, line, arch);
  }

  /** An architecture's block naming a section and then its segment adds
      the key "segment,section" and clears both. */
  lemma {:induction false} SectionBlock(s: Scan, a: string, n: string, t1: string, g: string, t2: string)
    requires s.name.None? && s.segment.None?
    requires IsWord(a) && IsWord(n) && IsWord(g)
    requires (t1 == [] || IsSpace(t1[0])) && (t2 == [] || IsSpace(t2[0]))
    ensures ScanLines(s, ["Arch: " + a, "Name: " + n + t1, "Segment: " + g + t2], a)
         == Success(Scan(false, None, None, InsertKey(s.keys, g + "," + n)))
  {
    var lines := ["Arch: " + a, "Name: " + n + t1, "Segment: " + g + t2];
    var s1 := Scan(false, None, None, s.keys);
    ArchLineOpens(s, a);
    NameLineSets(s1, n, t1, a);
    var s2 := Scan(false, Some(n), None, s.keys);
    assert Complete(s2) == s2;
    SegmentLineSets(s2, g, t2, a);
    assert lines[1..][1..] == [lines[2]];
    assert ScanLines(s2, lines[1..][1..], a) == ScanLines(Complete(Scan(false, Some(n), Some(g), s.keys)), [], a);
  }

  /** `llvm-readobj` output holding one architecture's block with one
      section lists exactly that section. */
  lemma OneSection(a: string, n: string, t1: string, g: string, t2: string)
    requires IsWord(a) && IsWord(n) && IsWord(g)
    requires (t1 == [] || IsSpace(t1[0])) && (t2 == [] || IsSpace(t2[0]))
    requires NoLineBreak(a) && NoLineBreak(n + t1) && NoLineBreak(g + t2)
    ensures LlvmSections(Unlines(["Arch: " + a, "Name: " + n + t1, "Segment: " + g + t2]), a)
         == Success([(g + "," + n, LlvmObjdump)])
  {
    var lines := ["Arch: " + a, "Name: " + n + t1, "Segment: " + g + t2];
    BlockLines(lines, a, n, t1, g, t2);
    var key := g + "," + n;
    assert ScanLines(Scan(true, None, None, []), lines, a) == Success(Scan(false, None, None, [key])) by {
      SectionBlock(Scan(true, None, None, []), a, n, t1, g, t2);
      assert InsertKey([], key) == [key];
    }
    SectionsOfScan(Unlines(lines), a, Scan(false, None, None, [key]));
    var r := LlvmSections(Unlines(lines), a);
    assert r.value == [(key, LlvmObjdump)];
    assert r == Success([(key, LlvmObjdump)]);
  }

  /** The block's lines come back from splitting its text. */
  lemma BlockLines(lines: seq<string>, a: string, n: string, t1: string, g: string, t2: string)
    requires NoLineBreak(a) && NoLineBreak(n + t1) && NoLineBreak(g + t2)
    requires lines == ["Arch: " + a, "Name: " + n + t1, "Segment: " + g + t2]
    ensures SplitLines(Unlines(lines)) == lines
  {
    assert NoLineBreak("Arch: ") && NoLineBreak("Name: ") && NoLineBreak("Segment: ");
    NoLineBreakAppend("Arch: ", a);
    NoLineBreakAppend("Name: ", n + t1);
    assert "Name: " + n + t1 == "Name: " + (n + t1);
    NoLineBreakAppend("Segment: ", g + t2);
    assert "Segment: " + g + t2 == "Segment: " + (g + t2);
    SplitLinesUnlines(lines);
  }

  /** The sections are the scan's keys, in order, each with the llvm
      objdump command. */
  lemma SectionsOfScan(output: string, arch: string, scan: Scan)
    requires ScanLines(Scan(true, None, None, []), SplitLines(output), arch) == Success(scan)
    ensures LlvmSections(output, arch).Success?
    ensures |LlvmSections(output, arch).value| == |scan.keys|
    ensures forall i :: 0 <= i < |scan.keys| ==> LlvmSections(output, arch).value[i] == (scan.keys[i], LlvmObjdump)
  {
  }

  // -------------------------------------- the parser on rendered output

  /** One section as `llvm-readobj` prints it: a "Name:" line and a
      "Segment:" line, each with the value's word followed by anything that
      starts with whitespace (the name's bytes, say). */
  datatype Section = Section(name: string, nameRest: string, segment: string, segmentRest: string)

  /** One architecture's block: its "Arch:" line and its sections. */
  datatype Block = Block(arch: string, sections: seq<Section>)

  predicate WordTail(t: string) {
    NoLineBreak(t) && (t == [] || IsSpace(t[0]))
  }

  predicate ValidSection(x: Section) {
    IsWord(x.name) && IsWord(x.segment) && WordTail(x.nameRest) && WordTail(x.segmentRest)
  }

  predicate ValidBlock(b: Block) {
    IsWord(b.arch) && forall i :: 0 <= i < |b.sections| ==> ValidSection(b.sections[i])
  }

  function SectionLines(xs: seq<Section>): (lines: seq<string>)
    ensures |lines| == 2 * |xs|
  {
    if |xs| == 0 then []
    else ["Name: " + xs[0].name + xs[0].nameRest, "Segment: " + xs[0].segment + xs[0].segmentRest]
         + SectionLines(xs[1..])
  }

  function BlockText(b: Block): seq<string> {
    ["Arch: " + b.arch] + SectionLines(b.sections)
  }

  /** The lines of the blocks, one after the other. */
  function Render(bs: seq<Block>): seq<string> {
    if |bs| == 0 then [] else BlockText(bs[0]) + Render(bs[1..])
  }

  /** The "segment,section" keys of some sections, in order. */
  function SectionKeys(xs: seq<Section>): (keys: seq<string>)
    ensures |keys| == |xs|
    ensures forall i :: 0 <= i < |xs| ==> keys[i] == xs[i].segment + "," + xs[i].name
  {
    if |xs| == 0 then [] else [xs[0].segment + "," + xs[0].name] + SectionKeys(xs[1..])
  }

  /** The keys of the blocks that belong to `arch`, in order, repeats kept. */
  function RequestedKeys(bs: seq<Block>, arch: string): seq<string> {
    if |bs| == 0 then []
    else (if bs[0].arch == arch then SectionKeys(bs[0].sections) else []) + RequestedKeys(bs[1..], arch)
  }

  /** Setting each of `more` in an ordered dictionary with key list `keys`:
      the keys already there keep their places and each new key goes last
      once. */
  function InsertAll(keys: seq<string>, more: seq<string>): (r: seq<string>)
    ensures StartsWith(r, keys)
    ensures forall k :: k in r <==> k in keys || k in more
    ensures Distinct(keys) ==> Distinct(r)
    decreases |more|
  {
    if |more| == 0 then
      assert keys[..|keys|] == keys;
      keys
    else
      var r := InsertAll(InsertKey(keys, more[0]), more[1..]);
      assert StartsWith(InsertKey(keys, more[0]), keys) by {
        if more[0] !in keys { StartsWithAppend(keys, [more[0]]); }
        else { assert keys[..|keys|] == keys; }
      }
      assert r[..|keys|] == InsertKey(keys, more[0])[..|keys|];
      assert forall k :: k in more <==> k == more[0] || k in more[1..];
      r
  }

  lemma {:induction false} InsertAllAppend(keys: seq<string>, a: seq<string>, b: seq<string>)
    ensures InsertAll(keys, a + b) == InsertAll(InsertAll(keys, a), b)
    decreases |a|
  {
    if |a| == 0 {
      assert a + b == b;
    } else {
      assert (a + b)[0] == a[0] && (a + b)[1..] == a[1..] + b;
      InsertAllAppend(InsertKey(keys, a[0]), a[1..], b);
    }
  }

  /** The line that opens another architecture's block starts skipping and
      changes nothing else. */
  lemma ArchLineCloses(s: Scan, a: string, arch: string)
    requires IsWord(a) && a != arch
    ensures ScanLine(s, "Arch: " + a, arch) == Success(s.(skip := true))
  {
    var line := "Arch: " + a;
    assert line[0] == 'A';
    LStripStops(line, IsSpace);
    ArchOfArchLine(a);
  }

  /** Inside the requested block, each section adds its key and clears the
      pending values. */
  lemma {:induction false} ScanSections(s: Scan, xs: seq<Section>, rest: seq<string>, arch: string)
    requires !s.skip && s.name.None? && s.segment.None?
    requires forall i :: 0 <= i < |xs| ==> ValidSection(xs[i])
    ensures ScanLines(s, SectionLines(xs) + rest, arch)
         == ScanLines(Scan(false, None, None, InsertAll(s.keys, SectionKeys(xs))), rest, arch)
    decreases |xs|
  {
    if |xs| == 0 {
      assert SectionLines(xs) + rest == rest;
    } else {
      var x := xs[0];
      var key := x.segment + "," + x.name;
      var next := Scan(false, None, None, InsertKey(s.keys, key));
      var first := ["Name: " + x.name + x.nameRest, "Segment: " + x.segment + x.segmentRest];
      assert SectionLines(xs) + rest == first + (SectionLines(xs[1..]) + rest);
      SectionStep(s, x, SectionLines(xs[1..]) + rest, arch);
      ScanSections(next, xs[1..], rest, arch);
      assert SectionKeys(xs) == [key] + SectionKeys(xs[1..]);
    }
  }

  /** A section's two lines, inside the requested block. */
  lemma SectionStep(s: Scan, x: Section, rest: seq<string>, arch: string)
    requires !s.skip && s.name.None? && s.segment.None? && ValidSection(x)
    ensures ScanLines(s, ["Name: " + x.name + x.nameRest, "Segment: " + x.segment + x.segmentRest] + rest, arch)
         == ScanLines(Scan(false, None, None, InsertKey(s.keys, x.segment + "," + x.name)), rest, arch)
  {
    var lines := ["Name: " + x.name + x.nameRest, "Segment: " + x.segment + x.segmentRest] + rest;
    var s1 := Scan(false, Some(x.name), None, s.keys);
    NameLineSets(s, x.name, x.nameRest, arch);
    assert Complete(s1) == s1;
    var s2 := Scan(false, Some(x.name), Some(x.segment), s.keys);
    SegmentLineSets(s1, x.segment, x.segmentRest, arch);
    assert lines[0] == "Name: " + x.name + x.nameRest;
    assert lines[1..][0] == "Segment: " + x.segment + x.segmentRest;
    assert lines[1..][1..] == rest;
  }

  /** Outside the requested block, sections are skipped. */
  lemma {:induction false} SkipSections(s: Scan, xs: seq<Section>, rest: seq<string>, arch: string)
    requires s.skip
    ensures ScanLines(s, SectionLines(xs) + rest, arch) == ScanLines(s, rest, arch)
    decreases |xs|
  {
    if |xs| == 0 {
      assert SectionLines(xs) + rest == rest;
    } else {
      var x := xs[0];
      var first := ["Name: " + x.name + x.nameRest, "Segment: " + x.segment + x.segmentRest];
      assert SectionLines(xs) + rest == first + (SectionLines(xs[1..]) + rest);
      SkipSection(s, x, SectionLines(xs[1..]) + rest, arch);
      SkipSections(s, xs[1..], rest, arch);
    }
  }

  lemma SkipSection(s: Scan, x: Section, rest: seq<string>, arch: string)
    requires s.skip
    ensures ScanLines(s, ["Name: " + x.name + x.nameRest, "Segment: " + x.segment + x.segmentRest] + rest, arch)
         == ScanLines(s, rest, arch)
  {
    var n := "Name: " + x.name + x.nameRest;
    var g := "Segment: " + x.segment + x.segmentRest;
    assert [n, g] + rest == [n] + ([g] + rest);
    assert n[0] == 'N' && g[0] == 'S';
    SkipLine(s, n, [g] + rest, arch);
    SkipLine(s, g, rest, arch);
  }

  lemma SkipLine(s: Scan, line: string, rest: seq<string>, arch: string)
    requires s.skip && |line| > 0 && line[0] != 'A' && !IsSpace(line[0])
    ensures ScanLines(s, [line] + rest, arch) == ScanLines(s, rest, arch)
  {
    SkippedLine(s, line, arch);
    ScanLinesCons(s, [line] + rest, arch);
    assert ([line] + rest)[1..] == rest;
  }

  lemma SkippedLine(s: Scan, line: string, arch: string)
    requires s.skip && |line| > 0 && line[0] != 'A' && !IsSpace(line[0])
    ensures ScanLine(s, line, arch) == Success(s)
  {
    LStripStops(line, IsSpace);
    NotStartsWith(line, "Arch:");
  }

  lemma ScanLinesCons(s: Scan, lines: seq<string>, arch: string)
    ensures |lines| > 0 && ScanLine(s, lines[0], arch).Success? ==>
              ScanLines(s, lines, arch) == ScanLines(ScanLine(s, lines[0], arch).value, lines[1..], arch)
  {
  }

  /** One block: the requested architecture's adds its sections' keys,
      another's is skipped, and no value is left pending. */
  lemma ScanBlock(s: Scan, b: Block, rest: seq<string>, arch: string)
    requires s.name.None? && s.segment.None? && ValidBlock(b)
    ensures ScanLines(s, BlockText(b) + rest, arch)
         == ScanLines(Scan(b.arch != arch, None, None,
              InsertAll(s.keys, if b.arch == arch then SectionKeys(b.sections) else [])), rest, arch)
  {
    var lines := BlockText(b) + rest;
    assert lines[0] == "Arch: " + b.arch;
    assert lines[1..] == SectionLines(b.sections) + rest;
    if b.arch == arch {
      ArchLineOpens(s, arch);
      ScanLinesCons(s, lines, arch);
      ScanSections(Scan(false, None, None, s.keys), b.sections, rest, arch);
    } else {
      ArchLineCloses(s, b.arch, arch);
      ScanLinesCons(s, lines, arch);
      SkipSections(s.(skip := true), b.sections, rest, arch);
      assert InsertAll(s.keys, []) == s.keys;
    }
  }

  /** All the blocks: the keys of the requested architecture's blocks, in
      first-insertion order. */
  lemma {:induction false} ScanBlocks(s: Scan, bs: seq<Block>, arch: string)
    requires s.name.None? && s.segment.None?
    requires forall i :: 0 <= i < |bs| ==> ValidBlock(bs[i])
    ensures var r := ScanLines(s, Render(bs), arch);
            && r.Success? && r.value.name.None? && r.value.segment.None?
            && r.value.keys == InsertAll(s.keys, RequestedKeys(bs, arch))
    decreases |bs|
  {
    if |bs| == 0 {
      assert InsertAll(s.keys, []) == s.keys;
    } else {
      var mine := if bs[0].arch == arch then SectionKeys(bs[0].sections) else [];
      ScanBlock(s, bs[0], Render(bs[1..]), arch);
      ScanBlocks(Scan(bs[0].arch != arch, None, None, InsertAll(s.keys, mine)), bs[1..], arch);
      InsertAllAppend(s.keys, mine, RequestedKeys(bs[1..], arch));
    }
  }

  lemma WordUnbroken(w: string)
    requires IsWord(w)
    ensures NoLineBreak(w)
  {
  }

  lemma {:induction false} SectionLinesUnbroken(xs: seq<Section>)
    requires forall i :: 0 <= i < |xs| ==> ValidSection(xs[i])
    ensures forall i :: 0 <= i < |SectionLines(xs)| ==> NoLineBreak(SectionLines(xs)[i])
    decreases |xs|
  {
    if |xs| > 0 {
      var x := xs[0];
      assert ValidSection(x);
      WordUnbroken(x.name);
      WordUnbroken(x.segment);
      assert NoLineBreak("Name: ") && NoLineBreak("Segment: ");
      NoLineBreakAppend(x.name, x.nameRest);
      NoLineBreakAppend("Name: ", x.name + x.nameRest);
      assert "Name: " + x.name + x.nameRest == "Name: " + (x.name + x.nameRest);
      NoLineBreakAppend(x.segment, x.segmentRest);
      NoLineBreakAppend("Segment: ", x.segment + x.segmentRest);
      assert "Segment: " + x.segment + x.segmentRest == "Segment: " + (x.segment + x.segmentRest);
      SectionLinesUnbroken(xs[1..]);
      UnbrokenAppend(["Name: " + x.name + x.nameRest, "Segment: " + x.segment + x.segmentRest],
                     SectionLines(xs[1..]));
    }
  }

  lemma UnbrokenAppend(a: seq<string>, b: seq<string>)
    requires forall i :: 0 <= i < |a| ==> NoLineBreak(a[i])
    requires forall i :: 0 <= i < |b| ==> NoLineBreak(b[i])
    ensures forall i :: 0 <= i < |a + b| ==> NoLineBreak((a + b)[i])
  {
    forall i | 0 <= i < |a + b| ensures NoLineBreak((a + b)[i]) {
      if i >= |a| { assert (a + b)[i] == b[i - |a|]; }
    }
  }

  lemma {:induction false} RenderUnbroken(bs: seq<Block>)
    requires forall i :: 0 <= i < |bs| ==> ValidBlock(bs[i])
    ensures forall i :: 0 <= i < |Render(bs)| ==> NoLineBreak(Render(bs)[i])
    decreases |bs|
  {
    if |bs| > 0 {
      var b := bs[0];
      assert ValidBlock(b);
      WordUnbroken(b.arch);
      assert NoLineBreak("Arch: ");
      NoLineBreakAppend("Arch: ", b.arch);
      SectionLinesUnbroken(b.sections);
      UnbrokenAppend(["Arch: " + b.arch], SectionLines(b.sections));
      RenderUnbroken(bs[1..]);
      UnbrokenAppend(BlockText(b), Render(bs[1..]));
    }
  }

  /** `llvm-readobj` output made of architecture blocks lists the requested
      architecture's "segment,section" keys, each once, in the order they
      first appear, each with the llvm objdump command. */
  lemma LlvmSectionsOfBlocks(bs: seq<Block>, arch: string)
    requires forall i :: 0 <= i < |bs| ==> ValidBlock(bs[i])
    ensures var keys := InsertAll([], RequestedKeys(bs, arch));
            LlvmSections(Unlines(Render(bs)), arch)
              == Success(seq(|keys|, i requires 0 <= i < |keys| => (keys[i], LlvmObjdump)))
  {
    var keys := InsertAll([], RequestedKeys(bs, arch));
    RenderUnbroken(bs);
    SplitLinesUnlines(Render(bs));
    ScanBlocks(Scan(true, None, None, []), bs, arch);
    var scan := ScanLines(Scan(true, None, None, []), Render(bs), arch).value;
    SectionsOfScan(Unlines(Render(bs)), arch, scan);
    var r := LlvmSections(Unlines(Render(bs)), arch);
    assert r.value == seq(|keys|, i requires 0 <= i < |keys| => (keys[i], LlvmObjdump));
  }

  /** Real `llvm-readobj` output: indented, with other lines ("Index:",
      "Address:", "Flags [", …) among the labelled ones. Whenever its
      labelled lines, unindented, are those of some architecture blocks, the
      table is the one those blocks give. */
  lemma LlvmSectionsOfOutput(lines: seq<string>, bs: seq<Block>, arch: string)
    requires forall i :: 0 <= i < |lines| ==> NoLineBreak(lines[i])
    requires forall i :: 0 <= i < |bs| ==> ValidBlock(bs[i])
    requires Significant(lines) == Render(bs)
    ensures var keys := InsertAll([], RequestedKeys(bs, arch));
            LlvmSections(Unlines(lines), arch)
              == Success(seq(|keys|, i requires 0 <= i < |keys| => (keys[i], LlvmObjdump)))
  {
    var start := Scan(true, None, None, []);
    SplitLinesUnlines(lines);
    RenderUnbroken(bs);
    SplitLinesUnlines(Render(bs));
    ScanSignificant(start, lines, arch);
    assert LlvmSections(Unlines(lines), arch) == LlvmSections(Unlines(Render(bs)), arch);
    LlvmSectionsOfBlocks(bs, arch);
  }

  // ------------------------------------------------------ architectures

  /** The architectures `llvm-readobj` lists, as written: `lstrip("Arch: ")`
      strips any of the characters "A", "r", "c", "h", ":" and " ", so a name
      that starts with one of them loses it. Otherwise it lists what the
      corrected reading lists. */
  function ArchesAsWritten(output: string): (r: seq<string>)
    ensures |r| == |Arches(output)|
    ensures forall i :: 0 <= i < |r| ==> r[i] == LStripChars(ArchLine(Arches(output)[i]), "Arch: ")
  {
    var lines := SplitLines(output);
    ArchLinesWrittenMeant(lines);
    ArchLinesAsWritten(lines)
  }

  function ArchLinesAsWritten(lines: seq<string>): (r: seq<string>)
    ensures |r| == |ArchLines(lines)|
  {
    if |lines| == 0 then []
    else (if StartsWith(lines[0], "Arch: ") then [LStripChars(lines[0], "Arch: ")] else [])
         + ArchLinesAsWritten(lines[1..])
  }

  /** The two readings list the same lines: each architecture as written is
      the one meant, with its "Arch: " line stripped by the character set. */
  lemma {:induction false} ArchLinesWrittenMeant(lines: seq<string>)
    ensures forall i :: 0 <= i < |ArchLinesAsWritten(lines)| ==>
              ArchLinesAsWritten(lines)[i] == LStripChars(ArchLine(ArchLines(lines)[i]), "Arch: ")
    decreases |lines|
  {
    if |lines| > 0 {
      ArchLinesWrittenMeant(lines[1..]);
      ArchOfPrefixed(lines[0]);
    }
  }

  /** The architectures with the "Arch: " prefix removed, as meant: the
      rest of every line that starts with "Arch: ", in order, and nothing
      else (`ArchLinesSound`, `ArchLinesComplete`). */
  function ArchLines(lines: seq<string>): (r: seq<string>)
    ensures |r| <= |lines|
  {
    if |lines| == 0 then []
    else (if StartsWith(lines[0], "Arch: ") then [lines[0][6..]] else []) + ArchLines(lines[1..])
  }

  /** Every architecture listed is the rest of an "Arch: " line. */
  lemma {:induction false} ArchLinesSound(lines: seq<string>)
    ensures forall i :: 0 <= i < |ArchLines(lines)| ==> ArchLine(ArchLines(lines)[i]) in lines
    decreases |lines|
  {
    if |lines| > 0 {
      ArchLinesSound(lines[1..]);
      ArchOfPrefixed(lines[0]);
      assert forall x :: x in lines[1..] ==> x in lines;
    }
  }

  /** The rest of every "Arch: " line is listed. */
  lemma {:induction false} ArchLinesComplete(lines: seq<string>)
    ensures forall j :: 0 <= j < |lines| && StartsWith(lines[j], "Arch: ") ==> lines[j][6..] in ArchLines(lines)
    decreases |lines|
  {
    if |lines| > 0 {
      ArchLinesComplete(lines[1..]);
      assert forall j :: 1 <= j < |lines| ==> lines[j] == lines[1..][j - 1];
    }
  }

  lemma ArchOfPrefixed(line: string)
    ensures StartsWith(line, "Arch: ") ==> ArchLine(line[6..]) == line
  {
    if StartsWith(line, "Arch: ") {
      assert line == line[..6] + line[6..];
    }
  }

  /** `LlvmReadobjBackend.arches`: one architecture per line that starts
      with "Arch: ", that prefix removed. */
  function Arches(output: string): (r: seq<string>)
    ensures forall i :: 0 <= i < |r| ==> ArchLine(r[i]) in SplitLines(output)
    ensures forall j :: 0 <= j < |SplitLines(output)| && StartsWith(SplitLines(output)[j], "Arch: ") ==>
              SplitLines(output)[j][6..] in r
  {
    ArchLinesSound(SplitLines(output));
    ArchLinesComplete(SplitLines(output));
    ArchLines(SplitLines(output))
  }

  /** Reading lines one after another: the architectures of each part, in
      order, both as written and as meant. */
  lemma {:induction false} ArchLinesAppend(a: seq<string>, b: seq<string>)
    ensures ArchLines(a + b) == ArchLines(a) + ArchLines(b)
    ensures ArchLinesAsWritten(a + b) == ArchLinesAsWritten(a) + ArchLinesAsWritten(b)
  {
    ArchLinesMeantAppend(a, b);
    ArchLinesWrittenAppend(a, b);
  }

  lemma {:induction false} ArchLinesMeantAppend(a: seq<string>, b: seq<string>)
    ensures ArchLines(a + b) == ArchLines(a) + ArchLines(b)
    decreases |a|
  {
    if |a| == 0 {
      assert a + b == b;
    } else {
      var head := if StartsWith(a[0], "Arch: ") then [a[0][6..]] else [];
      assert ArchLines(a + b) == head + ArchLines(a[1..] + b) by {
        assert (a + b)[0] == a[0] && (a + b)[1..] == a[1..] + b;
      }
      assert ArchLines(a) == head + ArchLines(a[1..]);
      ArchLinesMeantAppend(a[1..], b);
      assert head + (ArchLines(a[1..]) + ArchLines(b)) == (head + ArchLines(a[1..])) + ArchLines(b);
    }
  }

  lemma {:induction false} ArchLinesWrittenAppend(a: seq<string>, b: seq<string>)
    ensures ArchLinesAsWritten(a + b) == ArchLinesAsWritten(a) + ArchLinesAsWritten(b)
    decreases |a|
  {
    if |a| == 0 {
      assert a + b == b;
    } else {
      WrittenStep(a, b);
      ArchLinesWrittenAppend(a[1..], b);
      AppendAssociates(WrittenHead(a[0]), ArchLinesAsWritten(a[1..]), ArchLinesAsWritten(b));
    }
  }

  /** What the as-written reading lists for one line. */
  function WrittenHead(line: string): seq<string> {
    if StartsWith(line, "Arch: ") then [LStripChars(line, "Arch: ")] else []
  }

  lemma WrittenStep(a: seq<string>, b: seq<string>)
    requires |a| > 0
    ensures ArchLinesAsWritten(a + b) == WrittenHead(a[0]) + ArchLinesAsWritten(a[1..] + b)
    ensures ArchLinesAsWritten(a) == WrittenHead(a[0]) + ArchLinesAsWritten(a[1..])
  {
    assert (a + b)[0] == a[0] && (a + b)[1..] == a[1..] + b;
  }

  lemma AppendAssociates<T>(h: seq<T>, x: seq<T>, y: seq<T>)
    ensures h + (x + y) == (h + x) + y
  {
  }

  /** One line: an "Arch: " line lists its rest, any other line nothing. */
  lemma ArchLinesOne(line: string)
    ensures StartsWith(line, "Arch: ") ==>
              ArchLines([line]) == [line[6..]] && ArchLinesAsWritten([line]) == [LStripChars(line, "Arch: ")]
    ensures !StartsWith(line, "Arch: ") ==> ArchLines([line]) == [] && ArchLinesAsWritten([line]) == []
  {
    var lines := [line];
    assert lines[1..] == [];
  }

  /** The output of lines without breaks, one per line, is read line by
      line, whatever the other lines say. */
  lemma ArchesOfLines(lines: seq<string>)
    requires forall i :: 0 <= i < |lines| ==> NoLineBreak(lines[i])
    ensures Arches(Unlines(lines)) == ArchLines(lines)
    ensures ArchesAsWritten(Unlines(lines)) == ArchLinesAsWritten(lines)
  {
    SplitLinesUnlines(lines);
  }

  /** One file's header as `llvm-readobj` prints it: lines that name no
      architecture ("File:", "Format:", …), then the "Arch: " line. */
  datatype Header = Header(others: seq<string>, arch: string)

  predicate ValidHeader(h: Header) {
    && NoLineBreak(h.arch)
    && forall i :: 0 <= i < |h.others| ==> NoLineBreak(h.others[i]) && !StartsWith(h.others[i], "Arch: ")
  }

  function HeaderLines(hs: seq<Header>): (lines: seq<string>)
    decreases |hs|
  {
    if |hs| == 0 then [] else hs[0].others + [ArchLine(hs[0].arch)] + HeaderLines(hs[1..])
  }

  function HeaderArches(hs: seq<Header>): (archs: seq<string>)
    ensures |archs| == |hs| && forall i :: 0 <= i < |hs| ==> archs[i] == hs[i].arch
  {
    if |hs| == 0 then [] else [hs[0].arch] + HeaderArches(hs[1..])
  }

  /** Lines that name no architecture list none. */
  lemma {:induction false} NoArchLines(lines: seq<string>)
    requires forall i :: 0 <= i < |lines| ==> !StartsWith(lines[i], "Arch: ")
    ensures ArchLines(lines) == []
    decreases |lines|
  {
    if |lines| > 0 {
      NoArchLines(lines[1..]);
    }
  }

  /** Reading the headers' lines lists their architectures, in order,
      whatever else the headers say. */
  lemma {:induction false} ArchLinesOfHeaders(hs: seq<Header>)
    requires forall i :: 0 <= i < |hs| ==> ValidHeader(hs[i])
    ensures ArchLines(HeaderLines(hs)) == HeaderArches(hs)
    decreases |hs|
  {
    if |hs| > 0 {
      var h := hs[0];
      assert ValidHeader(h);
      var line := ArchLine(h.arch);
      ArchLinesOfHeaders(hs[1..]);
      NoArchLines(h.others);
      ArchLinesMeantAppend(h.others, [line] + HeaderLines(hs[1..]));
      assert HeaderLines(hs) == h.others + ([line] + HeaderLines(hs[1..]));
      ArchLinesMeantAppend([line], HeaderLines(hs[1..]));
      assert StartsWith(line, "Arch: ") && line[6..] == h.arch by {
        StartsWithAppend("Arch: ", h.arch);
      }
      ArchLinesOne(line);
    }
  }

  lemma {:induction false} HeaderLinesUnbroken(hs: seq<Header>)
    requires forall i :: 0 <= i < |hs| ==> ValidHeader(hs[i])
    ensures forall i :: 0 <= i < |HeaderLines(hs)| ==> NoLineBreak(HeaderLines(hs)[i])
    decreases |hs|
  {
    if |hs| > 0 {
      var h := hs[0];
      assert ValidHeader(h);
      assert NoLineBreak("Arch: ");
      NoLineBreakAppend("Arch: ", h.arch);
      HeaderLinesUnbroken(hs[1..]);
      UnbrokenAppend([ArchLine(h.arch)], HeaderLines(hs[1..]));
      UnbrokenAppend(h.others, [ArchLine(h.arch)] + HeaderLines(hs[1..]));
      assert HeaderLines(hs) == h.others + ([ArchLine(h.arch)] + HeaderLines(hs[1..]));
    }
  }

  /** `llvm-readobj` output made of file headers lists each header's
      architecture, in order: the corrected reading inverts the printing. */
  lemma ArchesOfHeaders(hs: seq<Header>)
    requires forall i :: 0 <= i < |hs| ==> ValidHeader(hs[i])
    ensures Arches(Unlines(HeaderLines(hs))) == HeaderArches(hs)
  {
    HeaderLinesUnbroken(hs);
    ArchesOfLines(HeaderLines(hs));
    ArchLinesOfHeaders(hs);
  }

  function ArchLine(a: string): string {
    "Arch: " + a
  }

  /** Listing architectures one per "Arch: " line and reading them back
      gives the same architectures, in order. */
  lemma {:induction false} ArchesRoundTrip(archs: seq<string>)
    requires forall i :: 0 <= i < |archs| ==> NoLineBreak(archs[i])
    ensures Arches(Unlines(seq(|archs|, i requires 0 <= i < |archs| => ArchLine(archs[i])))) == archs
  {
    var lines := seq(|archs|, i requires 0 <= i < |archs| => ArchLine(archs[i]));
    forall i | 0 <= i < |lines| ensures NoLineBreak(lines[i]) {
      assert lines[i] == "Arch: " + archs[i];
    }
    SplitLinesUnlines(lines);
    ArchLinesRead(archs);
  }

  lemma {:induction false} ArchLinesRead(archs: seq<string>)
    ensures ArchLines(seq(|archs|, i requires 0 <= i < |archs| => ArchLine(archs[i]))) == archs
    decreases |archs|
  {
    var lines := seq(|archs|, i requires 0 <= i < |archs| => ArchLine(archs[i]));
    if |archs| > 0 {
      assert lines[0] == "Arch: " + archs[0];
      assert lines[0][..6] == "Arch: ";
      assert lines[0][6..] == archs[0];
      assert lines[1..] == seq(|archs[1..]|, i requires 0 <= i < |archs[1..]| => ArchLine(archs[1..][i]));
      ArchLinesRead(archs[1..]);
      assert archs == [archs[0]] + archs[1..];
    }
  }

  lemma OneLine(line: string)
    requires NoLineBreak(line)
    ensures SplitLines(line + "\n") == [line]
  {
    assert line + "\n" == Unlines([line]);
    SplitLinesUnlines([line]);
  }

  /** `lstrip("Arch: ")` on the line of a name that starts with "h" strips
      that "h" too, and stops at the first character outside the set. */
  lemma StripArchChars(r: string)
    requires |r| > 0 && r[0] !in "Arch: "
    ensures LStripChars(ArchLine("h" + r), "Arch: ") == r
  {
    var chars := "Arch: ";
    assert ArchLine("h" + r) == chars + (['h'] + r);
    assert 'h' in chars by { assert chars[3] == 'h'; }
    LStripCharsPrefixAndOne(chars, 'h', r);
  }

  lemma ArchLineNoBreak(a: string)
    requires NoLineBreak(a)
    ensures NoLineBreak(ArchLine(a))
  {
    var line := ArchLine(a);
    forall k | 0 <= k < |line| ensures !IsLineBreak(line[k]) {
      if k >= 6 { assert line[k] == a[k - 6]; }
    }
  }

  /** Every architecture whose name starts with "h" followed by a character
      outside the label's set shows the two readings apart: the one as
      written loses the "h", the corrected one keeps the name. */
  lemma ArchStripCounterexample(r: string)
    requires |r| > 0 && r[0] !in "Arch: " && NoLineBreak(r)
    ensures ArchesAsWritten(ArchLine("h" + r) + "\n") == [r]
    ensures Arches(ArchLine("h" + r) + "\n") == ["h" + r]
  {
    var a := "h" + r;
    var line := ArchLine(a);
    assert NoLineBreak(a) by {
      forall k | 0 <= k < |a| ensures !IsLineBreak(a[k]) {
        if k > 0 { assert a[k] == r[k - 1]; }
      }
    }
    ArchLineNoBreak(a);
    OneLine(line);
    assert StartsWith(line, "Arch: ") by { StartsWithAppend("Arch: ", a); }
    StripArchChars(r);
    assert line[6..] == a;
    var lines: seq<string> := [line];
    assert lines[1..] == [];
  }

  /** The architecture "hppa" is one such name. */
  lemma HppaCounterexample()
    ensures ArchesAsWritten(ArchLine("hppa") + "\n") == ["ppa"]
    ensures Arches(ArchLine("hppa") + "\n") == ["hppa"]
  {
    var r := "ppa";
    assert r[0] !in "Arch: " && NoLineBreak(r) by {
      assert r[0] == 'p';
      forall k | 0 <= k < |r| ensures !IsLineBreak(r[k]) { }
    }
    assert "h" + r == "hppa";
    ArchStripCounterexample(r);
  }

  // ----------------------------------------------- the sections container

  /** The backend the sections container picks: otool when installed, else
      llvm when both its tools are; with neither it raises. */
  datatype RequiredToolNotFound = RequiredToolNotFound(operation: string)
  datatype SectionsError = MissingTool(missing: RequiredToolNotFound) | ParseFailed(parse: IndexError)

  function ContainerSections(otool: bool, readobj: bool, objdump: bool, readobjOutput: string, arch: string)
    : (r: Result<Sections, SectionsError>)
    ensures otool ==> r == Success(OtoolSections())
    ensures !otool && !(readobj && objdump) ==> r.Failure? && r.error.MissingTool?
    ensures !otool && readobj && objdump ==>
              && (r.Success? <==> LlvmSections(readobjOutput, arch).Success?)
              && (r.Success? ==> r.value == LlvmSections(readobjOutput, arch).value)
              && (r.Failure? ==> r.error == ParseFailed(LlvmSections(readobjOutput, arch).error))
  {
    if otool then Success(OtoolSections())
    else if readobj && objdump then
      match LlvmSections(readobjOutput, arch)
      case Success(t) => Success(t)
      case Failure(e) => Failure(ParseFailed(e))
    else Failure(MissingTool(RequiredToolNotFound("otool | llvm-objdump")))
  }

  /** A member of the sections container: one of its sections with its
      command, or whatever the decompiling container it extends returns. */
  datatype Member = SectionMember(name: string, cmd: CommandKind) | Decompiled(name: string)

  /** `get_member_names`: the decompiled members, then the section keys. */
  function MemberNames(decompiled: seq<string>, sections: Sections): (r: seq<string>)
    ensures |r| == |decompiled| + |sections|
    ensures r[..|decompiled|] == decompiled && r[|decompiled|..] == Keys(sections)
  {
    decompiled + Keys(sections)
  }

  /** `get_member`: a section key names that section; any other name is
      passed to the decompiling container. */
  function GetMember(sections: Sections, name: string): (r: Member)
    ensures r.name == name
    ensures r.SectionMember? <==> name in Keys(sections)
    ensures r.SectionMember? ==> Lookup(sections, name) == Some(r.cmd)
  {
    match Lookup(sections, name)
    case Some(cmd) => SectionMember(name, cmd)
    case None => Decompiled(name)
  }

  /** Every listed section name leads back to its own section. */
  lemma MemberNamesResolve(decompiled: seq<string>, sections: Sections, i: nat)
    requires DistinctKeys(sections) && i < |sections|
    ensures GetMember(sections, MemberNames(decompiled, sections)[|decompiled| + i])
         == SectionMember(sections[i].0, sections[i].1)
  {
    var name := sections[i].0;
    assert MemberNames(decompiled, sections)[|decompiled| + i] == Keys(sections)[i];
    LookupFinds(sections, i);
  }

  lemma {:induction false} LookupFinds(t: Sections, i: nat)
    requires DistinctKeys(t) && i < |t|
    ensures Lookup(t, t[i].0) == Some(t[i].1)
    decreases |t|
  {
    if i > 0 {
      assert t[0].0 != t[i].0;
      assert t[1..][i - 1] == t[i];
      LookupFinds(t[1..], i - 1);
    }
  }

  // ------------------------------------------------ comparing with details

  /** The entries that are not None, in order. */
  function Present(xs: seq<Option<Diff>>): (r: seq<Diff>)
    ensures |r| <= |xs|
    ensures r == [] <==> forall i :: 0 <= i < |xs| ==> xs[i].None?
  {
    if |xs| == 0 then []
    else if xs[0].Some? then [xs[0].value] + Present(xs[1..])
    else
      assert forall i :: 1 <= i < |xs| ==> xs[i] == xs[1..][i - 1];
      Present(xs[1..])
  }

  /** `r` lists the values at the strictly increasing positions `idx` of
      `xs`, and those are all the positions holding a value. */
  ghost predicate PresentAt(xs: seq<Option<Diff>>, r: seq<Diff>, idx: seq<nat>) {
    Picks(xs, r, idx) && Increasing(idx) && Covers(xs, idx)
  }

  ghost predicate Picks(xs: seq<Option<Diff>>, r: seq<Diff>, idx: seq<nat>) {
    && |idx| == |r|
    && forall k :: 0 <= k < |idx| ==> idx[k] < |xs| && xs[idx[k]] == Some(r[k])
  }

  predicate Increasing(idx: seq<nat>) {
    forall k, l :: 0 <= k < l < |idx| ==> idx[k] < idx[l]
  }

  ghost predicate Covers(xs: seq<Option<Diff>>, idx: seq<nat>) {
    forall i :: 0 <= i < |xs| && xs[i].Some? ==> i in idx
  }

  function Shift(idx: seq<nat>): (r: seq<nat>)
    ensures |r| == |idx| && forall k :: 0 <= k < |idx| ==> r[k] == idx[k] + 1
  {
    seq(|idx|, k requires 0 <= k < |idx| => idx[k] + 1)
  }

  function ZeroThenShift(idx: seq<nat>): (r: seq<nat>)
    ensures |r| == |idx| + 1 && r[0] == 0
    ensures forall k :: 0 <= k < |idx| ==> r[k + 1] == idx[k] + 1
  {
    seq(|idx| + 1, k requires 0 <= k <= |idx| => if k == 0 then 0 else idx[k - 1] + 1)
  }

  function Unshift(idx: seq<nat>): (r: seq<nat>)
    requires forall k :: 0 <= k < |idx| ==> idx[k] > 0
    ensures |r| == |idx| && forall k :: 0 <= k < |idx| ==> r[k] + 1 == idx[k]
  {
    seq(|idx|, k requires 0 <= k < |idx| => idx[k] - 1)
  }

  /** Strictly increasing positions from `lo` up to `n` number at most `n - lo`. */
  lemma {:induction false} IncreasingBound(idx: seq<nat>, lo: nat, n: nat)
    requires Increasing(idx) && lo <= n
    requires forall k :: 0 <= k < |idx| ==> lo <= idx[k] < n
    ensures |idx| <= n - lo
    decreases |idx|
  {
    if |idx| > 0 {
      assert lo <= idx[0] < n;
      assert forall k :: 0 <= k < |idx[1..]| ==> idx[1..][k] == idx[k + 1] && idx[0] < idx[k + 1];
      IncreasingBound(idx[1..], idx[0] + 1, n);
    }
  }

  /** `Present` keeps exactly the values, in their order: the positions it
      takes them from exist. */
  lemma {:induction false} PresentPicks(xs: seq<Option<Diff>>) returns (idx: seq<nat>)
    ensures PresentAt(xs, Present(xs), idx)
    decreases |xs|
  {
    if |xs| == 0 {
      idx := [];
    } else {
      var rest := PresentPicks(xs[1..]);
      if xs[0].Some? {
        ConsSome(xs, Present(xs[1..]), rest);
        idx := ZeroThenShift(rest);
      } else {
        ConsNone(xs, Present(xs[1..]), rest);
        idx := Shift(rest);
      }
    }
  }

  /** Conversely, any list taken that way is what `Present` gives. */
  lemma {:induction false} PresentUnique(xs: seq<Option<Diff>>, r: seq<Diff>, idx: seq<nat>)
    requires PresentAt(xs, r, idx)
    ensures r == Present(xs)
    decreases |xs|
  {
    if |xs| == 0 {
      IncreasingBound(idx, 0, 0);
    } else if xs[0].Some? {
      UnconsSome(xs, r, idx);
      PresentUnique(xs[1..], r[1..], Unshift(idx[1..]));
      PresentCons(xs, r);
    } else {
      UnconsNone(xs, r, idx);
      PresentUnique(xs[1..], r, Unshift(idx));
    }
  }

  lemma PresentCons(xs: seq<Option<Diff>>, r: seq<Diff>)
    requires |xs| > 0 && xs[0].Some? && |r| > 0 && r[0] == xs[0].value
    requires r[1..] == Present(xs[1..])
    ensures r == Present(xs)
  {
    assert r == [r[0]] + r[1..];
  }

  lemma ConsNone(xs: seq<Option<Diff>>, r: seq<Diff>, idx: seq<nat>)
    requires |xs| > 0 && xs[0].None? && PresentAt(xs[1..], r, idx)
    ensures PresentAt(xs, r, Shift(idx))
  {
    var shifted := Shift(idx);
    assert Picks(xs, r, shifted) by {
      forall k | 0 <= k < |idx| ensures xs[shifted[k]] == Some(r[k]) {
        assert xs[shifted[k]] == xs[1..][idx[k]];
      }
    }
    assert Increasing(shifted);
    assert Covers(xs, shifted) by {
      forall i | 0 <= i < |xs| && xs[i].Some? ensures i in shifted {
        assert xs[1..][i - 1] == xs[i];
        var k :| 0 <= k < |idx| && idx[k] == i - 1;
        assert shifted[k] == i;
      }
    }
  }

  lemma ConsSome(xs: seq<Option<Diff>>, r: seq<Diff>, idx: seq<nat>)
    requires |xs| > 0 && xs[0].Some? && PresentAt(xs[1..], r, idx)
    ensures PresentAt(xs, [xs[0].value] + r, ZeroThenShift(idx))
  {
    ConsSomePicks(xs, r, idx);
    ConsSomeIncreasing(idx);
    ConsSomeCovers(xs, idx);
  }

  lemma ConsSomeIncreasing(idx: seq<nat>)
    requires Increasing(idx)
    ensures Increasing(ZeroThenShift(idx))
  {
    var all := ZeroThenShift(idx);
    forall k, l | 0 <= k < l < |all| ensures all[k] < all[l] {
      if k > 0 {
        assert idx[k - 1] < idx[l - 1];
      }
    }
  }

  lemma ConsSomeCovers(xs: seq<Option<Diff>>, idx: seq<nat>)
    requires |xs| > 0 && Covers(xs[1..], idx)
    ensures Covers(xs, ZeroThenShift(idx))
  {
    var all := ZeroThenShift(idx);
    forall i | 0 <= i < |xs| && xs[i].Some? ensures i in all {
      if i > 0 {
        assert xs[1..][i - 1] == xs[i];
        var k :| 0 <= k < |idx| && idx[k] == i - 1;
        assert all[k + 1] == i;
      }
    }
  }

  lemma ConsSomePicks(xs: seq<Option<Diff>>, r: seq<Diff>, idx: seq<nat>)
    requires |xs| > 0 && xs[0].Some? && Picks(xs[1..], r, idx)
    ensures Picks(xs, [xs[0].value] + r, ZeroThenShift(idx))
  {
    var all := ZeroThenShift(idx);
    var r' := [xs[0].value] + r;
    forall k | 0 <= k < |all| ensures all[k] < |xs| && xs[all[k]] == Some(r'[k]) {
      if k > 0 {
        assert r'[k] == r[k - 1];
        assert xs[all[k]] == xs[1..][idx[k - 1]];
      }
    }
  }

  lemma UnconsNone(xs: seq<Option<Diff>>, r: seq<Diff>, idx: seq<nat>)
    requires |xs| > 0 && xs[0].None? && PresentAt(xs, r, idx)
    ensures forall k :: 0 <= k < |idx| ==> idx[k] > 0
    ensures PresentAt(xs[1..], r, Unshift(idx))
  {
    assert forall k :: 0 <= k < |idx| ==> idx[k] > 0;
    var tail := Unshift(idx);
    assert Picks(xs[1..], r, tail) by {
      forall k | 0 <= k < |tail| ensures tail[k] < |xs[1..]| && xs[1..][tail[k]] == Some(r[k]) {
        assert xs[1..][tail[k]] == xs[idx[k]];
      }
    }
    assert Increasing(tail);
    assert Covers(xs[1..], tail) by {
      forall i | 0 <= i < |xs[1..]| && xs[1..][i].Some? ensures i in tail {
        assert xs[i + 1] == xs[1..][i];
        var k :| 0 <= k < |idx| && idx[k] == i + 1;
        assert tail[k] == i;
      }
    }
  }

  lemma UnconsSome(xs: seq<Option<Diff>>, r: seq<Diff>, idx: seq<nat>)
    requires |xs| > 0 && xs[0].Some? && PresentAt(xs, r, idx)
    ensures |idx| > 0 && idx[0] == 0 && r[0] == xs[0].value
    ensures forall k :: 0 <= k < |idx[1..]| ==> idx[1..][k] > 0
    ensures PresentAt(xs[1..], r[1..], Unshift(idx[1..]))
  {
    assert 0 in idx;
    assert forall k :: 0 <= k < |idx| ==> idx[0] <= idx[k];
    assert idx[0] == 0;
    var tail := Unshift(idx[1..]);
    assert Picks(xs[1..], r[1..], tail) by {
      forall k | 0 <= k < |tail| ensures tail[k] < |xs[1..]| && xs[1..][tail[k]] == Some(r[1..][k]) {
        assert xs[1..][tail[k]] == xs[idx[k + 1]];
      }
    }
    assert Increasing(tail) by {
      forall k, l | 0 <= k < l < |tail| ensures tail[k] < tail[l] {
        assert idx[k + 1] < idx[l + 1];
      }
    }
    assert Covers(xs[1..], tail) by {
      forall i | 0 <= i < |xs[1..]| && xs[1..][i].Some? ensures i in tail {
        assert xs[i + 1] == xs[1..][i];
        var k :| 0 <= k < |idx| && idx[k] == i + 1;
        assert tail[k - 1] == i;
      }
    }
  }

  lemma {:induction false} PresentAppend(a: seq<Option<Diff>>, b: seq<Option<Diff>>)
    ensures Present(a + b) == Present(a) + Present(b)
    decreases |a|
  {
    if |a| > 0 {
      assert (a + b)[1..] == a[1..] + b;
      PresentAppend(a[1..], b);
    } else {
      assert a + b == b;
    }
  }

  /** The container an architecture opens: its nesting depth and how it
      compares with the other side's, given whether to stop recursing. */
  datatype Nested = Nested(depth: nat, compare: bool -> seq<Option<Diff>>)

  function DepthComment(depth: nat): string {
    "Reached max container depth (" + IntToDecimal(depth) + ")"
  }

  /** `_compare_using_details`: a difference between the two names holding
      the own details followed by the nested container's comparisons, with
      the entries that are None dropped; nothing when none remain. At the
      maximum depth the nested comparison is told not to recurse and the
      difference says so in a comment. */
  function CompareUsingDetails(name1: string, name2: string, details: seq<Option<Diff>>,
                               nested: Option<Nested>, maxDepth: int): (r: Option<Diff>)
    ensures var all := details + (if nested.Some? then nested.value.compare(nested.value.depth >= maxDepth) else []);
            && (r.None? <==> forall i :: 0 <= i < |all| ==> all[i].None?)
            && (r.Some? ==> r.value.children == Present(all))
    ensures r.Some? ==> r.value.label1 == name1 && r.value.label2 == name2
    ensures r.Some? ==> (r.value.comments != [] <==> nested.Some? && nested.value.depth >= maxDepth)
    ensures r.Some? && r.value.comments != [] ==> r.value.comments == [DepthComment(nested.value.depth)]
  {
    var noRecurse := nested.Some? && nested.value.depth >= maxDepth;
    var comments := if noRecurse then [DepthComment(nested.value.depth)] else [];
    var all := details + (if nested.Some? then nested.value.compare(noRecurse) else []);
    var kept := Present(all);
    if kept == [] then None else Some(Diff(name1, name2, "", comments, kept))
  }

  /** The merged difference is as large as its own comment and labels plus
      every difference it keeps, own details and nested ones alike. */
  lemma MergedSize(name1: string, name2: string, details: seq<Option<Diff>>, nested: Option<Nested>, maxDepth: int)
    requires CompareUsingDetails(name1, name2, details, nested, maxDepth).Some?
    ensures var d := CompareUsingDetails(name1, name2, details, nested, maxDepth).value;
            var extra := if nested.Some? then nested.value.compare(nested.value.depth >= maxDepth) else [];
            Size(d) == SizeSelf(d) + SizeAll(Present(details)) + SizeAll(Present(extra))
  {
    var extra := if nested.Some? then nested.value.compare(nested.value.depth >= maxDepth) else [];
    PresentAppend(details, extra);
    SizeAllAppend(Present(details), Present(extra));
  }
}

=== FILE: rdata.dfy ===
/** The GNU R data files: which files are serialized R objects (".rds"),
    the name of the index (".rdx") that belongs to an R database (".rdb"),
    and when two databases are compared at all. Copying files into a
    temporary directory and running `Rscript` are not modelled. */
module RData {
  import opened Wrappers
  import opened Text

  // --------------------------------------------------- the header constant

  function HexDigit(c: char): Option<nat> {
    if '0' <= c <= '9' then Some(c as nat - '0' as nat)
    else if 'a' <= c <= 'f' then Some(c as nat - 'a' as nat + 10)
    else if 'A' <= c <= 'F' then Some(c as nat - 'A' as nat + 10)
    else None
  }

  /** `binascii.a2b_hex`: two hexadecimal digits per byte; an odd length or
      a character that is not a hexadecimal digit is an error. */
  function A2bHex(s: string): (r: Option<Bytes>)
    ensures r.Some? ==> 2 * |r.value| == |s|
    ensures |s| % 2 == 1 ==> r.None?
    decreases |s|
  {
    if |s| == 0 then Some([])
    else if |s| == 1 then None
    else match (HexDigit(s[0]), HexDigit(s[1]))
      case (Some(hi), Some(lo)) =>
        (match A2bHex(s[2..])
         case Some(rest) => Some([(16 * (hi % 16) + lo % 16) as Byte] + rest)
         case None => None)
      case _ => None
  }

  function HexChar(d: nat): char
    requires d < 16
  {
    if d < 10 then ('0' as nat + d) as char else ('a' as nat + d - 10) as char
  }

  /** `binascii.b2a_hex`: the lower-case hexadecimal spelling of the bytes. */
  function B2aHex(b: Bytes): (s: string)
    ensures |s| == 2 * |b|
  {
    if |b| == 0 then []
    else HexPair(b[0]) + B2aHex(b[1..])
  }

  function HexPair(b: Byte): string {
    [HexChar(b as nat / 16), HexChar(b as nat % 16)]
  }

  lemma HexCharDigit(d: nat)
    requires d < 16
    ensures HexDigit(HexChar(d)) == Some(d)
  {
  }

  /** A byte is sixteen times its high digit plus its low digit. */
  lemma PairValue(x: Byte)
    ensures (16 * ((x as nat / 16) % 16) + (x as nat % 16) % 16) as Byte == x
  {
  }

  /** One step of `a2b_hex`: two digits, then the rest. */
  lemma A2bHexStep(s: string, hi: nat, lo: nat, rest: Bytes)
    requires |s| >= 2 && HexDigit(s[0]) == Some(hi) && HexDigit(s[1]) == Some(lo)
    requires A2bHex(s[2..]) == Some(rest)
    ensures A2bHex(s) == Some([(16 * (hi % 16) + lo % 16) as Byte] + rest)
  {
  }

  /** Spelling bytes in hexadecimal and reading them back gives the bytes. */
  lemma {:induction false} HexRoundTrip(b: Bytes)
    ensures A2bHex(B2aHex(b)) == Some(b)
  {
    if |b| > 0 {
      var s := B2aHex(b);
      var hi := b[0] as nat / 16;
      var lo := b[0] as nat % 16;
      assert s[0] == HexChar(hi) && s[1] == HexChar(lo) && s[2..] == B2aHex(b[1..]) by {
        assert s == HexPair(b[0]) + B2aHex(b[1..]);
      }
      HexCharDigit(hi);
      HexCharDigit(lo);
      HexRoundTrip(b[1..]);
      A2bHexStep(s, hi, lo, b[1..]);
      PairValue(b[0]);
      assert b == [b[0]] + b[1..];
    }
  }

  /** The first bytes of a version-2 serialization in XDR format. */
  const Header: Bytes := [0x58, 0x0a, 0x00, 0x00, 0x00, 0x02, 0x00, 0x03]

  /** `HEADER` is written as the hexadecimal string "580a000000020003". */
  lemma HeaderSpelling()
    ensures A2bHex("580a000000020003") == Some(Header)
  {
    HeaderPairs();
    assert HexPair(0x58) == "58" && HexPair(0x0a) == "0a";
    assert HexPair(0x00) == "00" && HexPair(0x02) == "02" && HexPair(0x03) == "03";
    assert "58" + "0a" + "00" + "00" + "00" + "02" + "00" + "03" == "580a000000020003";
    HexRoundTrip(Header);
  }

  lemma HeaderPairs()
    ensures B2aHex(Header) == HexPair(0x58) + HexPair(0x0a) + HexPair(0x00) + HexPair(0x00)
                            + HexPair(0x00) + HexPair(0x02) + HexPair(0x00) + HexPair(0x03)
  {
    var h := Header;
    assert h[1..] == [0x0a, 0x00, 0x00, 0x00, 0x02, 0x00, 0x03];
    assert h[1..][1..] == [0x00, 0x00, 0x00, 0x02, 0x00, 0x03];
    assert h[1..][1..][1..] == [0x00, 0x00, 0x02, 0x00, 0x03];
    assert h[1..][1..][1..][1..] == [0x00, 0x02, 0x00, 0x03];
  }

  // --------------------------------------------------------- recognition

  /** `check_rds_extension`: the name ends with ".rds" or ".rdx". */
  function CheckRdsExtension(name: string): (r: bool)
    ensures r <==> |name| >= 4 && name[|name| - 4..|name| - 1] == ".rd"
                   && (name[|name| - 1] == 's' || name[|name| - 1] == 'x')
  {
    assert |name| >= 4 ==> name[|name| - 4..] == name[|name| - 4..|name| - 1] + [name[|name| - 1]];
    EndsWith(name, ".rds") || EndsWith(name, ".rdx")
  }

  lemma RdsNamesPass(stem: string)
    ensures CheckRdsExtension(stem + ".rds") && CheckRdsExtension(stem + ".rdx")
  {
    assert (stem + ".rds")[|stem|..] == ".rds";
    assert (stem + ".rdx")[|stem|..] == ".rdx";
  }

  /** A name that passes is a stem followed by one of the two extensions. */
  lemma RdsNamesOnly(name: string)
    requires CheckRdsExtension(name)
    ensures |name| >= 4
    ensures name == name[..|name| - 4] + ".rds" || name == name[..|name| - 4] + ".rdx"
  {
    assert name == name[..|name| - 4] + name[|name| - 4..];
  }

  /** A container's members by name, each with its path, and the name of the
      file the container was opened from. */
  datatype Container = Container(sourceName: string, members: map<string, string>)

  /** A file: its name, its path, the container it is a member of, if any,
      and its first bytes. */
  datatype RFile = RFile(name: string, path: string, container: Option<Container>, header: Bytes)

  /** `RdsFile.recognizes`: `A or B and C` groups as `A or (B and C)`, so
      either the file's own name or the name of the file its container came
      from must have an R data extension; then the header must match. */
  function Recognizes(f: RFile): (r: bool)
    ensures r <==> StartsWith(f.header, Header)
                   && (CheckRdsExtension(f.name) || (f.container.Some? && CheckRdsExtension(f.container.value.sourceName)))
  {
    if CheckRdsExtension(f.name) || (f.container.Some? && CheckRdsExtension(f.container.value.sourceName)) then
      StartsWith(f.header, Header)
    else false
  }

  /** Without the header nothing is recognized, whatever the names. */
  lemma RecognizedHasHeader(f: RFile)
    requires Recognizes(f)
    ensures StartsWith(f.header, Header)
    ensures CheckRdsExtension(f.name) || (f.container.Some? && CheckRdsExtension(f.container.value.sourceName))
  {
  }

  /** A file with an R data name and the header is recognized wherever it is. */
  lemma OwnNameSuffices(f: RFile)
    requires CheckRdsExtension(f.name) && StartsWith(f.header, Header)
    ensures Recognizes(f)
  {
  }

  /** A member of a container opened from an R data file is recognized on
      its header alone, whatever its own name. */
  lemma ContainerSourceSuffices(f: RFile)
    requires f.container.Some? && CheckRdsExtension(f.container.value.sourceName)
    requires StartsWith(f.header, Header)
    ensures Recognizes(f)
  {
  }

  /** Outside a container, only the file's own name counts. */
  lemma StandaloneNeedsOwnName(f: RFile)
    requires f.container.None? && !CheckRdsExtension(f.name)
    ensures !Recognizes(f)
  {
  }

  // ------------------------------------------------------ the rdx name

  /** `str.rfind`: the last index of `c`, or -1. */
  function RFind(s: string, c: char): (r: int)
    ensures -1 <= r < |s|
    ensures r >= 0 ==> s[r] == c
    ensures forall k :: r < k < |s| ==> s[k] != c
    decreases |s|
  {
    if |s| == 0 then -1
    else if s[|s| - 1] == c then |s| - 1
    else RFind(s[..|s| - 1], c)
  }

  /** Whether `s[lo..hi]` holds a character other than '.'. */
  predicate HasNonDot(s: string, lo: nat, hi: nat)
    requires lo <= hi <= |s|
  {
    exists i :: lo <= i < hi && s[i] != '.'
  }

  /** `os.path.splitext` with '/' as separator: the extension starts at the
      last '.' of the last path component, unless only dots precede it in
      that component; the root is everything before it. */
  function SplitExt(p: string): (r: (string, string))
    ensures r.0 + r.1 == p
    ensures r.1 == [] || (r.1[0] == '.' && '/' !in r.1 && '.' !in r.1[1..])
  {
    var sepIndex := RFind(p, '/');
    var dotIndex := RFind(p, '.');
    if dotIndex > sepIndex && HasNonDot(p, sepIndex + 1, dotIndex) then
      assert p[..dotIndex] + p[dotIndex..] == p;
      var ext := p[dotIndex..];
      assert forall k :: 1 <= k < |ext| ==> ext[k] == p[dotIndex + k];
      assert ext[1..] == p[dotIndex + 1..];
      (p[..dotIndex], ext)
    else
      assert p + [] == p;
      (p, [])
  }

  /** `os.path.basename`: what follows the last '/'. */
  function Basename(p: string): (r: string)
    ensures '/' !in r && EndsWith(p, r)
    ensures |r| < |p| ==> p[|p| - |r| - 1] == '/'
  {
    var i := RFind(p, '/');
    AfterLast(p, '/', i);
    p[i + 1..]
  }

  /** What follows the last `c` holds no `c`. */
  lemma AfterLast(p: string, c: char, i: int)
    requires -1 <= i < |p| && forall k :: i < k < |p| ==> p[k] != c
    ensures c !in p[i + 1..]
  {
  }

  /** The name of the index that belongs to an R database. */
  function RdxName(rdbName: string): (r: string)
    ensures EndsWith(r, ".rdx") && '/' !in r
  {
    Basename(SplitExt(rdbName).0) + ".rdx"
  }

  /** `rfind` returns the one index holding `c` with no `c` after it. */
  lemma RFindIs(p: string, c: char, i: int)
    requires -1 <= i < |p| && (i >= 0 ==> p[i] == c)
    requires forall k :: i < k < |p| ==> p[k] != c
    ensures RFind(p, c) == i
  {
  }

  /** A suffix without `c` does not move the last `c`. */
  lemma RFindPastSuffix(a: string, b: string, c: char)
    requires c !in b
    ensures RFind(a + b, c) == RFind(a, c)
  {
    var r := RFind(a, c);
    forall k | r < k < |a + b| ensures (a + b)[k] != c {
      if k >= |a| {
        assert (a + b)[k] == b[k - |a|];
      }
    }
    RFindIs(a + b, c, r);
  }

  /** A string ending in `c` has its last `c` at the end. */
  lemma RFindLast(a: string, c: char)
    requires |a| > 0 && a[|a| - 1] == c
    ensures RFind(a, c) == |a| - 1
  {
  }

  /** The last '/' of a directory prefix ending in '/', or none. */
  lemma RFindDir(dir: string, rest: string)
    requires dir == [] || dir[|dir| - 1] == '/'
    requires '/' !in rest
    ensures RFind(dir + rest, '/') == |dir| - 1
  {
    RFindPastSuffix(dir, rest, '/');
    if |dir| > 0 {
      RFindLast(dir, '/');
    }
  }

  /** An R database "dir/stem.ext" has the index "stem.rdx": the directory
      and the last extension are dropped, earlier dots of the stem kept. */
  lemma RdxNameOf(dir: string, stem: string, ext: string)
    requires dir == [] || dir[|dir| - 1] == '/'
    requires '/' !in stem && exists i :: 0 <= i < |stem| && stem[i] != '.'
    requires '/' !in ext && '.' !in ext
    ensures RdxName(dir + stem + "." + ext) == stem + ".rdx"
  {
    var root := dir + stem;
    var p := root + "." + ext;
    var d := |root|;
    assert RFind(p, '.') == d by {
      RFindPastSuffix(root + ".", ext, '.');
      RFindLast(root + ".", '.');
    }
    assert RFind(p, '/') == |dir| - 1 by {
      assert p == dir + (stem + "." + ext);
      RFindDir(dir, stem + "." + ext);
    }
    assert HasNonDot(p, |dir|, d) by {
      var i :| 0 <= i < |stem| && stem[i] != '.';
      assert p[|dir| + i] == stem[i];
    }
    assert SplitExt(p).0 == root by {
      assert p[..d] == root;
    }
    assert Basename(root) == stem by {
      RFindDir(dir, stem);
      assert root[|dir|..] == stem;
    }
  }

  // ----------------------------------------------- comparing R databases

  /** `os.path.join(dir, "temp")`. */
  function JoinTemp(dir: string): (r: string)
    ensures Basename(r) == "temp"
    ensures StartsWith(r, dir) && (r[|dir|..] == "temp" || r[|dir|..] == "/temp")
  {
    var r := if dir == [] || dir[|dir| - 1] == '/' then dir + "temp" else dir + "/temp";
    assert r[|r| - 4..] == "temp";
    assert |r| > 4 ==> r[|r| - 5] == '/';
    r
  }

  /** `get_module_path_for_rdb`: no module path outside a container or when
      the container has no member named like the index; otherwise the
      "temp" module path in the temporary directory where the database and
      its index are copied. */
  function ModulePath(rdb: RFile, tempDir: string): (r: Option<string>)
    ensures r.Some? <==> rdb.container.Some? && RdxName(rdb.name) in rdb.container.value.members
    ensures r.Some? ==> Basename(r.value) == "temp"
    ensures r.Some? ==> r.value == JoinTemp(tempDir) && StartsWith(r.value, tempDir)
  {
    match rdb.container
    case None => None
    case Some(c) =>
      if RdxName(rdb.name) !in c.members then None
      else Some(JoinTemp(tempDir))
  }

  /** `RdbFile.compare_details`: nothing when either side has no module
      path; otherwise one comparison of the dumped databases. */
  function CompareRdb<D>(a: Option<string>, b: Option<string>, dump: (string, string) -> D): (r: seq<D>)
    ensures r == [] <==> a.None? || b.None?
    ensures r != [] ==> r == [dump(a.value, b.value)]
  {
    if a.None? || b.None? then [] else [dump(a.value, b.value)]
  }

  function CompareDetails<D>(f1: RFile, f2: RFile, tempDir1: string, tempDir2: string,
                             dump: (string, string) -> D): seq<D> {
    CompareRdb(ModulePath(f1, tempDir1), ModulePath(f2, tempDir2), dump)
  }

  /** Two databases are compared exactly when both have their index next to
      them in a container. */
  lemma ComparedWithIndexes<D>(f1: RFile, f2: RFile, tempDir1: string, tempDir2: string,
                               dump: (string, string) -> D)
    ensures CompareDetails(f1, f2, tempDir1, tempDir2, dump) != [] <==>
              && f1.container.Some? && RdxName(f1.name) in f1.container.value.members
              && f2.container.Some? && RdxName(f2.name) in f2.container.value.members
  {
  }
}

=== FILE: text.dfy ===
/** The Python string and byte-string primitives the comparators and feeders rely on:
    prefix and suffix tests, `strip`/`lstrip` (whitespace or a character set),
    `split()` and `split(sep)`, UTF-8 `encode`/`decode(errors="ignore")` and the
    decimal rendering of integers used by `str.format`. */
module Text {
  import opened Wrappers

  newtype Byte = b: int | 0 <= b < 256
  type Bytes = seq<Byte>

  predicate StartsWith<T(==)>(s: seq<T>, prefix: seq<T>) {
    |prefix| <= |s| && s[..|prefix|] == prefix
  }

  lemma StartsWithAppend<T>(p: seq<T>, rest: seq<T>)
    ensures StartsWith(p + rest, p)
  {
    assert (p + rest)[..|p|] == p;
  }

  /** A first element that differs rules the prefix out. */
  lemma NotStartsWith<T>(s: seq<T>, p: seq<T>)
    requires |p| > 0 && |s| > 0 && s[0] != p[0]
    ensures !StartsWith(s, p)
  {
    if |p| <= |s| {
      assert s[..|p|][0] != p[0];
    }
  }

  predicate EndsWith<T(==)>(s: seq<T>, suffix: seq<T>) {
    |suffix| <= |s| && s[|s| - |suffix|..] == suffix
  }

  /** The bytes that `bytes.strip()` removes: space, \t, \n, \v, \f and \r. */
  predicate IsByteSpace(b: Byte) {
    b == 32 || 9 <= b <= 13
  }

  /** `str.isspace()` for one character; `str.strip()`, `str.lstrip()` and
      `str.split()` without arguments all use this set. */
  predicate IsSpace(c: char) {
    var n := c as int;
    || 9 <= n <= 13
    || 0x1C <= n <= 0x20
    || n == 0x85 || n == 0xA0 || n == 0x1680
    || 0x2000 <= n <= 0x200A
    || n == 0x2028 || n == 0x2029 || n == 0x202F || n == 0x205F || n == 0x3000
  }

  /** Removes the longest prefix whose elements all satisfy `drop`. With
      `drop` a character-set membership test this is Python's `lstrip(chars)`:
      it strips a SET of characters, not a prefix string. */
  function LStrip<T>(s: seq<T>, drop: T -> bool): (r: seq<T>)
    ensures |r| <= |s| && r == s[|s| - |r|..]
    ensures forall i :: 0 <= i < |s| - |r| ==> drop(s[i])
    ensures |r| > 0 ==> !drop(r[0])
  {
    if |s| > 0 && drop(s[0]) then
      var r := LStrip(s[1..], drop);
      assert forall i :: 1 <= i < |s| ==> s[i] == s[1..][i - 1];
      r
    else s
  }

  /** Removes the longest suffix whose elements all satisfy `drop`. */
  function RStrip<T>(s: seq<T>, drop: T -> bool): (r: seq<T>)
    ensures |r| <= |s| && r == s[..|r|]
    ensures forall i :: |r| <= i < |s| ==> drop(s[i])
    ensures |r| > 0 ==> !drop(r[|r| - 1])
  {
    if |s| > 0 && drop(s[|s| - 1]) then RStrip(s[..|s| - 1], drop) else s
  }

  /** Python's `strip`: both ends. */
  function Strip<T>(s: seq<T>, drop: T -> bool): (r: seq<T>)
    ensures |r| <= |s|
    ensures |r| > 0 ==> !drop(r[0]) && !drop(r[|r| - 1])
    ensures (forall i :: 0 <= i < |s| ==> drop(s[i])) ==> r == []
  {
    RStrip(LStrip(s, drop), drop)
  }

  /** `r` is `s` with a run of leading and a run of trailing elements
      removed, every removed element satisfying `drop`. */
  ghost predicate Trimmed<T>(s: seq<T>, r: seq<T>, drop: T -> bool) {
    exists i :: TrimmedAt(s, r, drop, i)
  }

  ghost predicate TrimmedAt<T>(s: seq<T>, r: seq<T>, drop: T -> bool, i: nat) {
    && i + |r| <= |s| && r == s[i..i + |r|]
    && (forall k :: 0 <= k < i ==> drop(s[k]))
    && (forall k :: i + |r| <= k < |s| ==> drop(s[k]))
  }

  /** Whether neither end of `r` satisfies `drop`. */
  predicate EndsKept<T>(r: seq<T>, drop: T -> bool) {
    |r| > 0 ==> !drop(r[0]) && !drop(r[|r| - 1])
  }

  /** `strip` removes only elements that satisfy `drop`, from the two ends,
      and stops at an element that does not. */
  lemma StripTrims<T>(s: seq<T>, drop: T -> bool) returns (i: nat)
    ensures TrimmedAt(s, Strip(s, drop), drop, i)
  {
    var l := LStrip(s, drop);
    var r := RStrip(l, drop);
    i := |s| - |l|;
    assert TrimmedAt(s, l, drop, i) by { LStripTrims(s, drop); }
    assert TrimmedAt(l, r, drop, 0) by { RStripTrims(l, drop); }
    TrimmedCompose(s, l, r, drop, i, 0);
    assert Strip(s, drop) == r;
  }

  /** `strip` trims elements that satisfy `drop` from both ends and stops at
      elements that do not. */
  lemma StripIsTrimmed<T>(s: seq<T>, drop: T -> bool)
    ensures Trimmed(s, Strip(s, drop), drop) && EndsKept(Strip(s, drop), drop)
  {
    var i := StripTrims(s, drop);
  }

  lemma LStripTrims<T>(s: seq<T>, drop: T -> bool)
    ensures TrimmedAt(s, LStrip(s, drop), drop, |s| - |LStrip(s, drop)|)
  {
  }

  lemma RStripTrims<T>(s: seq<T>, drop: T -> bool)
    ensures TrimmedAt(s, RStrip(s, drop), drop, 0)
  {
    assert s[0..|RStrip(s, drop)|] == s[..|RStrip(s, drop)|];
  }

  /** Trimming a trimmed sequence trims the original. */
  lemma TrimmedCompose<T>(s: seq<T>, l: seq<T>, r: seq<T>, drop: T -> bool, i: nat, j: nat)
    requires TrimmedAt(s, l, drop, i) && TrimmedAt(l, r, drop, j)
    ensures TrimmedAt(s, r, drop, i + j)
  {
    forall k | 0 <= k < |r| ensures r[k] == s[i + j + k] {
      assert r[k] == l[j + k];
    }
    assert r == s[i + j..i + j + |r|];
    forall k | 0 <= k < i + j ensures drop(s[k]) {
      if k >= i { assert s[k] == l[k - i]; }
    }
    forall k | i + j + |r| <= k < |s| ensures drop(s[k]) {
      if k < i + |l| { assert s[k] == l[k - i]; }
    }
  }

  /** Conversely, anything obtained by trimming elements that satisfy `drop`
      from the ends, up to elements that do not, is what `strip` returns. */
  lemma StripUnique<T>(s: seq<T>, r: seq<T>, drop: T -> bool, i: nat)
    requires TrimmedAt(s, r, drop, i) && EndsKept(r, drop)
    ensures r == Strip(s, drop)
  {
    var t := Strip(s, drop);
    var j := StripTrims(s, drop);
    if |r| == 0 {
      assert forall k :: 0 <= k < |s| ==> drop(s[k]);
    } else {
      SameTrim(s, r, t, drop, i, j);
    }
  }

  /** Two non-empty trims whose ends are kept start and end at the same places. */
  lemma SameTrim<T>(s: seq<T>, r: seq<T>, t: seq<T>, drop: T -> bool, i: nat, j: nat)
    requires TrimmedAt(s, r, drop, i) && EndsKept(r, drop) && |r| > 0
    requires TrimmedAt(s, t, drop, j) && EndsKept(t, drop)
    ensures r == t
  {
    assert r[0] == s[i] && r[|r| - 1] == s[i + |r| - 1];
    assert !drop(s[i]) && !drop(s[i + |r| - 1]);
    assert |t| > 0;
    assert t[0] == s[j] && t[|t| - 1] == s[j + |t| - 1];
    assert !drop(s[j]) && !drop(s[j + |t| - 1]);
    assert i == j;
    assert i + |r| == j + |t|;
  }

  /** `bytes.strip()`. */
  function StripBytes(b: Bytes): Bytes {
    Strip(b, IsByteSpace)
  }

  /** `str.strip()`. */
  function StripText(s: string): string {
    Strip(s, IsSpace)
  }

  /** `str.lstrip(chars)`: strips every leading character that occurs in `chars`. */
  function LStripChars(s: string, chars: string): string {
    LStrip(s, InChars(chars))
  }

  /** Membership in a set of characters, given as a string. */
  function InChars(chars: string): char -> bool {
    (c: char) => c in chars
  }

  /** Stripping a prefix made only of dropped elements strips the rest alone. */
  lemma {:induction false} LStripDropsPrefix<T>(p: seq<T>, rest: seq<T>, drop: T -> bool)
    requires forall i :: 0 <= i < |p| ==> drop(p[i])
    ensures LStrip(p + rest, drop) == LStrip(rest, drop)
    decreases |p|
  {
    if |p| > 0 {
      assert (p + rest)[0] == p[0];
      assert (p + rest)[1..] == p[1..] + rest;
      LStripDropsPrefix(p[1..], rest, drop);
    } else {
      assert p + rest == rest;
    }
  }

  lemma LStripStops<T>(s: seq<T>, drop: T -> bool)
    requires |s| > 0 && !drop(s[0])
    ensures LStrip(s, drop) == s
  {
  }

  /** Stripping twice strips no more than once. */
  lemma LStripTwice<T>(s: seq<T>, drop: T -> bool)
    ensures LStrip(LStrip(s, drop), drop) == LStrip(s, drop)
  {
    var r := LStrip(s, drop);
    if |r| > 0 {
      LStripStops(r, drop);
    }
  }

  /** `lstrip(chars)` removes a leading copy of `chars` itself and stops at
      the first character outside it. */
  lemma LStripCharsPrefix(chars: string, rest: string)
    requires |rest| > 0 && rest[0] !in chars
    ensures LStripChars(chars + rest, chars) == rest
  {
    LStripDropsPrefix(chars, rest, InChars(chars));
    assert !InChars(chars)(rest[0]);
    LStripStops(rest, InChars(chars));
  }

  /** After its own characters, `lstrip(chars)` also removes any further
      character of the set. */
  lemma LStripCharsPrefixAndOne(chars: string, c: char, rest: string)
    requires c in chars && |rest| > 0 && rest[0] !in chars
    ensures LStripChars(chars + ([c] + rest), chars) == rest
  {
    LStripDropsPrefix(chars, [c] + rest, InChars(chars));
    LStripDropsPrefix([c], rest, InChars(chars));
    assert !InChars(chars)(rest[0]);
    LStripStops(rest, InChars(chars));
  }

  /** A non-empty string without whitespace. */
  predicate IsWord(w: string) {
    |w| > 0 && forall i :: 0 <= i < |w| ==> !IsSpace(w[i])
  }

  /** The longest prefix of `s` containing no whitespace. */
  function TakeWord(s: string): (r: string)
    ensures StartsWith(s, r)
    ensures forall i :: 0 <= i < |r| ==> !IsSpace(r[i])
    ensures |r| < |s| ==> IsSpace(s[|r|])
  {
    if |s| == 0 || IsSpace(s[0]) then [] else [s[0]] + TakeWord(s[1..])
  }

  /** `s.split()[0]`, or `None` where Python raises IndexError because `s`
      holds only whitespace. */
  function FirstWord(s: string): (r: Option<string>)
    ensures r.None? <==> forall i :: 0 <= i < |s| ==> IsSpace(s[i])
    ensures r.Some? ==> |r.value| > 0 && forall i :: 0 <= i < |r.value| ==> !IsSpace(r.value[i])
  {
    var t := LStrip(s, IsSpace);
    if |t| == 0 then None else Some(TakeWord(t))
  }

  /** Stripping " " + w + tail, for a word `w`, leaves `w` and a prefix of `tail`. */
  lemma StripSpaceWord(w: string, tail: string) returns (k: nat)
    requires IsWord(w)
    ensures k <= |tail| && StripText(" " + w + tail) == w + tail[..k]
  {
    var x := " " + w + tail;
    assert x == [' '] + (w + tail);
    LStripDropsPrefix([' '], w + tail, IsSpace);
    assert (w + tail)[0] == w[0];
    LStripStops(w + tail, IsSpace);
    var y := RStrip(w + tail, IsSpace);
    assert !IsSpace((w + tail)[|w| - 1]);
    k := |y| - |w|;
    assert y == w + tail[..k];
  }

  /** The first word of a word followed by nothing or by whitespace. */
  lemma FirstWordOfWord(w: string, t: string)
    requires IsWord(w) && (t == [] || IsSpace(t[0]))
    ensures FirstWord(w + t) == Some(w)
  {
    var y := w + t;
    assert y[0] == w[0];
    LStripStops(y, IsSpace);
    var r := TakeWord(y);
    assert forall i :: 0 <= i < |w| ==> y[i] == w[i];
    assert |r| >= |w|;
    assert |t| > 0 ==> IsSpace(y[|w|]);
    assert |r| <= |w|;
    assert r == y[..|w|] == w;
  }

  /** The first word after a space, when what follows the word is nothing
      or starts with whitespace: `(" " + w + tail).strip().split()[0] == w`. */
  lemma WordAfterSpace(w: string, tail: string)
    requires IsWord(w) && (tail == [] || IsSpace(tail[0]))
    ensures FirstWord(StripText(" " + w + tail)) == Some(w)
  {
    var k := StripSpaceWord(w, tail);
    FirstWordOfWord(w, tail[..k]);
  }

  /** The pieces `str.split(sep)` glues back together. */
  function Join<T>(pieces: seq<seq<T>>, sep: T): seq<T>
    requires |pieces| >= 1
  {
    if |pieces| == 1 then pieces[0] else pieces[0] + [sep] + Join(pieces[1..], sep)
  }

  function IndexOf<T(==)>(s: seq<T>, x: T): (i: nat)
    requires x in s
    ensures i < |s| && s[i] == x && x !in s[..i]
  {
    if s[0] == x then 0 else 1 + IndexOf(s[1..], x)
  }

  /** `s.split(sep)` for a one-element separator: the pieces between the
      separators, which contain no separator and join back to `s`. */
  function Split<T(==)>(s: seq<T>, sep: T): (pieces: seq<seq<T>>)
    ensures |pieces| >= 1
    ensures forall i :: 0 <= i < |pieces| ==> sep !in pieces[i]
    ensures Join(pieces, sep) == s
    decreases |s|
  {
    if sep !in s then [s]
    else
      var i := IndexOf(s, sep);
      assert s == s[..i] + [sep] + s[i + 1..];
      [s[..i]] + Split(s[i + 1..], sep)
  }

  // ----------------------------------------------------------- splitlines

  /** The characters `str.splitlines()` breaks at: \n, \v, \f, \r, the
      three information separators, NEL and the two Unicode separators. */
  predicate IsLineBreak(c: char) {
    var n := c as int;
    || 10 <= n <= 13
    || 0x1C <= n <= 0x1E
    || n == 0x85 || n == 0x2028 || n == 0x2029
  }

  predicate NoLineBreak(s: string) {
    forall k :: 0 <= k < |s| ==> !IsLineBreak(s[k])
  }

  lemma NoLineBreakAppend(a: string, b: string)
    requires NoLineBreak(a) && NoLineBreak(b)
    ensures NoLineBreak(a + b)
  {
    forall k | 0 <= k < |a + b| ensures !IsLineBreak((a + b)[k]) {
      if k >= |a| { assert (a + b)[k] == b[k - |a|]; }
    }
  }

  /** The index of the first line break in `s`, or `|s|`. */
  function LineEnd(s: string): (i: nat)
    ensures i <= |s| && NoLineBreak(s[..i])
    ensures i < |s| ==> IsLineBreak(s[i])
  {
    if |s| == 0 || IsLineBreak(s[0]) then 0 else 1 + LineEnd(s[1..])
  }

  /** `str.splitlines()`: the lines without their terminators, where "\r\n"
      ends a single line and a final terminator opens no empty line. */
  function SplitLines(s: string): (lines: seq<string>)
    ensures forall i :: 0 <= i < |lines| ==> NoLineBreak(lines[i])
    ensures |s| > 0 ==> |lines| > 0
    decreases |s|
  {
    if |s| == 0 then []
    else
      var i := LineEnd(s);
      if i == |s| then [s]
      else
        var next := if s[i] == '\r' && i + 1 < |s| && s[i + 1] == '\n' then i + 2 else i + 1;
        [s[..i]] + SplitLines(s[next..])
  }

  /** Each line followed by "\n". */
  function Unlines(lines: seq<string>): string {
    if |lines| == 0 then "" else lines[0] + "\n" + Unlines(lines[1..])
  }

  lemma {:induction false} LineEndOfLine(line: string, rest: string)
    requires NoLineBreak(line)
    ensures LineEnd(line + "\n" + rest) == |line|
    decreases |line|
  {
    if |line| > 0 {
      assert (line + "\n" + rest)[1..] == line[1..] + "\n" + rest;
      LineEndOfLine(line[1..], rest);
    }
  }

  /** Splitting lines undoes joining them with newlines. */
  lemma {:induction false} SplitLinesUnlines(lines: seq<string>)
    requires forall i :: 0 <= i < |lines| ==> NoLineBreak(lines[i])
    ensures SplitLines(Unlines(lines)) == lines
    decreases |lines|
  {
    if |lines| > 0 {
      var line := lines[0];
      var rest := Unlines(lines[1..]);
      var s := line + "\n" + rest;
      assert Unlines(lines) == s;
      LineEndOfLine(line, rest);
      assert s[..|line|] == line;
      assert s[|line| + 1..] == rest;
      SplitLinesUnlines(lines[1..]);
      assert lines == [line] + lines[1..];
    }
  }

  // ---------------------------------------------------------------- UTF-8

  /** The UTF-8 encoding of one Unicode scalar value (RFC 3629, section 3). */
  function EncodeChar(c: char): (b: Bytes)
    ensures 1 <= |b| <= 4
  {
    var n := c as int;
    if n < 0x80 then [n as Byte]
    else if n < 0x800 then [(0xC0 + n / 64) as Byte, (0x80 + n % 64) as Byte]
    else if n < 0x10000 then
      [(0xE0 + n / 4096) as Byte, (0x80 + (n / 64) % 64) as Byte, (0x80 + n % 64) as Byte]
    else
      [(0xF0 + n / 262144) as Byte, (0x80 + (n / 4096) % 64) as Byte,
       (0x80 + (n / 64) % 64) as Byte, (0x80 + n % 64) as Byte]
  }

  /** `str.encode("utf-8")`. */
  function Encode(s: string): Bytes {
    if |s| == 0 then [] else EncodeChar(s[0]) + Encode(s[1..])
  }

  lemma {:induction false} EncodeAppend(a: string, b: string)
    ensures Encode(a + b) == Encode(a) + Encode(b)
    decreases |a|
  {
    if |a| > 0 {
      assert (a + b)[1..] == a[1..] + b;
      EncodeAppend(a[1..], b);
    } else {
      assert a + b == b;
    }
  }

  predicate IsContinuation(b: Byte) {
    0x80 <= b <= 0xBF
  }

  /** The well-formed UTF-8 sequence at the head of `b`, as a character and
      its length in bytes, following Table 3-7 of the Unicode Standard. */
  function DecodeHead(b: Bytes): (r: Option<(char, nat)>)
    ensures r.Some? ==> 1 <= r.value.1 <= |b|
  {
    if |b| == 0 then None
    else if b[0] < 0x80 then Some(((b[0] as int) as char, 1))
    else if 0xC2 <= b[0] <= 0xDF then
      if |b| >= 2 && IsContinuation(b[1]) then
        Some((((b[0] as int - 0xC0) * 64 + (b[1] as int - 0x80)) as char, 2))
      else None
    else if 0xE0 <= b[0] <= 0xEF then
      var lo := if b[0] == 0xE0 then 0xA0 else 0x80;
      var hi := if b[0] == 0xED then 0x9F else 0xBF;
      if |b| >= 3 && lo <= b[1] <= hi && IsContinuation(b[2]) then
        Some((((b[0] as int - 0xE0) * 4096 + (b[1] as int - 0x80) * 64 + (b[2] as int - 0x80)) as char, 3))
      else None
    else if 0xF0 <= b[0] <= 0xF4 then
      var lo := if b[0] == 0xF0 then 0x90 else 0x80;
      var hi := if b[0] == 0xF4 then 0x8F else 0xBF;
      if |b| >= 4 && lo <= b[1] <= hi && IsContinuation(b[2]) && IsContinuation(b[3]) then
        Some((((b[0] as int - 0xF0) * 262144 + (b[1] as int - 0x80) * 4096
               + (b[2] as int - 0x80) * 64 + (b[3] as int - 0x80)) as char, 4))
      else None
    else None
  }

  /** `bytes.decode("utf-8", "ignore")`: every byte that does not start a
      well-formed sequence is dropped. (Python drops the maximal ill-formed
      subpart at once; as its trailing bytes are continuation bytes, which
      never start a sequence, dropping one byte at a time removes the same bytes.) */
  function DecodeIgnore(b: Bytes): string
    decreases |b|
  {
    if |b| == 0 then ""
    else
      match DecodeHead(b)
      case Some((c, k)) => [c] + DecodeIgnore(b[k..])
      case None => DecodeIgnore(b[1..])
  }

  // ------------------------------------------------------------- decimals

  function DigitChar(d: nat): char
    requires d < 10
  {
    "0123456789"[d]
  }

  function DigitValue(c: char): nat {
    if '0' <= c <= '9' then (c as int - '0' as int) as nat else 0
  }

  /** Python's `str(n)` for a natural number. */
  function NatToDecimal(n: nat): (s: string)
    ensures |s| >= 1
    ensures forall i :: 0 <= i < |s| ==> '0' <= s[i] <= '9'
    decreases n
  {
    if n < 10 then [DigitChar(n)] else NatToDecimal(n / 10) + [DigitChar(n % 10)]
  }

  /** Python's `str(i)` / `"{}".format(i)` for an integer. */
  function IntToDecimal(i: int): string {
    if i < 0 then "-" + NatToDecimal(-i) else NatToDecimal(i)
  }

  /** The value of a string of decimal digits. */
  function DecimalValue(s: string): nat {
    if |s| == 0 then 0 else 10 * DecimalValue(s[..|s| - 1]) + DigitValue(s[|s| - 1])
  }

  lemma DigitRoundTrip(d: nat)
    requires d < 10
    ensures DigitValue(DigitChar(d)) == d
  {
  }

  /** Rendering an integer and reading the digits back gives the integer. */
  lemma {:induction false} DecimalRoundTrip(n: nat)
    ensures DecimalValue(NatToDecimal(n)) == n
    decreases n
  {
    if n < 10 {
      DigitRoundTrip(n);
      assert DecimalValue([DigitChar(n)]) == 10 * DecimalValue([]) + DigitValue(DigitChar(n));
    } else {
      var s := NatToDecimal(n);
      var t := NatToDecimal(n / 10);
      assert s == t + [DigitChar(n % 10)];
      assert s[..|s| - 1] == t;
      DecimalRoundTrip(n / 10);
      DigitRoundTrip(n % 10);
      assert DecimalValue(s) == 10 * DecimalValue(t) + DigitValue(DigitChar(n % 10));
    }
  }
}

=== FILE: traversal.dfy ===
/** The two read-only walks over a difference tree: breadth-first order
    (`traverse_breadth`) and priority order (`traverse_heapq`), where a
    caller-supplied scorer ranks each node given its parent's score. */
module Traversal {
  import opened Wrappers
  import opened Difference

  // ---------------------------------------------------------- breadth-first

  /** Taking the head of a queue and enqueueing its children loses exactly the head. */
  lemma PopFrontKeepsNodes(queue: seq<Diff>)
    requires |queue| > 0
    ensures multiset(FlattenAll(queue))
         == multiset{queue[0]} + multiset(FlattenAll(queue[1..] + queue[0].children))
    ensures |FlattenAll(queue)| == 1 + |FlattenAll(queue[1..] + queue[0].children)|
  {
    FlattenAllAppend(queue[1..], queue[0].children);
    assert FlattenAll(queue) == [queue[0]] + FlattenAll(queue[0].children) + FlattenAll(queue[1..]);
  }

  /** The queue-driven generator: take the head, yield it, enqueue its children. */
  function BreadthFrom(queue: seq<Diff>): seq<Diff>
    decreases |FlattenAll(queue)|
  {
    if |queue| == 0 then []
    else
      PopFrontKeepsNodes(queue);
      [queue[0]] + BreadthFrom(queue[1..] + queue[0].children)
  }

  function TraverseBreadth(d: Diff): (r: seq<Diff>)
    ensures |r| > 0 && r[0] == d
    ensures multiset(r) == multiset(Flatten(d))
  {
    BreadthFromVisitsAll([d]);
    assert FlattenAll([d]) == Flatten(d) + FlattenAll([]);
    BreadthFrom([d])
  }

  /** The breadth-first walk of a queue visits exactly the nodes of the queued trees. */
  lemma {:induction false} BreadthFromVisitsAll(queue: seq<Diff>)
    ensures multiset(BreadthFrom(queue)) == multiset(FlattenAll(queue))
    decreases |FlattenAll(queue)|
  {
    if |queue| > 0 {
      var next := queue[1..] + queue[0].children;
      PopFrontKeepsNodes(queue);
      BreadthFromVisitsAll(next);
      assert BreadthFrom(queue) == [queue[0]] + BreadthFrom(next);
    }
  }

  /** Every node of the tree is visited exactly once, and the own sizes along
      the walk add up to the tree's size. */
  lemma TraverseBreadthVisitsAll(d: Diff)
    ensures multiset(TraverseBreadth(d)) == multiset(Flatten(d))
    ensures SumSelf(TraverseBreadth(d)) == Size(d)
  {
    BreadthFromVisitsAll([d]);
    assert FlattenAll([d]) == Flatten(d) + FlattenAll([]);
    SizeOfAnyEnumeration(d, TraverseBreadth(d));
  }

  // --------------------------------------------------------- priority queue

  /** A queued node with its score. */
  datatype Entry<K> = Entry(key: K, node: Diff)

  function Nodes<K>(q: seq<Entry<K>>): (r: seq<Diff>)
    ensures |r| == |q| && forall i :: 0 <= i < |q| ==> r[i] == q[i].node
  {
    seq(|q|, i requires 0 <= i < |q| => q[i].node)
  }

  /** The entry `heappop` takes: the first one no other entry's key is below. */
  function MinIndex<K>(q: seq<Entry<K>>, lt: (K, K) -> bool): (i: nat)
    requires |q| > 0
    ensures i < |q|
  {
    if |q| == 1 then 0
    else
      var j := 1 + MinIndex(q[1..], lt);
      if lt(q[j].key, q[0].key) then j else 0
  }

  /** The entries pushed when `parent` is popped: each child scored by
      `f(child, parent score)`, in child order. The third argument of `f` is
      the number of earlier calls, so a stateful scorer such as a running
      counter is a function too. */
  function Score<K>(children: seq<Diff>, parentKey: K, calls: nat,
                    f: (Diff, Option<K>, nat) -> K): (r: seq<Entry<K>>)
    ensures Nodes(r) == children
    ensures forall j :: 0 <= j < |r| ==> r[j].key == f(children[j], Some(parentKey), calls + j)
  {
    seq(|children|, j requires 0 <= j < |children| =>
      Entry(f(children[j], Some(parentKey), calls + j), children[j]))
  }

  /** Removing one tree from a forest and appending its children loses exactly its root. */
  lemma FlattenRemove(a: seq<Diff>, x: Diff, b: seq<Diff>)
    ensures multiset(FlattenAll(a + [x] + b)) == multiset{x} + multiset(FlattenAll(a + b + x.children))
    ensures |FlattenAll(a + [x] + b)| == 1 + |FlattenAll(a + b + x.children)|
  {
    FlattenAllAppend(a + [x], b);
    FlattenAllAppend(a, [x]);
    FlattenAllAppend(a + b, x.children);
    FlattenAllAppend(a, b);
    assert FlattenAll([x]) == Flatten(x) + FlattenAll([]);
  }

  /** Popping entry `i` and pushing its children loses exactly the popped node. */
  lemma PopKeepsNodes<K>(q: seq<Entry<K>>, i: nat, pushed: seq<Entry<K>>)
    requires i < |q| && Nodes(pushed) == q[i].node.children
    ensures multiset(FlattenAll(Nodes(q)))
         == multiset{q[i].node} + multiset(FlattenAll(Nodes(q[..i] + q[i + 1..] + pushed)))
    ensures |FlattenAll(Nodes(q))| == 1 + |FlattenAll(Nodes(q[..i] + q[i + 1..] + pushed))|
  {
    var a, b := Nodes(q[..i]), Nodes(q[i + 1..]);
    assert q == q[..i] + [q[i]] + q[i + 1..];
    NodesAppend(q[..i] + [q[i]], q[i + 1..]);
    NodesAppend(q[..i], [q[i]]);
    NodesAppend(q[..i] + q[i + 1..], pushed);
    NodesAppend(q[..i], q[i + 1..]);
    assert Nodes([q[i]]) == [q[i].node];
    assert Nodes(q) == a + [q[i].node] + b;
    FlattenRemove(a, q[i].node, b);
  }

  /** A pop: the entry taken, its position in the queue, the queue after
      the children are pushed, and the scorer calls made so far. */
  datatype Popped<K> = Popped(top: Entry<K>, index: nat, next: seq<Entry<K>>, calls: nat)

  /** One round of the heap loop: `heappop` the best entry, then `heappush`
      each of its children scored against it. */
  function Pop<K>(q: seq<Entry<K>>, calls: nat, f: (Diff, Option<K>, nat) -> K,
                  lt: (K, K) -> bool): (p: Popped<K>)
    requires |q| > 0
    ensures multiset(FlattenAll(Nodes(q))) == multiset{p.top.node} + multiset(FlattenAll(Nodes(p.next)))
    ensures |FlattenAll(Nodes(q))| == 1 + |FlattenAll(Nodes(p.next))|
    ensures |p.next| == |q| - 1 + |p.top.node.children|
    ensures p.calls == calls + |p.top.node.children|
    ensures p.index == MinIndex(q, lt) && p.top == q[p.index]
    ensures p.next == q[..p.index] + q[p.index + 1..] + Score(p.top.node.children, p.top.key, calls, f)
  {
    var i := MinIndex(q, lt);
    var pushed := Score(q[i].node.children, q[i].key, calls, f);
    PopKeepsNodes(q, i, pushed);
    Popped(q[i], i, q[..i] + q[i + 1..] + pushed, calls + |pushed|)
  }

  /** The heap loop: pop, yield the popped entry with its score, go on. */
  function HeapqFrom<K>(q: seq<Entry<K>>, calls: nat, f: (Diff, Option<K>, nat) -> K,
                        lt: (K, K) -> bool): seq<Entry<K>>
    decreases |FlattenAll(Nodes(q))|
  {
    if |q| == 0 then []
    else
      var p := Pop(q, calls, f, lt);
      [p.top] + HeapqFrom(p.next, p.calls, f, lt)
  }

  /** `traverse_heapq(f, yield_score=True)`: the root is scored with no parent score. */
  function TraverseHeapqScored<K>(d: Diff, f: (Diff, Option<K>, nat) -> K, lt: (K, K) -> bool): seq<Entry<K>> {
    HeapqFrom([Entry(f(d, None, 0), d)], 1, f, lt)
  }

  /** `traverse_heapq(f)`: the nodes alone. */
  function TraverseHeapq<K>(d: Diff, f: (Diff, Option<K>, nat) -> K, lt: (K, K) -> bool): (r: seq<Diff>)
    ensures |r| > 0 && r[0] == d
    ensures multiset(r) == multiset(Flatten(d))
  {
    var q := [Entry(f(d, None, 0), d)];
    TraverseHeapqStartsAtRoot(d, f, lt);
    HeapqFromVisitsAll(q, 1, f, lt);
    assert Nodes(q) == [d];
    assert FlattenAll([d]) == Flatten(d) + FlattenAll([]);
    Nodes(TraverseHeapqScored(d, f, lt))
  }

  lemma NodesAppend<K>(a: seq<Entry<K>>, b: seq<Entry<K>>)
    ensures Nodes(a + b) == Nodes(a) + Nodes(b)
  {
  }

  lemma NodesCons<K>(top: Entry<K>, rest: seq<Entry<K>>)
    ensures multiset(Nodes([top] + rest)) == multiset{top.node} + multiset(Nodes(rest))
  {
    assert Nodes([top] + rest) == [top.node] + Nodes(rest);
  }

  lemma {:induction false} HeapqFromVisitsAll<K>(q: seq<Entry<K>>, calls: nat,
                                                f: (Diff, Option<K>, nat) -> K, lt: (K, K) -> bool)
    ensures multiset(Nodes(HeapqFrom(q, calls, f, lt))) == multiset(FlattenAll(Nodes(q)))
    decreases |FlattenAll(Nodes(q))|
  {
    if |q| == 0 {
      assert Nodes(q) == [];
    } else {
      var p := Pop(q, calls, f, lt);
      var rest := HeapqFrom(p.next, p.calls, f, lt);
      assert HeapqFrom(q, calls, f, lt) == [p.top] + rest;
      NodesCons(p.top, rest);
      assert multiset(Nodes(rest)) == multiset(FlattenAll(Nodes(p.next))) by {
        HeapqFromVisitsAll(p.next, p.calls, f, lt);
      }
    }
  }

  /** Whatever the scorer and the ordering, the priority walk visits every
      node exactly once, so its own sizes add up to the tree's size. */
  lemma TraverseHeapqVisitsAll<K>(d: Diff, f: (Diff, Option<K>, nat) -> K, lt: (K, K) -> bool)
    ensures multiset(TraverseHeapq(d, f, lt)) == multiset(Flatten(d))
    ensures SumSelf(TraverseHeapq(d, f, lt)) == Size(d)
  {
    var q := [Entry(f(d, None, 0), d)];
    HeapqFromVisitsAll(q, 1, f, lt);
    assert Nodes(q) == [d];
    assert FlattenAll([d]) == Flatten(d) + FlattenAll([]);
    SizeOfAnyEnumeration(d, TraverseHeapq(d, f, lt));
  }

  /** The root comes first, scored with no parent score. */
  lemma TraverseHeapqStartsAtRoot<K>(d: Diff, f: (Diff, Option<K>, nat) -> K, lt: (K, K) -> bool)
    ensures |TraverseHeapqScored(d, f, lt)| >= 1
    ensures TraverseHeapqScored(d, f, lt)[0] == Entry(f(d, None, 0), d)
  {
    assert MinIndex([Entry(f(d, None, 0), d)], lt) == 0;
  }

  // --------------------------------------------- order of the priority walk

  /** `lt` behaves like Python's `<` on comparable keys. */
  ghost predicate StrictWeakOrder<K(!new)>(lt: (K, K) -> bool) {
    && (forall a :: !lt(a, a))
    && (forall a, b, c :: lt(a, b) && lt(b, c) ==> lt(a, c))
    && (forall a, b, c :: lt(a, c) ==> lt(a, b) || lt(b, c))
  }

  /** Every child scores strictly after its parent. */
  ghost predicate ScoresIncrease<K(!new)>(f: (Diff, Option<K>, nat) -> K, lt: (K, K) -> bool) {
    forall n, k, c :: lt(k, f(n, Some(k), c))
  }

  /** The popped entry has no queued entry strictly below it. */
  lemma {:induction false} MinIndexIsMinimal<K(!new)>(q: seq<Entry<K>>, lt: (K, K) -> bool)
    requires |q| > 0 && StrictWeakOrder(lt)
    ensures forall j :: 0 <= j < |q| ==> !lt(q[j].key, q[MinIndex(q, lt)].key)
    decreases |q|
  {
    if |q| > 1 {
      MinIndexIsMinimal(q[1..], lt);
    }
  }

  /** An entry strictly below every other queued entry is the one popped. */
  lemma MinIndexOfLeast<K(!new)>(q: seq<Entry<K>>, lt: (K, K) -> bool, i: nat)
    requires i < |q| && StrictWeakOrder(lt)
    requires forall j :: 0 <= j < |q| && j != i ==> lt(q[i].key, q[j].key)
    ensures MinIndex(q, lt) == i
  {
    MinIndexIsMinimal(q, lt);
    assert !lt(q[i].key, q[MinIndex(q, lt)].key);
  }

  /** One round of the heap loop with the popped index and the next queue named. */
  lemma HeapqStep<K>(q: seq<Entry<K>>, calls: nat, f: (Diff, Option<K>, nat) -> K,
                     lt: (K, K) -> bool, i: nat, next: seq<Entry<K>>, c: nat)
    requires i < |q| && MinIndex(q, lt) == i
    requires next == q[..i] + q[i + 1..] + Score(q[i].node.children, q[i].key, calls, f)
    requires c == calls + |q[i].node.children|
    ensures HeapqFrom(q, calls, f, lt) == [q[i]] + HeapqFrom(next, c, f, lt)
  {
    var p := Pop(q, calls, f, lt);
    assert p.top == q[i] && p.next == next && p.calls == c;
  }

  ghost predicate NoneBelow<K>(q: seq<Entry<K>>, floor: K, lt: (K, K) -> bool) {
    forall j :: 0 <= j < |q| ==> !lt(q[j].key, floor)
  }

  ghost predicate Ascending<K>(out: seq<Entry<K>>, lt: (K, K) -> bool) {
    forall i, j :: 0 <= i < j < |out| ==> !lt(out[j].key, out[i].key)
  }

  /** After a pop, nothing left in the queue scores below the popped entry,
      and the popped entry is not below anything the queue was above. */
  lemma PopNoneBelow<K(!new)>(q: seq<Entry<K>>, calls: nat,
      f: (Diff, Option<K>, nat) -> K, lt: (K, K) -> bool, floor: K)
    requires |q| > 0 && StrictWeakOrder(lt) && ScoresIncrease(f, lt)
    requires NoneBelow(q, floor, lt)
    ensures !lt(Pop(q, calls, f, lt).top.key, floor)
    ensures NoneBelow(Pop(q, calls, f, lt).next, Pop(q, calls, f, lt).top.key, lt)
  {
    var p := Pop(q, calls, f, lt);
    var i := MinIndex(q, lt);
    var pushed := Score(q[i].node.children, q[i].key, calls, f);
    assert p.top == q[i] && p.next == q[..i] + q[i + 1..] + pushed;
    MinIndexIsMinimal(q, lt);
    RemoveNoneBelow(q, i, pushed, lt);
  }

  /** Entries no queued key is below, followed by entries scored above the
      popped one, leave nothing below the popped key. */
  lemma RemoveNoneBelow<K(!new)>(q: seq<Entry<K>>, i: nat, pushed: seq<Entry<K>>, lt: (K, K) -> bool)
    requires i < |q| && StrictWeakOrder(lt)
    requires forall j :: 0 <= j < |q| ==> !lt(q[j].key, q[i].key)
    requires forall j :: 0 <= j < |pushed| ==> lt(q[i].key, pushed[j].key)
    ensures NoneBelow(q[..i] + q[i + 1..] + pushed, q[i].key, lt)
  {
    var next := q[..i] + q[i + 1..] + pushed;
    forall j | 0 <= j < |next|
      ensures !lt(next[j].key, q[i].key)
    {
      if j < i {
        assert next[j] == q[j];
      } else if j < |q| - 1 {
        assert next[j] == q[j + 1];
      } else {
        assert next[j] == pushed[j - (|q| - 1)];
      }
    }
  }

  /** Putting an entry in front of an ascending walk that stays above it keeps it ascending. */
  lemma ConsAscending<K(!new)>(top: Entry<K>, rest: seq<Entry<K>>, floor: K, lt: (K, K) -> bool)
    requires StrictWeakOrder(lt)
    requires !lt(top.key, floor) && NoneBelow(rest, top.key, lt) && Ascending(rest, lt)
    ensures NoneBelow([top] + rest, floor, lt) && Ascending([top] + rest, lt)
  {
    var out := [top] + rest;
    forall j | 0 <= j < |out|
      ensures !lt(out[j].key, floor)
    {
      if j > 0 {
        assert out[j] == rest[j - 1];
      }
    }
    forall i, j | 0 <= i < j < |out|
      ensures !lt(out[j].key, out[i].key)
    {
      assert out[j] == rest[j - 1];
      if i > 0 {
        assert out[i] == rest[i - 1];
      }
    }
  }

  lemma {:induction false} HeapqFromAscending<K(!new)>(q: seq<Entry<K>>, calls: nat,
      f: (Diff, Option<K>, nat) -> K, lt: (K, K) -> bool, floor: K)
    requires StrictWeakOrder(lt) && ScoresIncrease(f, lt)
    requires NoneBelow(q, floor, lt)
    ensures NoneBelow(HeapqFrom(q, calls, f, lt), floor, lt)
    ensures Ascending(HeapqFrom(q, calls, f, lt), lt)
    decreases |FlattenAll(Nodes(q))|
  {
    if |q| > 0 {
      var p := Pop(q, calls, f, lt);
      var rest := HeapqFrom(p.next, p.calls, f, lt);
      PopNoneBelow(q, calls, f, lt, floor);
      HeapqFromAscending(p.next, p.calls, f, lt, p.top.key);
      assert HeapqFrom(q, calls, f, lt) == [p.top] + rest;
      ConsAscending(p.top, rest, floor, lt);
    }
  }

  /** If children always score after their parents, nodes come out in
      ascending score order, the root first. */
  lemma TraverseHeapqAscending<K(!new)>(d: Diff, f: (Diff, Option<K>, nat) -> K, lt: (K, K) -> bool)
    requires StrictWeakOrder(lt) && ScoresIncrease(f, lt)
    ensures Ascending(TraverseHeapqScored(d, f, lt), lt)
  {
    var root := f(d, None, 0);
    HeapqFromAscending([Entry(root, d)], 1, f, lt, root);
  }

  // ------------------------------------------------------ a counting scorer

  /** The scorer `lambda x, _: next(g)` of a running counter. */
  function CounterScore(n: Diff, parent: Option<int>, calls: nat): int {
    calls
  }

  function IntLt(a: int, b: int): bool {
    a < b
  }

  ghost predicate StrictlyIncreasing(q: seq<Entry<int>>) {
    forall i, j :: 0 <= i < j < |q| ==> q[i].key < q[j].key
  }

  /** Dropping the head of increasing keys below `calls` and appending the
      keys `calls`, `calls + 1`, ... keeps the keys increasing. */
  lemma AppendCounted(q: seq<Entry<int>>, pushed: seq<Entry<int>>, calls: nat)
    requires |q| > 0 && StrictlyIncreasing(q)
    requires forall j :: 0 <= j < |q| ==> q[j].key < calls
    requires forall j :: 0 <= j < |pushed| ==> pushed[j].key == calls + j
    ensures StrictlyIncreasing(q[1..] + pushed)
    ensures forall j :: 0 <= j < |q[1..] + pushed| ==> (q[1..] + pushed)[j].key < calls + |pushed|
  {
    var next := q[1..] + pushed;
    forall i, j | 0 <= i < j < |next|
      ensures next[i].key < next[j].key
    {
      if j < |q| - 1 {
        assert next[i] == q[i + 1] && next[j] == q[j + 1];
      } else if i < |q| - 1 {
        assert next[i] == q[i + 1] && next[j] == pushed[j - (|q| - 1)];
      } else {
        assert next[i] == pushed[i - (|q| - 1)] && next[j] == pushed[j - (|q| - 1)];
      }
    }
  }

  /** With increasing counter keys, the pop takes the head of the queue and
      appends its children, keyed by the next counter values. */
  lemma CounterPop(q: seq<Entry<int>>, calls: nat)
    requires |q| > 0 && StrictlyIncreasing(q)
    requires forall j :: 0 <= j < |q| ==> q[j].key < calls
    ensures Pop(q, calls, CounterScore, IntLt).top == q[0]
    ensures Nodes(Pop(q, calls, CounterScore, IntLt).next) == Nodes(q)[1..] + q[0].node.children
    ensures StrictlyIncreasing(Pop(q, calls, CounterScore, IntLt).next)
    ensures forall j :: 0 <= j < |Pop(q, calls, CounterScore, IntLt).next| ==>
              Pop(q, calls, CounterScore, IntLt).next[j].key < Pop(q, calls, CounterScore, IntLt).calls
  {
    var pushed := Score(q[0].node.children, q[0].key, calls, CounterScore);
    CounterPopsHead(q, calls);
    CounterKeys(q[0].node.children, q[0].key, calls);
    AppendCounted(q, pushed, calls);
    NodesAppend(q[1..], pushed);
  }

  /** With increasing keys the head is the entry `heappop` takes. */
  lemma CounterPopsHead(q: seq<Entry<int>>, calls: nat)
    requires |q| > 0 && StrictlyIncreasing(q)
    ensures Pop(q, calls, CounterScore, IntLt)
         == Popped(q[0], 0, q[1..] + Score(q[0].node.children, q[0].key, calls, CounterScore),
                   calls + |q[0].node.children|)
  {
    assert MinIndex(q, IntLt) == 0;
  }

  /** The counter scores children with consecutive keys from `calls`. */
  lemma CounterKeys(children: seq<Diff>, parentKey: int, calls: nat)
    ensures forall j :: 0 <= j < |children| ==>
              Score(children, parentKey, calls, CounterScore)[j].key == calls + j
  {
  }

  lemma {:induction false} CounterHeapqIsBreadth(q: seq<Entry<int>>, calls: nat)
    requires StrictlyIncreasing(q)
    requires forall j :: 0 <= j < |q| ==> q[j].key < calls
    ensures Nodes(HeapqFrom(q, calls, CounterScore, IntLt)) == BreadthFrom(Nodes(q))
    decreases |FlattenAll(Nodes(q))|
  {
    if |q| > 0 {
      var p := Pop(q, calls, CounterScore, IntLt);
      var rest := HeapqFrom(p.next, p.calls, CounterScore, IntLt);
      assert HeapqFrom(q, calls, CounterScore, IntLt) == [p.top] + rest;
      CounterPop(q, calls);
      CounterHeapqIsBreadth(p.next, p.calls);
      NodesAppend([p.top], rest);
      assert Nodes([p.top]) == [Nodes(q)[0]];
      assert BreadthFrom(Nodes(q)) == [Nodes(q)[0]] + BreadthFrom(Nodes(q)[1..] + Nodes(q)[0].children);
    }
  }

  /** With a running counter as scorer the priority walk is the breadth-first walk. */
  lemma CounterTraversalIsBreadthFirst(d: Diff)
    ensures TraverseHeapq(d, CounterScore, IntLt) == TraverseBreadth(d)
  {
    var q := [Entry(0, d)];
    CounterHeapqIsBreadth(q, 1);
    assert Nodes(q) == [d];
  }
}

=== FILE: wrappers.dfy ===
/** Failure-compatible wrappers shared by every module of the model:
    `Option` for Python's `None`-or-value, `Result` for a value or a raised exception. */
module Wrappers {

  datatype Option<+T> = None | Some(value: T) {

    predicate IsFailure() {
      None?
    }

    function PropagateFailure<U>(): Option<U>
      requires None?
    {
      None
    }

    function Extract(): T
      requires Some?
    {
      value
    }
  }

  datatype Result<+T, +E> = Success(value: T) | Failure(error: E) {

    predicate IsFailure() {
      Failure?
    }

    function PropagateFailure<U>(): Result<U, E>
      requires Failure?
    {
      Failure(error)
    }

    function Extract(): T
      requires Success?
    {
      value
    }
  }
}
